=== FILE: README.md ===
# corporater: a Dafny model of the diff, dependency and delivery core

This project models, in Dafny, the server-side core of the corporater tool.
The tool compares two snapshots of a configuration: arrays of entities, each
with an `id` and a free-form expression `exp`. From the pair it produces:

- a structural delta (supplied by a diff library);
- a classified change log with counters;
- the property references (`name := value` fragments of `exp`) that appear
  only in the second snapshot, together with the content fetched for them;
- a push of the result to message brokers, with bounded, fixed-delay retry.

Around that core the model also covers:

- the Express handlers that hold logic of their own (`/diff`,
  `/latest-diff`, the configuration slot, `processText`, the body checks,
  `/process-ids` and the file-name filter);
- `processIds`, which rewrites change lines;
- the entity merge and the request counters;
- the domain allow-list middleware;
- the browser-side positional compare and transform, and the ASCII tree
  renderer.

Modules, one per source file or concern:

| module | file | models |
|---|---|---|
| `Wrappers`, `JsonValues`, `Text` | wrappers.dfy, json.dfy, text.dfy | JSON values, strict equality, and the JavaScript string operations used (`trim`, `indexOf`, `split`, `replace`, the tag-stripping regex) |
| `PropertyExtraction` | property_extraction.dfy | `extractProperties` (both copies) |
| `Dependencies` | dependencies.dfy | `collectProperties`, `findMissingDependencies`, `fetchMissingDependenciesContent`, the final merge |
| `DiffAnalysis` | diff_analysis.dfy | `analyzeDiff`, `initializeChanges`, `calculateTotalChanges` |
| `ServiceJsonProcessor`, `RootJsonProcessor` | json_processor.dfy, root_json_processor.dfy | `processJsonData` in services/jsonProcessor.js and jsonProcessor.js |
| `Delivery`, `RootMessageQueue`, `ServiceMessageQueue` | delivery.dfy, message_queue.dfy, services_message_queue.dfy | the retry runs and `sendChunks` of messageQueue.js and services/messageQueue.js |
| `IdProcessor` | id_processor.dfy | `processIds` |
| `TextRows` | process_text.dfy | `processText` |
| `ApiRoutes` | api_routes.dfy | the route handlers and their module state |
| `EntityService` | entity_service.dfy | `mergeEntityData` |
| `TrafficMetricsService` | traffic_metrics.dfy | `incrementRequestCount`, `getTrafficMetrics` |
| `CheckDomain` | check_domain.dfy | the domain allow-list middleware |
| `CompareJson` | compare.dfy | `compareJson`, `transformJson`, `keyidspaceMap` |
| `FileStructure` | file_structure.dfy | `createAnalogTree` |

Several collaborators become parameters of the model:

- the diff library: functions `differ` and `patcher`;
- the source server: a `catalog` oracle from (property, id) to optional content;
- the broker answers: an oracle `accepts(k)` for the k-th send;
- `JSON.stringify` of a result: `stringify`;
- `Buffer` base64: `encode`;
- the GitHub upload: `publish`;
- the `.gitignore` matcher: `ignores`;
- the clock: `now`.

Timers become `Wait(5000)` events in a delivery log. Every send, delivery,
drop and skipped backend is an event in that log.

### Behaviour worth knowing

The code behaves as follows, and the model keeps this behaviour:

- **Fetched dependencies.** The merge `{...missingDependencies,
  ...missingDependenciesContent}` replaces the whole id list of a property with
  the content map as soon as one id of that property was fetched. Ids whose
  fetch failed are then no longer reported. They stay reported only when no
  id of the property succeeded (`Dependencies.MergedMeaning`).
- **Retry bound.** services/messageQueue.js retries while `attempt <=
  MAX_RETRIES`, so it makes up to six sends. messageQueue.js uses `<` and
  makes up to five.
- **Delivery blocks the response.** `/diff` awaits `sendChunks` before it
  answers, so delivery is not fire-and-forget. Fetches are sequential, one
  `await` at a time.
- **Failures of the caller-facing diff.** `collectProperties` throws on a
  `null` entity, and on an entity that declares a key naming an inherited
  `Object` member (`constructor`, `toString`, …). Either way `/diff` answers
  500.
- **Extracted values.** A value keeps its quotes and closing parentheses.
  It runs to the next comma, or to the end of the text
  (`PropertyExtraction.ParenthesisKeptExample`).
- **Array-valued `exp`.** A truthy `exp` that is not a string is converted to
  text by `regex.exec`; an array becomes its elements joined with commas, so
  assignments inside it are extracted (`Dependencies.ArrayExpExample`).
- **jsonProcessor.js has no array guard.** A non-array snapshot fails in
  `jsonData.forEach`.

## Model

| member | source | states |
|---|---|---|
| PropertyExtraction.ExtractProperties | services/jsonProcessor.js:10-21 | the `regex.exec` loop computes `Extracted(exp)`; a key other than `__proto__` is present iff some match names it; every value is non-empty and comma-free |
| PropertyExtraction.Extracted | services/jsonProcessor.js:10-21 | the object `extractProperties` returns: the matches of the pattern, assigned in order, so a later assignment to a key overwrites an earlier one and `__proto__` stores nothing (its meaning is proved by `ExtractedKeys` and `LastWriteWins`) |
| PropertyExtraction.ExtractedKeys | services/jsonProcessor.js:10-21 | apart from `__proto__`, a key is extracted iff some match of the pattern names it |
| PropertyExtraction.MatchAt | services/jsonProcessor.js:12 | a match at `i` ends after `i` and within the text |
| PropertyExtraction.MatchKey | services/jsonProcessor.js:12 | the key of a match is a non-empty run of word characters starting at the match position |
| PropertyExtraction.MatchAssignment | services/jsonProcessor.js:12 | a match has `:=` after the key and the white space following it |
| PropertyExtraction.MatchValue | services/jsonProcessor.js:12 | the value of a match is non-empty, has no comma, and is followed by a comma or the end of the text |
| PropertyExtraction.MatchValueStart | services/jsonProcessor.js:12 | the value starts at the first non-space after `:=`; when only spaces follow `:=` before a comma or the end, it is the last of those spaces |
| PropertyExtraction.SingleAssignment | services/jsonProcessor.js:10-21 | extracting one `key := value` (a word key, a comma-free value not starting with a space) gives back exactly that pair; for `__proto__` it gives the empty object |
| PropertyExtraction.ParenthesisKeptExample | services/jsonProcessor.js:12 | `name := 'x')` extracts `name` with the value `'x')`: quotes and the closing parenthesis stay in the value |
| PropertyExtraction.MatchNeedsAssignment | services/jsonProcessor.js:12 | no `:=` in the text means no match anywhere |
| PropertyExtraction.LastWriteWins | services/jsonProcessor.js:15-18 | each key holds the value of the last match naming it; keys not named by any match keep their earlier value |
| PropertyExtraction.NoAssignmentNoProperties | services/jsonProcessor.js:15-18 | a text without `:=` yields no matches |
| PropertyExtraction.NoAssignmentEmpty | services/jsonProcessor.js:10-21 | an expression without `:=` extracts to the empty object, not an error |
| Dependencies.ItemProperties | services/jsonProcessor.js:32-33 | reading `item.exp` fails exactly on a `null` item; a falsy `exp` gives nothing; a truthy one is scanned as the text `regex.exec` converts it to |
| Dependencies.StringOf | services/jsonProcessor.js:32-33 | the text `regex.exec` converts a truthy `exp` to; a string `exp` is scanned as itself |
| Dependencies.StringsJoined | services/jsonProcessor.js:14 | `regex.exec` reads an array of strings as those strings joined with `,` |
| Dependencies.ArrayExpExample | services/jsonProcessor.js:32-33 | the entity `{"id": 1, "exp": ["a := b"]}` gives property `a` the value `b` |
| Dependencies.AddToSet | services/jsonProcessor.js:35-38 | `Set.add` keeps the set duplicate-free and adds exactly the value |
| Dependencies.CollectProperties | services/jsonProcessor.js:28-44 | the `forEach` loop returns `Collected(jsonData)`, including its failure |
| Dependencies.Collected | services/jsonProcessor.js:28-44 | the sets `collectProperties` builds, item by item in order, or the TypeError thrown on a `null` item or a key inherited from `Object.prototype` (proved by `CollectedFails`, `CollectedSetsNonEmpty` and `CollectedValues`) |
| Dependencies.CollectItem | services/jsonProcessor.js:31-42 | one entity's step: the failure of reading `exp` or of `add` on an inherited name, otherwise the sets with the entity's pairs added |
| Dependencies.AddEntries | services/jsonProcessor.js:34-39 | an entity's entries are added to the sets, or the loop fails with `properties[key].add is not a function` when a key names an inherited member |
| Dependencies.CollectedFails | services/jsonProcessor.js:31-39 | collection fails iff some entity is `null` or declares an inherited name |
| Dependencies.CollectedSetsNonEmpty | services/jsonProcessor.js:35-38 | every collected set is non-empty and duplicate-free |
| Dependencies.CollectedValues | services/jsonProcessor.js:31-41 | a value is in the set of property `k` iff some entity declares `k` with that value |
| Dependencies.SkipFalsyExp | services/jsonProcessor.js:32 | an entity whose `exp` is falsy changes nothing |
| Dependencies.PrefixErr | services/jsonProcessor.js:31-41 | once collection has failed on a prefix, the whole array fails with the same error |
| Dependencies.Without | services/jsonProcessor.js:159-161 | the filter keeps exactly the values not in the excluded set, duplicate-free |
| Dependencies.WithoutAppend | services/jsonProcessor.js:159-161 | the filter keeps the order: filtering a concatenation filters each part in turn |
| Dependencies.WithoutOne | services/jsonProcessor.js:159-161 | a single value is kept exactly when it is not excluded |
| Dependencies.FindMissing | services/jsonProcessor.js:157-168 | a property is reported iff it is in the second snapshot and absent from the first or has a value the first lacks; values as set difference, or all values when the first lacks the property |
| Dependencies.FindMissingDependencies | services/jsonProcessor.js:152-171 | the `forEach` over the second snapshot's keys computes `FindMissing` |
| Dependencies.MissingMeaning | services/jsonProcessor.js:152-171 | over whole snapshots, a value is missing iff the second snapshot declares it and the first does not; lists are non-empty and duplicate-free |
| Dependencies.NothingMissingFromItself | services/jsonProcessor.js:157-168 | a snapshot compared with itself reports nothing |
| Dependencies.SourceServer.Get | services/jsonProcessor.js:58-68 | one authenticated read: the catalog answer, and the request is appended to the log |
| Dependencies.Requests | services/jsonProcessor.js:56-59 | one request per id, all for the property |
| Dependencies.FetchProperty | services/jsonProcessor.js:56-72 | the inner loop fetches each id in order; content only for ids whose fetch succeeded |
| Dependencies.FetchMissingDependenciesContent | services/jsonProcessor.js:51-77 | the content equals `Fetched(missing, catalog)`; earlier requests are kept and the new ones are exactly the (property, id) pairs of the missing list, each pair as many times as the id is listed under its property (one request per listed id) |
| Dependencies.MergedMeaning | services/jsonProcessor.js:212-215 | after the spread merge, the keys are the missing properties; a property with at least one fetched id holds the content of exactly the fetched ids; one with none keeps its id list |
| DiffAnalysis.Classify | services/jsonProcessor.js:96-122 | length 1 is an addition (before `null`); length 3 with a trailing `0` is a deletion (after `null`); anything else is a modification of elements 0 and 1 |
| DiffAnalysis.CountAppend | services/jsonProcessor.js:98-116 | counting a kind over a concatenated log adds the two counts |
| DiffAnalysis.CountsAddUp | services/jsonProcessor.js:178-180 | additions, deletions and modifications together count every log entry |
| DiffAnalysis.Changes.constructor | services/jsonProcessor.js:133-144 | all counters start at zero |
| DiffAnalysis.ChangeLog.Push | services/jsonProcessor.js:99-121 | `changeLogs.push` appends one entry |
| DiffAnalysis.RecordChange | services/jsonProcessor.js:96-122 | one leaf appends its classified entry and bumps the matching counters; depth and other counters unchanged |
| DiffAnalysis.AnalyzeDiff | services/jsonProcessor.js:87-127 | the recursive walk appends `Logs(diff)`; the counters grow by that log's tally; depth becomes the maximum reached; `_t` and non-object leaves are skipped |
| DiffAnalysis.Logs | services/jsonProcessor.js:90-125 | the entries the walk appends, in member order, skipping `_t` and descending into object-valued changes; `AddedSingle`, `AddedAppend`, `LogPaths` and `NestedExample` state their paths and kinds |
| DiffAnalysis.Depth | services/jsonProcessor.js:88-124 | the deepest nesting level the walk reaches from its starting level; it is never below the starting level |
| DiffAnalysis.AnalyzeMember | services/jsonProcessor.js:92-126 | one round of the key loop appends that member's entries and tallies them; `_t` and plain values change nothing |
| DiffAnalysis.AddedSingle | services/jsonProcessor.js:98-115 | one entry raises exactly the counter(s) of its kind |
| DiffAnalysis.AddedAppend | services/jsonProcessor.js:87-127 | tallying a concatenated log is tallying one part after the other |
| DiffAnalysis.DepthShift | services/jsonProcessor.js:88-124 | the depth reached from a starting depth `d` is `d` plus the depth from 0 |
| DiffAnalysis.LogPaths | services/jsonProcessor.js:94 | below a non-empty parent path, every logged path is that path followed by `.` |
| DiffAnalysis.NoDeltaNoChanges | services/jsonProcessor.js:90-123 | a delta that is not an object (jsondiffpatch gives an object or nothing for two arrays) yields no log entries and no extra depth |
| DiffAnalysis.NestedExample | services/jsonProcessor.js:87-127 | a delta nested three levels deep gives one entry with the dotted path and depth 2 |
| DiffAnalysis.ClassifyExamples | services/jsonProcessor.js:97-121 | concrete addition, deletion and modification leaves |
| ServiceJsonProcessor.ProcessJsonData | services/jsonProcessor.js:188-217 | non-arrays are rejected with no request made; the result is Ok iff both snapshots collect; on success it holds the diff, the patch, counters and log summarising the diff, and the merged missing dependencies; the request log keeps its earlier requests and adds exactly the (property, id) pairs that the second snapshot references and the first does not (`FindMissing`), each as often as the id is listed |
| ServiceJsonProcessor.WalkDelta | services/jsonProcessor.js:197-205 | the walk of the delta from fresh counters and `calculateTotalChanges` yield the log `Logs(delta)`, one counter per entry kind, `valueChanges` equal to the modifications, a total equal to the number of entries, `addedKeys`/`removedKeys` at 0 and the deepest level reached |
| RootJsonProcessor.ProcessJsonData | jsonProcessor.js:18-132 | without a guard: a non-array first or second snapshot fails in `forEach`; a failing collection surfaces its error; otherwise the same result as the services version; the request log keeps its earlier requests and adds exactly the (property, id) pairs that the second snapshot references and the first does not (`FindMissing`), each as often as the id is listed |
| RootJsonProcessor.WalkInlineTotal | jsonProcessor.js:117-120 | the closure walk and the inline total give the same summary as the services version |
| Delivery.SendCountAppend | messageQueue.js:77-108 | sends in a concatenated log add up |
| Delivery.Retry | messageQueue.js:77-108 | the events of one `send…WithRetry` call: a send, then delivery on success, or a wait and a further attempt while attempts remain, or giving up on the last one (`RetryLength`, `RetryShape`, `RetryOutcome` prove this) |
| Delivery.RetryLength | messageQueue.js:77-108 | one retry run makes between 1 and the remaining-attempt count of sends, two events per send |
| Delivery.RetryShape | messageQueue.js:86-99 | sends numbered from the starting attempt, separated by fixed 5000 ms waits |
| Delivery.RetryFailsBeforeLast | messageQueue.js:92-99 | every send but the last one of a run failed |
| Delivery.RetryOutcome | messageQueue.js:86-106 | a run ends delivered iff its last send succeeded; otherwise it used every attempt and ends dropped |
| Delivery.PassSendCount | messageQueue.js:49-52 | a pass over `n` chunks makes between `n` and `maxSends * n` sends |
| Delivery.PrefixSendCount | messageQueue.js:49-52 | the first `n` rounds of the chunk loop send exactly as often as they call the broker |
| Delivery.PrefixCallsAtMost | messageQueue.js:49-52 | the first `n` rounds make at most `maxSends * n` broker calls |
| Delivery.PrefixEvents | messageQueue.js:49-52 | the first `n` rounds only send chunks to their own backend and never log a skip |
| Delivery.PassEvents | messageQueue.js:49-52 | a pass only sends its own chunks to its own backend, and never logs a skip |
| Delivery.PassRuns | messageQueue.js:49-52 | a pass is, in chunk order, one retry run per chunk; each run sends only its chunk, between once and `maxSends` times |
| Delivery.ChunkRunInPass | messageQueue.js:49-52 | the run of chunk `i` follows the runs of the chunks before it and lies within the pass |
| Delivery.ChunkRunSends | messageQueue.js:49-52 | the run of chunk `i` sends only that chunk, between once and `maxSends` times |
| Delivery.PrefixGrows | messageQueue.js:49-52 | the runs of the first `n` chunks are a prefix of the runs of the first `m >= n` chunks |
| Delivery.RetryEvents | messageQueue.js:77-108 | a run only sends its own body to its own backend |
| Delivery.FifthAttemptDelivers | messageQueue.js:97-99 | four failures then a success: delivered on the fifth send |
| Delivery.AllFailGivesUp | messageQueue.js:100-106 | a broker that never accepts: the run uses every attempt and ends dropped |
| RootMessageQueue.MessageQueue.constructor | messageQueue.js:8-43 | RabbitMQ has a channel only when it is enabled and `connect` and `createChannel` succeeded (a later `assertQueue` failure leaves it set); Azure Service Bus has a sender only when it is enabled and `createSender` succeeded |
| RootMessageQueue.MessageQueue.SendWithRetry | messageQueue.js:77-108 | the recursion on `attempt`: the log gains exactly one retry run with at most five attempts, and the broker calls grow by that run's sends |
| RootMessageQueue.MessageQueue.SendRound | messageQueue.js:49-52 | one round of the chunk loop: chunk `i`'s retry run follows the runs of the chunks before it |
| RootMessageQueue.MessageQueue.SendPass | messageQueue.js:49-52 | the chunk loop of one backend: chunks in order, each run finished before the next |
| RootMessageQueue.MessageQueue.SendChunks | messageQueue.js:45-75 | the RabbitMQ part, then the Azure part; each is a full pass when enabled and initialised, or a warning; it never fails |
| RootMessageQueue.AtMostFiveAttempts | messageQueue.js:97 | a message gets between one and five attempts per backend |
| RootMessageQueue.NeverAcceptedFiveAttempts | messageQueue.js:97-106 | a broker that never accepts sees exactly five sends, then the message is dropped |
| RootMessageQueue.SameChunksToBoth | messageQueue.js:45-75 | each backend is sent only chunk texts; the run of every chunk sends it at least once and at most five times, so a pass makes between `n` and `5n` sends |
| ServiceMessageQueue.RabbitQueue.constructor | services/messageQueue.js:7-26 | a channel exists only when RabbitMQ is enabled and `connect` and `createChannel` succeeded; a later `assertQueue` failure leaves it set |
| ServiceMessageQueue.RabbitQueue.SendWithRetry | services/messageQueue.js:44-69 | the log gains one retry run with at most six sends |
| ServiceMessageQueue.RabbitQueue.SendRound | services/messageQueue.js:31-34 | one round of the chunk loop: chunk `i`'s retry run follows the runs of the chunks before it |
| ServiceMessageQueue.RabbitQueue.SendChunks | services/messageQueue.js:28-42 | a sequential pass over the chunks when enabled and initialised, otherwise a warning |
| ServiceMessageQueue.AtMostSixSends | services/messageQueue.js:54 | a chunk gets between one and six sends |
| ServiceMessageQueue.NeverAcceptedSixSends | services/messageQueue.js:54-67 | a broker that never accepts sees exactly six sends, then the chunk is dropped |
| ServiceMessageQueue.SixthSendDelivers | services/messageQueue.js:54-61 | five failures then a success: delivered on the sixth send |
| IdProcessor.DigitEnd | services/idProcessor.js:30 | `\d+` stops at the first non-digit |
| IdProcessor.FindChange | services/idProcessor.js:29-31 | `line.match` with the change pattern: the match at the first position where the pattern matches, or none (`FindChangeSound` and `FindChangeComplete` prove both directions) |
| Text.CharEnd | services/idProcessor.js:30 | `[^']+` (and `[^,]+` of the property pattern) stops at the first stop character, which it never passes |
| IdProcessor.FindChangeSound | services/idProcessor.js:29-31 | a match has two non-empty digit ids and a non-empty, quote-free name, and its text occurs in the line |
| IdProcessor.FindChangeComplete | services/idProcessor.js:29-31 | wherever the text of a well-formed match occurs, the pattern matches there with exactly those groups and `line.match` finds a match; with no earlier match it finds this one |
| IdProcessor.ChangeAtSound | services/idProcessor.js:30 | the same facts for a match at a given position |
| IdProcessor.ChangeAtOccurs | services/idProcessor.js:30 | the matched text occurs at the match position |
| IdProcessor.ChangeAtParts | services/idProcessor.js:30 | where the groups of a match start and end: `t.`, the id digits, `.change(id := '`, the quoted id, `', name := '`, the name and its closing quote |
| IdProcessor.RemoveSpaces | services/idProcessor.js:36 | `replace(/\s+/g, "")` leaves no white space, keeps only characters of the name, and is the identity on names without white space |
| IdProcessor.RemoveSpacesAppend | services/idProcessor.js:36 | removing white space from a concatenation removes it from each part, in order |
| IdProcessor.RemoveSpacesChar | services/idProcessor.js:36 | a single white-space character is dropped and any other character is kept |
| IdProcessor.TypeComment | services/idProcessor.js:35 | a type exists iff the line contains `//` |
| IdProcessor.SecondPartIsSplitOne | services/idProcessor.js:35 | the text before the trim is `line.split("//")[1]`, present iff the split has at least two parts |
| IdProcessor.NewNameShape | services/idProcessor.js:36-38 | the new name ends with the prefix; an unmapped type adds nothing; the name part has no white space |
| IdProcessor.RewriteLine | services/idProcessor.js:32-45 | an unmatched line is kept; a matched line without a `//` comment throws; otherwise the first `t.<id>` and then the first `id := '<id>'` are rewritten with the new name (`UnmatchedLineKept`, `MatchedLineNeedsComment`, `QuotedIdRewritten`, `BothReplaced` prove this) |
| IdProcessor.MatchCount | services/idProcessor.js:43 | at most one change per line |
| IdProcessor.MatchCountStep | services/idProcessor.js:32-43 | one more line adds one change exactly when it matches |
| IdProcessor.ProcessIds | services/idProcessor.js:3-57 | fails (with the `trim` of `undefined` error) iff a matching line has no `//`; otherwise one row per line of `split("\n")`, numbered from 1, holding the rewritten line, and a summary of all, matching and unchanged lines |
| IdProcessor.ProcessLines | services/idProcessor.js:28-47 | the `forEach` over the lines, with the same contract over a list of lines |
| IdProcessor.UnmatchedLineKept | services/idProcessor.js:44-46 | a line without a match is kept unchanged |
| IdProcessor.MatchedLineNeedsComment | services/idProcessor.js:32-35 | a matching line fails iff it has no `//` |
| IdProcessor.QuotedIdRewritten | services/idProcessor.js:39-41 | when the quoted id equals the `t.` id, the rewritten line holds `id := '<newName>'` |
| IdProcessor.BothReplaced | services/idProcessor.js:39-41 | on a line holding the matched text with equal ids, replacing `t.<id>` and then `id := '<id>'` leaves `id := '<newName>'` in the line |
| TextRows.CleanAllAt | routes/apiRoutes.js:103 | each line is cleaned by tag stripping and trimming |
| TextRows.CleanLine | routes/apiRoutes.js:103 | a line with its tags removed and then trimmed |
| TextRows.IsBase64Line | routes/apiRoutes.js:97-104 | the cleaned line has at least 40 characters, all from `[a-zA-Z0-9+/=]` |
| TextRows.Exps | routes/apiRoutes.js:102-121 | the rows' expressions: a run of base64 lines becomes one row with its lines joined by newlines, every other non-empty line becomes a row, empty lines give none (`ExpsNonEmpty`, `RunGathered`, `Base64RunMerged` prove this) |
| TextRows.Terminated | routes/apiRoutes.js:99-109 | the pending base64 text is empty iff no line is pending |
| TextRows.NumberedPush | routes/apiRoutes.js:110-120 | `rows.push({ id: rowIndex++, exp })` keeps ids consecutive from 1 |
| TextRows.ProcessText | routes/apiRoutes.js:92-124 | the rows carry `Exps` of the cleaned lines of the `<BR/>`-split text, numbered from 1 |
| TextRows.ProcessLines | routes/apiRoutes.js:102-121 | the `forEach` with its final flush gives the same rows over a list of lines |
| TextRows.EndRun | routes/apiRoutes.js:109-121 | a non-base64 line, or the end of the input, flushes the pending run as one row and then adds the cleaned line if it is not empty, keeping ids consecutive |
| TextRows.FlushedRun | routes/apiRoutes.js:110-120 | `currentBase64Data.trim()` is the pending lines joined by newlines |
| TextRows.TerminatedJoin | routes/apiRoutes.js:107 | the pending text is the joined lines plus a final newline |
| TextRows.ExpsNonEmpty | routes/apiRoutes.js:108-115 | no row has an empty `exp` |
| TextRows.RunGathered | routes/apiRoutes.js:106-107 | base64 lines are gathered without emitting a row |
| TextRows.Base64RunMerged | routes/apiRoutes.js:104-112 | a leading run of base64 lines becomes one row, its lines joined by newlines; it ends at the first other line, empty or not |
| ApiRoutes.Router.constructor | routes/apiRoutes.js:20-21 | no stored diff and an empty configuration at start |
| ApiRoutes.Router.PostDiff | routes/apiRoutes.js:23-44 | non-arrays get 400 with nothing changed; a processing failure gets 500 with the slot and queue untouched; success stores the result, sends it as one chunk and returns it; the request log keeps its earlier requests and adds exactly the pairs that the second snapshot references and the first does not, once per listed id, the queue's call log grows by exactly the retry events of that one chunk, and the channel stays as it was |
| ApiRoutes.Router.LatestDiff | routes/apiRoutes.js:46-55 | 404 iff no diff was stored, else the stored result |
| ApiRoutes.Router.UpdateConfig | routes/apiRoutes.js:61-68 | the body replaces the configuration and the success message is returned |
| ApiRoutes.DiffThenLatest | routes/apiRoutes.js:33-48 | after a successful `/diff`, `/latest-diff` returns the same result; the configuration is untouched |
| ApiRoutes.Router.GetConfig | routes/apiRoutes.js:57-59 | the stored configuration |
| ApiRoutes.UpdateThenGetConfig | routes/apiRoutes.js:57-68 | `/config` after `/update-config` returns the posted body, and the stored diff is untouched |
| ApiRoutes.TextBody | routes/apiRoutes.js:82-86 | the body passes iff it is a string with a non-white-space character |
| ApiRoutes.Base64Encode | routes/apiRoutes.js:79-90 | 400 exactly for a bad body, before any encoding; otherwise the encoding of the text |
| ApiRoutes.GenExtended | routes/apiRoutes.js:126-149 | 400 for a bad body before any work; otherwise 200 with the `processText` rows iff publishing them succeeds, 500 if not |
| ApiRoutes.NumberedUnique | routes/apiRoutes.js:136-138 | the rows for given texts are unique |
| ApiRoutes.ProcessIdsRoute | routes/apiRoutes.js:155-167 | a missing or non-string input throws (500); a blank text after the `<BR/>` replacement gets 400; otherwise `processIds` with the prefix, a missing prefix read as `undefined`, and 500 when it throws |
| ApiRoutes.VisibleFiles | routes/apiRoutes.js:182-190 | a name is kept iff the ignore rules do not match its path relative to the repository root (the caller's matcher for that directory), it is not hidden, not `.log`/`.yaml` and does not contain `lock` |
| ApiRoutes.VisibleFilesIdempotent | routes/apiRoutes.js:183-190 | filtering twice is filtering once |
| ApiRoutes.VisibleFilesAppend | routes/apiRoutes.js:183-190 | the filter keeps the listing's order: filtering a concatenation is the concatenation of the filtered parts |
| ApiRoutes.FilterExamples | routes/apiRoutes.js:186-188 | `.env`, `server.log`, `config.yaml` and `package-lock.json` are dropped, `src` is kept |
| ApiRoutes.DroppedNames | routes/apiRoutes.js:186-188 | a dot file, a `.log`, a `.yaml` and a `lock` name each fail their own rule |
| EntityService.MergeEntityData | services/entityService.js:1-11 | keys are the union; every new key ends with the new value; keys only in the existing entity keep theirs |
| EntityService.StrictEqualsSame | services/entityService.js:5 | values that are `===` are equal, so skipping the write loses nothing |
| EntityService.Merged | services/entityService.js:2-8 | the spread of both entities has the union of their keys |
| EntityService.MergeIsSpread | services/entityService.js:2-10 | the loop computes exactly the object spread of both entities |
| EntityService.MergeTwice | services/entityService.js:4-8 | merging the same new entity again changes nothing |
| EntityService.MergeNothing | services/entityService.js:2-10 | merging an empty entity returns a copy of the existing one |
| TrafficMetricsService.CountRecent | services/trafficMetricsService.js:11-13 | the recent count never exceeds the number of timestamps |
| TrafficMetricsService.CountRecentAppend | services/trafficMetricsService.js:6-13 | a new timestamp adds one to the count exactly when it is within the window |
| TrafficMetricsService.CountRecentAll | services/trafficMetricsService.js:11-13 | with every timestamp in the window, all are counted |
| TrafficMetricsService.CountRecentNone | services/trafficMetricsService.js:11-13 | with no timestamp in the window, none is counted |
| TrafficMetricsService.WindowBoundary | services/trafficMetricsService.js:12 | a request exactly 60000 ms old counts, one 60001 ms old does not |
| TrafficMetricsService.TrafficMetrics.constructor | services/trafficMetricsService.js:1-2 | zero requests and no timestamps at start |
| TrafficMetricsService.TrafficMetrics.IncrementRequestCount | services/trafficMetricsService.js:4-7 | the count grows by one, exactly one timestamp is appended, the count still equals the number of timestamps, and the recent count at that time grows by one |
| TrafficMetricsService.TrafficMetrics.GetTrafficMetrics | services/trafficMetricsService.js:9-18 | reports the request count and a recent count no larger than it, changing nothing |
| CheckDomain.CheckDomain | middleware/checkDomain.js:2-11 | every refusal is a 403 with the access-denied message |
| CheckDomain.UserDomain | middleware/checkDomain.js:4 | the text after the first `@` of the username, up to the next `@` if any; absent (`undefined`) when there is no `@` |
| CheckDomain.DomainOfJoin | middleware/checkDomain.js:4 | for `@`-free parts joined by `@`, the domain is the second part |
| CheckDomain.Address | middleware/checkDomain.js:3-6 | `local@domain` passes iff `domain` is exactly `dynalab.no` or `corporater.com` |
| CheckDomain.NoAt | middleware/checkDomain.js:4-10 | a username without `@` is refused with 403 |
| CheckDomain.LaterAtIgnored | middleware/checkDomain.js:4 | text after a second `@` does not change the outcome |
| CheckDomain.AllowedExample | middleware/checkDomain.js:3-7 | `ola@dynalab.no` passes |
| CheckDomain.RefusedExamples | middleware/checkDomain.js:6-10 | a subdomain of an allowed domain is refused with 403, and so is an allowed domain written in other letter case |
| CompareJson.NatToString | public/js/compare.js:33 | an array index key is a non-empty digit string without a leading zero |
| CompareJson.IndexKeyRoundTrip | public/js/compare.js:33-34 | reading an index key back as an array index gives the index |
| CompareJson.Property | public/js/compare.js:34 | reading a property fails exactly on `null`; on an object it is the member lookup |
| CompareJson.ForIn | public/js/compare.js:33 | `for...in` visits an object's members, and an array's or string's positions |
| CompareJson.ForInProperty | public/js/compare.js:33-34 | each visited key reads back the value visited with it |
| CompareJson.Differences | public/js/compare.js:33-36 | never more entries than visited keys |
| CompareJson.Compare | public/js/compare.js:31-39 | fails iff the second value is `null` and the first has a key; otherwise the `Differences` of the first value's keys, in order |
| CompareJson.DifferencesSound | public/js/compare.js:34-35 | every reported entry is a visited key whose sides are not `===`, holding both sides |
| CompareJson.DifferencesComplete | public/js/compare.js:33-35 | every visited key whose sides are not `===` is reported |
| CompareJson.OnlyFirstKeys | public/js/compare.js:33 | keys only the second value has are never reported |
| CompareJson.ObjectsAlwaysDiffer | public/js/compare.js:34 | objects compare by reference, so an array of objects differs at every index from an equal copy parsed separately (the two responses `compareJson` is given) |
| CompareJson.SameScalarsAgree | public/js/compare.js:34 | an array of plain values compared with itself reports nothing |
| CompareJson.Transform | public/js/compare.js:41-58 | fails iff some reported first side is `null`; otherwise `pushtype` is copied and there is one `{id, exp}` per entry, in order, read from the first side |
| CompareJson.KeyIdSpace | public/js/compare.js:120-126 | a listed option maps to its id space, any other to `user` |
| CompareJson.UserSpace | public/js/compare.js:120-126 | the id space is `user` iff the option is `users` or unlisted |
| FileStructure.AnalogTree | public/js/file-structure.js:57-71 | the text `createAnalogTree` builds: one line per entry with its branch connector, a folder's children drawn beneath it with a deeper indent (`TreeIsLines`, `LineCount`, `LinesStartWithPrefix` prove its shape) |
| FileStructure.TreeIsLines | public/js/file-structure.js:57-71 | the drawing is its lines, each ended by a newline |
| FileStructure.LineCount | public/js/file-structure.js:57-71 | one line per entry, recursing only into directories |
| FileStructure.LinesStartWithPrefix | public/js/file-structure.js:60-67 | every line starts with the prefix the call was given; children extend it |
| FileStructure.UnlinesAppend | public/js/file-structure.js:58-69 | concatenating line lists concatenates their text |
| FileStructure.EmptyTree | public/js/file-structure.js:58-70 | an empty listing draws `""` |
| FileStructure.SingleFile | public/js/file-structure.js:59-62 | one file is one line with the last-sibling connector `└── ` |
| Text.TrimEmpty | routes/apiRoutes.js:82 | `trim()` gives `""` iff every character is white space |
| Text.JoinSplit | routes/apiRoutes.js:93 | joining the split parts with the separator gives back the text |
| Text.StripTags | routes/apiRoutes.js:103 | removing tags never lengthens the line |
| Text.StripTagsNoOpen | routes/apiRoutes.js:103 | a line without `<` is unchanged |
| Text.StripTagsNoClose | routes/apiRoutes.js:103 | a line without `>` is unchanged |
| Text.StripTagsPrefix | routes/apiRoutes.js:103 | text without `<` in front of the rest is kept, and the rest is stripped |
| Text.StripTagsLeadingTag | routes/apiRoutes.js:103 | a leading `<…>` with no `>` inside is removed up to its `>` |
| Text.StripTagsTag | routes/apiRoutes.js:103 | in `a<t>b` with no `<` in `a` and no `>` in `t`, the result is `a` followed by the stripped `b` |

## Left out

- jsondiffpatch `diff` and `patch` are a foreign library. They are the parameters `differ` and `patcher`, and no patch round trip is claimed.
- Network I/O is not modelled. The axios fetches are the `catalog` oracle. The amqplib and Azure Service Bus connections are reduced to "channel created" and "sender created" flags. The GitHub upload of `/genextended` is the `publish` oracle. Disk reads of `/file-structure` (`readdirSync`, `statSync`, the `.gitignore` file) are not modelled; only the name filter and the tree drawing are.
- Timers and the clock are not modelled as real time. `setTimeout` is a `Wait(5000)` event, and `Date.now()` is the parameter `now`.
- `Buffer` base64 and the SHA-256 of `/integrity` are library calls. `encode` stands for the first; `/integrity` is not part of this model.
- `JSON.stringify` of a result is the parameter `stringify`. Chunks are modelled by their text.
- Floating-point numbers are not modelled: JSON numbers are integers.
- Key order of JavaScript objects is not modelled for maps (`Entity`, property sets). For `for...in` over parsed objects, integer-like keys are visited first in JavaScript. The model visits members in the order given.
- Objects with duplicate keys are not modelled; a parsed object has distinct keys.
- Keys that name `Object.prototype` members are covered only where they make `collectProperties` throw. Elsewhere, reading such a key (`typeMappings["constructor"]`, `keyidspaceMap["toString"]`) would yield an inherited function. The model reads it as absent.
- EntityService.MergeEntityData, EntityService.MergeIsSpread: writing the key `__proto__` is modelled as storing an own key. In JavaScript, `updatedEntity["__proto__"] = v` with an object or `null` value sets the prototype of the copy and adds no own key (services/entityService.js:6).
- CompareJson.Differences: the same holds for `diff["__proto__"] = {…}` (public/js/compare.js:35). JavaScript would set the prototype of `diff` and report no difference under that key; the model reports one.
- Dependencies.Fetched, Dependencies.FetchMissingDependenciesContent: an id `__proto__` whose fetched content is an object or `null` would set the prototype of the property's table in JavaScript (services/jsonProcessor.js:68) rather than store an entry; the model stores an entry. A property named `__proto__` cannot occur, since `extractProperties` never stores that key.
- CompareJson.Property and CompareJson.ForIn: string lengths and indices count characters (code points), while JavaScript counts UTF-16 code units, so the two differ on strings holding characters outside the Basic Multilingual Plane.
- `$` patterns in the replacement text of `String.prototype.replace` (`$&`, `$1`, …) are not interpreted.
- A non-string `typeMappingsPrefix` is interpolated by its string form in JavaScript. The model takes a string, or a missing prefix that reads `undefined`.
- Express's default error page for a thrown handler is modelled as a 500 carrying the thrown message.
- Logging (`console`, winston) is not modelled. Only the drop and skip outcomes appear in the delivery log.
- Concurrency between requests is not modelled; every `await` is a sequential step.
- DiffAnalysis.Logs and DiffAnalysis.NoDeltaNoChanges: a top-level delta that is an array is treated as a non-object, while JavaScript's `for...in` would walk its indices. jsondiffpatch returns an object (arrays carry `_t: "a"`) or nothing for two arrays, so `processJsonData` never passes one.
- Dependencies.StringOf: integers of 10^21 and more are written in full, while JavaScript writes them in exponent form; this changes only values scanned out of arrays holding such numbers.
- IdProcessor.QuotedIdRewritten: only the case where the quoted id equals the `t.` id is proved. What the second `replace` does when they differ is not stated.
- RootJsonProcessor.ProcessJsonData: a `null` snapshot fails with the same `forEach` message as any other non-array, although JavaScript reports reading a property of `null`.
- The UI parts of public/js/compare.js and public/js/file-structure.js (DOM, fetch, editors) are not modelled.

=== FILE: api_routes.dfy ===
/**
 * The request handlers of routes/apiRoutes.js that hold logic of their own:
 * the `/diff` guard and the module-level `latestDiffResult` slot, the
 * `/latest-diff` lookup, the configuration slot, the body checks of
 * `/base64encode`, `/genextended` and `/process-ids`, and the name filter of
 * `/file-structure`.
 */
module ApiRoutes {
  import opened Wrappers
  import opened JsonValues
  import opened Text
  import opened Dependencies
  import opened ServiceJsonProcessor
  import opened Delivery
  import opened ServiceMessageQueue
  import opened IdProcessor
  import opened TextRows

  /** A response: status 200 with a body, or an error status with `{ error }`. */
  datatype Reply<T> = Success(value: T) | Failure(status: nat, error: string)

  const DiffFailed: string := "Error processing. Ensure both JSON objects are valid."
  const NoDiffYet: string :=
    "No diff data available. Please provide JSON data through the /api/diff endpoint first."
  const ConfigUpdated: string := "Configuration updated successfully."
  const TextRequired: string := "Text is required and must be a non-empty string"
  const GenExtendedFailed: string := "Error processing text. Please check the input format and try again."
  const InputRequired: string := "Input is required and must be a non-empty string"
  /** The `TypeError` of `inputText.replace(...)` on a missing or non-string `inputText`. */
  function ReplaceError(inputText: Option<Json>): string {
    match inputText
    case None => "TypeError: Cannot read properties of undefined (reading 'replace')"
    case Some(JNull) => "TypeError: Cannot read properties of null (reading 'replace')"
    case Some(_) => "TypeError: inputText.replace is not a function"
  }

  /**
   * The router's module state: `latestDiffResult` and `configData`, with the
   * services the handlers call. `stringify` is `JSON.stringify`, which
   * `sendToQueue` applies to each chunk.
   */
  class Router {
    var latestDiffResult: Option<DiffResult>
    var configData: Json
    const differ: Differ
    const patcher: Patcher
    const server: SourceServer
    const queue: RabbitQueue
    const stringify: DiffResult -> string

    constructor(differ: Differ, patcher: Patcher, server: SourceServer, queue: RabbitQueue,
                stringify: DiffResult -> string)
      ensures latestDiffResult == None && configData == JObj([])
      ensures this.differ == differ && this.patcher == patcher && this.server == server
      ensures this.queue == queue && this.stringify == stringify
    {
      latestDiffResult := None;
      configData := JObj([]);
      this.differ := differ;
      this.patcher := patcher;
      this.server := server;
      this.queue := queue;
      this.stringify := stringify;
    }

    /**
     * `POST /diff`: non-array inputs get 400 before anything runs; a failure
     * of `processJsonData` gets 500 and leaves the slot alone; on success
     * the slot is overwritten, the result is sent to the queue as one chunk,
     * and the response is the stored result.
     */
    method PostDiff(json1: Json, json2: Json) returns (reply: Reply<DiffResult>)
      modifies this, server, queue
      ensures configData == old(configData)
      ensures !(json1.JArr? && json2.JArr?) ==>
        && reply == Failure(400, NotArrays)
        && latestDiffResult == old(latestDiffResult)
        && server.requests == old(server.requests)
        && queue.log == old(queue.log)
      ensures json1.JArr? && json2.JArr? ==>
        (reply.Success? <==> Collectable(json1.items) && Collectable(json2.items))
      ensures json1.JArr? && json2.JArr? && reply.Failure? ==>
        && reply == Failure(500, DiffFailed)
        && latestDiffResult == old(latestDiffResult)
        && server.requests == old(server.requests)
        && queue.log == old(queue.log)
      ensures reply.Success? ==>
        && ResultFor(reply.value, json1, json2, differ, patcher, server.catalog)
        && RequestsFor(json1, json2, old(server.requests), server.requests)
        && latestDiffResult == Some(reply.value)
        && queue.log == old(queue.log) + BackendPart(queue.rabbitmqEnabled && queue.rabbitChannel,
             queue.accepts, RabbitMQ, [stringify(reply.value)], old(queue.calls), MaxSends)
        && queue.calls == old(queue.calls) + BackendCalls(queue.rabbitmqEnabled && queue.rabbitChannel,
             queue.accepts, [stringify(reply.value)], old(queue.calls), MaxSends)
        && queue.rabbitChannel == old(queue.rabbitChannel)
    {
      if !json1.JArr? || !json2.JArr? {
        return Failure(400, NotArrays);
      }
      var result := ProcessJsonData(json1, json2, differ, patcher, server);
      if result.Err? {
        return Failure(500, DiffFailed);
      }
      latestDiffResult := Some(result.value);
      var chunks := [latestDiffResult.value];
      queue.SendChunks([stringify(chunks[0])]);
      reply := Success(latestDiffResult.value);
    }

    /** `GET /latest-diff`: 404 until a diff has been stored, then the stored result. */
    function LatestDiff(): (reply: Reply<DiffResult>)
      reads this
      ensures reply.Success? <==> latestDiffResult.Some?
      ensures reply.Success? ==> reply.value == latestDiffResult.value
      ensures reply.Failure? ==> reply.status == 404
    {
      if latestDiffResult.Some? then Success(latestDiffResult.value) else Failure(404, NoDiffYet)
    }

    /** `GET /config` */
    function GetConfig(): Json
      reads this
    {
      configData
    }

    /** `POST /update-config`: the body replaces the configuration. */
    method UpdateConfig(body: Json) returns (reply: Reply<string>)
      modifies this
      ensures configData == body && latestDiffResult == old(latestDiffResult)
      ensures reply == Success(ConfigUpdated)
    {
      configData := body;
      reply := Success(ConfigUpdated);
    }
  }

  /**
   * A successful `/diff` followed by `/latest-diff` returns what `/diff`
   * returned, and the stored configuration is untouched by it.
   */
  method DiffThenLatest(router: Router, json1: Json, json2: Json) returns (first: Reply<DiffResult>, second: Reply<DiffResult>)
    modifies router, router.server, router.queue
    ensures first.Success? ==> second == first
    ensures first.Failure? ==> second == old(router.LatestDiff())
    ensures router.GetConfig() == old(router.GetConfig())
  {
    first := router.PostDiff(json1, json2);
    second := router.LatestDiff();
  }

  /**
   * `/update-config` followed by `/config` returns the body just posted, and
   * leaves the stored diff alone.
   */
  method UpdateThenGetConfig(router: Router, body: Json) returns (config: Json)
    modifies router
    ensures config == body
    ensures router.LatestDiff() == old(router.LatestDiff())
  {
    var _ := router.UpdateConfig(body);
    config := router.GetConfig();
  }

  /**
   * The check of `/base64encode` and `/genextended`: the body must be a
   * string with at least one non-white-space character.
   */
  function TextBody(body: Json): (r: Result<string>)
    ensures r.Ok? <==> body.JStr? && exists i :: 0 <= i < |body.s| && !IsSpace(body.s[i])
    ensures r.Ok? ==> r.value == body.s
    ensures r.Err? ==> r.error == TextRequired
  {
    if !body.JStr? then Err(TextRequired)
    else
      TrimEmpty(body.s);
      if Trim(body.s) == "" then Err(TextRequired) else Ok(body.s)
  }

  /** `POST /base64encode`; the encoding itself (`Buffer`) is the parameter `encode`. */
  function Base64Encode(body: Json, encode: string -> string): (reply: Reply<string>)
    ensures reply.Failure? <==> TextBody(body).Err?
    ensures reply.Failure? ==> reply == Failure(400, TextRequired)
    ensures reply.Success? ==> reply.value == encode(body.s)
  {
    match TextBody(body)
    case Err(_) => Failure(400, TextRequired)
    case Ok(text) => Success(encode(text))
  }

  /**
   * `POST /genextended`: 400 for a bad body before any work; otherwise the
   * rows of `processText`, or 500 when publishing them (`publish`, the GitHub
   * update) fails.
   */
  method GenExtended(body: Json, publish: seq<Row> -> bool) returns (reply: Reply<seq<Row>>)
    ensures TextBody(body).Err? ==> reply == Failure(400, TextRequired)
    ensures TextBody(body).Ok? ==>
      var exps := Exps(CleanAll(TextLines(body.s)), []);
      (reply.Success? ==> Numbered(reply.value, exps))
      && (reply.Failure? ==> reply == Failure(500, GenExtendedFailed))
      && (reply.Success? <==> exists rows :: Numbered(rows, exps) && publish(rows))
  {
    var text := TextBody(body);
    if text.Err? {
      return Failure(400, TextRequired);
    }
    var rows := ProcessText(text.value);
    NumberedUnique(rows, Exps(CleanAll(TextLines(body.s)), []));
    if !publish(rows) {
      return Failure(500, GenExtendedFailed);
    }
    reply := Success(rows);
  }

  /** The numbered rows for given texts are unique. */
  lemma NumberedUnique(rows: seq<Row>, exps: seq<string>)
    requires Numbered(rows, exps)
    ensures forall other :: Numbered(other, exps) ==> other == rows
  {
    forall other | Numbered(other, exps)
      ensures other == rows
    {
      assert |other| == |rows|;
      forall j | 0 <= j < |rows|
        ensures other[j] == rows[j]
      {
      }
    }
  }

  /**
   * `POST /process-ids`: `inputText.replace` throws (500) on a missing or
   * non-string `inputText`;
   * a blank text after turning `<BR/>` into newlines gets 400; otherwise the
   * result of `processIds`, whose own failure is a 500. A missing prefix is
   * interpolated as the text `undefined`.
   */
  method ProcessIdsRoute(inputText: Option<Json>, typeMappingsPrefix: Option<string>) returns (reply: Reply<Processed>)
    ensures !(inputText.Some? && inputText.value.JStr?) ==> reply == Failure(500, ReplaceError(inputText))
    ensures inputText.Some? && inputText.value.JStr? ==>
      var cleanedText := ReplaceAll(inputText.value.s, "<BR/>", "\n");
      var prefix := if typeMappingsPrefix.Some? then typeMappingsPrefix.value else "undefined";
      && ((forall i :: 0 <= i < |cleanedText| ==> IsSpace(cleanedText[i])) ==>
            reply == Failure(400, InputRequired))
      && ((exists i :: 0 <= i < |cleanedText| && !IsSpace(cleanedText[i])) ==>
            && (reply.Success? <==> AllRewritable(Split(cleanedText, "\n"), prefix))
            && (reply.Success? ==> Describes(reply.value, Split(cleanedText, "\n"), prefix))
            && (reply.Failure? ==> reply == Failure(500, NoTypeComment)))
  {
    if !(inputText.Some? && inputText.value.JStr?) {
      return Failure(500, ReplaceError(inputText));
    }
    var cleanedText := ReplaceAll(inputText.value.s, "<BR/>", "\n");
    TrimEmpty(cleanedText);
    if Trim(cleanedText) == "" {
      return Failure(400, InputRequired);
    }
    var prefix := if typeMappingsPrefix.Some? then typeMappingsPrefix.value else "undefined";
    var processed := ProcessIds(cleanedText, prefix);
    if processed.Err? {
      return Failure(500, processed.error);
    }
    reply := Success(processed.value);
  }

  /**
   * The name filter of `/file-structure`: a listed name is shown when the
   * ignore rules do not match it, it does not start with `.`, does not end
   * in `.log` or `.yaml` and does not contain `lock`.
   */
  predicate Shown(file: string, isIgnored: bool) {
    && !isIgnored
    && !StartsWith(file, ".")
    && !(EndsWith(file, ".log") || EndsWith(file, ".yaml"))
    && !Contains(file, "lock")
  }

  /**
   * `files.filter(...)` for one directory listing. `ignores` takes a listed
   * name and answers `ig.ignores` for that entry's path relative to the
   * repository root: at the top level that path is the name itself; for a
   * subdirectory `dir` the caller passes `f => ig.ignores(dir + "/" + f)`,
   * with `dir` relative to the root.
   */
  function VisibleFiles(files: seq<string>, ignores: string -> bool): (r: seq<string>)
    ensures |r| <= |files|
    ensures forall f :: f in r <==> f in files && Shown(f, ignores(f))
  {
    if files == [] then []
    else
      var rest := VisibleFiles(files[1..], ignores);
      assert forall f :: f in files <==> f == files[0] || f in files[1..];
      if Shown(files[0], ignores(files[0])) then [files[0]] + rest else rest
  }

  /** Filtering a filtered listing again changes nothing. */
  lemma {:induction false} VisibleFilesIdempotent(files: seq<string>, ignores: string -> bool)
    ensures VisibleFiles(VisibleFiles(files, ignores), ignores) == VisibleFiles(files, ignores)
    decreases |files|
  {
    if files != [] {
      VisibleFilesIdempotent(files[1..], ignores);
      var rest := VisibleFiles(files[1..], ignores);
      if Shown(files[0], ignores(files[0])) {
        assert ([files[0]] + rest)[1..] == rest;
      }
    }
  }

  /** The filter keeps the listing's order: filtering a concatenation filters each part. */
  lemma {:induction false} VisibleFilesAppend(a: seq<string>, b: seq<string>, ignores: string -> bool)
    ensures VisibleFiles(a + b, ignores) == VisibleFiles(a, ignores) + VisibleFiles(b, ignores)
    decreases |a|
  {
    if a != [] {
      assert (a + b)[0] == a[0];
      assert (a + b)[1..] == a[1..] + b;
      VisibleFilesAppend(a[1..], b, ignores);
    } else {
      assert a + b == b;
    }
  }

  /** Which names the filter drops, on typical entries of a repository root. */
  lemma FilterExamples(ignores: string -> bool)
    requires forall f :: !ignores(f)
    ensures VisibleFiles(["src", ".env", "server.log", "config.yaml", "package-lock.json"], ignores) == ["src"]
  {
    var files := ["src", ".env", "server.log", "config.yaml", "package-lock.json"];
    SourceDirShown();
    DroppedNames();
    assert files[1..] == [".env", "server.log", "config.yaml", "package-lock.json"];
    assert files[1..][1..] == ["server.log", "config.yaml", "package-lock.json"];
    assert files[1..][1..][1..] == ["config.yaml", "package-lock.json"];
    assert files[1..][1..][1..][1..] == ["package-lock.json"];
    assert files[1..][1..][1..][1..][1..] == [];
  }

  lemma SourceDirShown()
    ensures Shown("src", false)
  {
    assert "src"[..1] == "s";
    assert |".yaml"| > |"src"| && |".log"| > |"src"|;
    assert IndexOfFrom("src", "lock", 0) == None;
  }

  /** A dot file, a log, a YAML file and a lock file are each dropped for their own rule. */
  lemma DroppedNames()
    ensures !Shown(".env", false) && !Shown("server.log", false)
    ensures !Shown("config.yaml", false) && !Shown("package-lock.json", false)
  {
    assert StartsWith(".env", ".");
    assert "server.log"[6..] == ".log";
    assert "config.yaml"[6..] == ".yaml";
    assert OccursAt("package-lock.json", "lock", 8);
  }
}

=== FILE: check_domain.dfy ===
/**
 * middleware/checkDomain.js: a request passes when the domain part of the
 * user's `preferred_username` is on the allow-list, and is refused with 403
 * otherwise.
 */
module CheckDomain {
  import opened Wrappers
  import opened Text

  const AllowedDomains: seq<string> := ["dynalab.no", "corporater.com"]
  const AccessDenied: string := "Access denied: Your domain is not allowed."

  /** `next()`, or a response that ends the request. */
  datatype Outcome = Next | Denied(status: nat, message: string)

  /** `username.split('@')[1]`: absent (`undefined`) without an `@`. */
  function UserDomain(username: string): Option<string> {
    var parts := Split(username, "@");
    if |parts| >= 2 then Some(parts[1]) else None
  }

  /** The middleware on a request whose user has the given username. */
  function CheckDomain(username: string): (o: Outcome)
    ensures o.Denied? ==> o == Denied(403, AccessDenied)
  {
    match UserDomain(username)
    case Some(domain) => if domain in AllowedDomains then Next else Denied(403, AccessDenied)
    case None => Denied(403, AccessDenied)
  }

  /** Joining `@`-free parts with `@`: the domain is the second part. */
  lemma DomainOfJoin(parts: seq<string>)
    requires |parts| >= 2
    requires forall p :: p in parts ==> '@' !in p
    ensures UserDomain(Join(parts, "@")) == Some(parts[1])
  {
    SplitJoin(parts, '@');
  }

  lemma JoinTwo(a: string, b: string)
    ensures Join([a, b], "@") == a + "@" + b
  {
    JoinCons(a, [b], "@");
  }

  lemma JoinThree(a: string, b: string, c: string)
    ensures Join([a, b, c], "@") == a + "@" + b + "@" + c
  {
    JoinCons(a, [b, c], "@");
    JoinTwo(b, c);
  }

  /**
   * For an address `local@domain` with a single `@`, the request passes
   * exactly when `domain` is one of the allowed domains, letter for letter.
   */
  lemma Address(local: string, domain: string)
    requires '@' !in local && '@' !in domain
    ensures CheckDomain(local + "@" + domain) == Next <==> domain in AllowedDomains
  {
    DomainOfJoin([local, domain]);
    JoinTwo(local, domain);
  }

  /** A username without `@` has no domain and is refused. */
  lemma NoAt(username: string)
    requires '@' !in username
    ensures CheckDomain(username) == Denied(403, AccessDenied)
  {
    SplitJoin([username], '@');
  }

  /**
   * Only the text between the first and the second `@` is checked, so what
   * follows a second `@` does not matter.
   */
  lemma LaterAtIgnored(local: string, domain: string, more: string)
    requires '@' !in local && '@' !in domain && '@' !in more
    ensures CheckDomain(local + "@" + domain + "@" + more) == CheckDomain(local + "@" + domain)
  {
    DomainOfJoin([local, domain, more]);
    JoinThree(local, domain, more);
    DomainOfJoin([local, domain]);
    JoinTwo(local, domain);
  }

  /** An address on a listed domain passes. */
  lemma AllowedExample()
    ensures CheckDomain("ola" + "@" + "dynalab.no") == Next
  {
    assert "dynalab.no" in AllowedDomains;
    Address("ola", "dynalab.no");
  }

  /**
   * A subdomain of a listed domain is refused, and so is a listed domain
   * written with other letter case: the comparison is exact.
   */
  lemma RefusedExamples()
    ensures CheckDomain("ola" + "@" + "eu.dynalab.no") == Denied(403, AccessDenied)
    ensures CheckDomain("ola" + "@" + "Dynalab.no") == Denied(403, AccessDenied)
  {
    assert "eu.dynalab.no" !in AllowedDomains;
    Address("ola", "eu.dynalab.no");
    assert "Dynalab.no" !in AllowedDomains;
    Address("ola", "Dynalab.no");
  }
}

=== FILE: compare.dfy ===
/**
 * The comparison logic of public/js/compare.js: `compareJson` reports the
 * keys of the first value whose property differs, under `!==`, from the
 * second value's; `transformJson` turns a report into the push payload; and
 * `keyidspaceMap` picks the id space of a transfer option.
 */
module CompareJson {
  import opened Wrappers
  import opened JsonValues
  import opened Text

  /** One reported key: `diff[key] = { json1: json1[key], json2: json2[key] }`. */
  datatype DiffEntry = DiffEntry(key: string, json1: Json, json2: Option<Json>)

  /** `{ id: item.id, exp: item.exp }`, where a missing property is `undefined`. */
  datatype Expression = Expression(id: Option<Json>, exp: Option<Json>)

  /** `{ pushtype, expressions }` */
  datatype Transformed = Transformed(pushtype: Json, expressions: seq<Expression>)

  /** The message of the `TypeError` thrown when reading `key` of `null`. */
  function ReadError(key: string): string {
    "TypeError: Cannot read properties of null (reading '" + key + "')"
  }

  function DigitChar(d: nat): (c: char)
    requires d < 10
    ensures IsDigit(c)
  {
    "0123456789"[d]
  }

  function DigitValue(c: char): (d: nat)
    requires IsDigit(c)
    ensures d < 10
  {
    (c as int) - ('0' as int)
  }

  /** The decimal text of an array index, as `for...in` yields it. */
  function NatToString(n: nat): (s: string)
    ensures s != "" && forall k :: 0 <= k < |s| ==> IsDigit(s[k])
    ensures |s| > 1 ==> s[0] != '0'
  {
    if n < 10 then [DigitChar(n)] else NatToString(n / 10) + [DigitChar(n % 10)]
  }

  function DigitsValue(s: string): nat
    requires forall k :: 0 <= k < |s| ==> IsDigit(s[k])
  {
    if s == [] then 0 else DigitsValue(s[..|s| - 1]) * 10 + DigitValue(s[|s| - 1])
  }

  /** A key that names an array element: decimal digits without a leading zero. */
  function ArrayIndex(key: string): Option<nat> {
    if key != [] && (forall k :: 0 <= k < |key| ==> IsDigit(key[k])) && (|key| == 1 || key[0] != '0')
    then Some(DigitsValue(key))
    else None
  }

  /** Reading back an index key gives the index. */
  lemma {:induction false} IndexKeyValue(n: nat)
    ensures DigitsValue(NatToString(n)) == n
    decreases n
  {
    var s := NatToString(n);
    if n < 10 {
      assert DigitsValue(s[..0]) == 0;
    } else {
      IndexKeyValue(n / 10);
      assert s[..|s| - 1] == NatToString(n / 10);
      assert DigitValue(s[|s| - 1]) == n % 10;
    }
  }

  lemma IndexKeyRoundTrip(n: nat)
    ensures ArrayIndex(NatToString(n)) == Some(n)
  {
    IndexKeyValue(n);
  }

  /**
   * `v[key]` in JavaScript: an error on `null`; the member of an object; an
   * element or the `length` of an array or a string; `undefined` otherwise.
   */
  function Property(v: Json, key: string): (r: Result<Option<Json>>)
    ensures r.Err? <==> v.JNull?
    ensures v.JObj? ==> r == Ok(Lookup(v.members, key))
  {
    match v
    case JNull => Err(ReadError(key))
    case JObj(ms) => Ok(Lookup(ms, key))
    case JArr(items) =>
      if key == "length" then Ok(Some(JNum(|items|)))
      else (match ArrayIndex(key)
        case Some(i) => if i < |items| then Ok(Some(items[i])) else Ok(None)
        case None => Ok(None))
    case JStr(s) =>
      if key == "length" then Ok(Some(JNum(|s|)))
      else (match ArrayIndex(key)
        case Some(i) => if i < |s| then Ok(Some(JStr([s[i]]))) else Ok(None)
        case None => Ok(None))
    case _ => Ok(None)
  }

  /**
   * What `for (const key in v)` visits, with `v[key]`: the members of an
   * object, the elements of an array or the characters of a string, by
   * index; nothing for other values.
   */
  function ForIn(v: Json): (entries: seq<Member>)
    ensures v.JObj? ==> entries == v.members
    ensures v.JArr? ==> |entries| == |v.items|
    ensures v.JStr? ==> |entries| == |v.s|
  {
    match v
    case JObj(ms) => ms
    case JArr(items) => seq(|items|, i requires 0 <= i < |items| => Member(NatToString(i), items[i]))
    case JStr(s) => seq(|s|, i requires 0 <= i < |s| => Member(NatToString(i), JStr([s[i]])))
    case _ => []
  }

  /** Each visited key reads back, through `v[key]`, the value visited with it. */
  lemma ForInProperty(v: Json, i: nat)
    requires i < |ForIn(v)|
    requires v.JObj? ==> UniqueKeys(v.members)
    ensures Property(v, ForIn(v)[i].key) == Ok(Some(ForIn(v)[i].value))
  {
    var m := ForIn(v)[i];
    match v
    case JObj(ms) =>
      var r := Lookup(ms, m.key);
      assert r.Some?;
      var j :| 0 <= j < |ms| && ms[j].key == m.key && ms[j].value == r.value;
      assert j == i;
    case JArr(items) =>
      IndexKeyRoundTrip(i);
      assert m.key[0] != 'l';
    case JStr(s) =>
      IndexKeyRoundTrip(i);
      assert m.key[0] != 'l';
  }

  /** The report for the first entries: the differing ones, in order. */
  function Differences(entries: seq<Member>, json2: Json): (d: seq<DiffEntry>)
    requires json2.JNull? ==> entries == []
    ensures |d| <= |entries|
  {
    if entries == [] then []
    else
      var last := entries[|entries| - 1];
      var other := Property(json2, last.key).value;
      Differences(entries[..|entries| - 1], json2)
        + (if StrictEquals(Some(last.value), other) then [] else [DiffEntry(last.key, last.value, other)])
  }

  /**
   * `compareJson(json1, json2)`: reading a property of a `null` second value
   * throws as soon as the first key is visited.
   */
  method Compare(json1: Json, json2: Json) returns (r: Result<seq<DiffEntry>>)
    ensures r.Err? <==> json2.JNull? && ForIn(json1) != []
    ensures r.Err? ==> r.error == ReadError(ForIn(json1)[0].key)
    ensures r.Ok? ==> r.value == Differences(ForIn(json1), json2)
  {
    var entries := ForIn(json1);
    var diff: seq<DiffEntry> := [];
    var i := 0;
    while i < |entries|
      invariant i <= |entries|
      invariant json2.JNull? ==> i == 0
      invariant diff == Differences(entries[..i], json2)
    {
      var key := entries[i].key;
      var other := Property(json2, key);
      if other.Err? {
        return Err(other.error);
      }
      DifferencesStep(entries, json2, i);
      if !StrictEquals(Some(entries[i].value), other.value) {
        diff := diff + [DiffEntry(key, entries[i].value, other.value)];
      }
      i := i + 1;
    }
    assert entries[..i] == entries;
    r := Ok(diff);
  }

  /** One more visited key adds its entry when its two sides are not `===`. */
  lemma DifferencesStep(entries: seq<Member>, json2: Json, i: nat)
    requires i < |entries| && !json2.JNull?
    ensures var e := entries[i];
      var other := Property(json2, e.key).value;
      Differences(entries[..i + 1], json2) == Differences(entries[..i], json2)
        + (if StrictEquals(Some(e.value), other) then [] else [DiffEntry(e.key, e.value, other)])
  {
    assert entries[..i + 1][..i] == entries[..i];
  }

  /**
   * Every reported entry is a visited key of the first value whose two
   * sides are not strictly equal, and holds both sides.
   */
  lemma {:induction false} DifferencesSound(entries: seq<Member>, json2: Json, k: nat)
    requires json2.JNull? ==> entries == []
    requires k < |Differences(entries, json2)|
    ensures var e := Differences(entries, json2)[k];
      && (exists i :: 0 <= i < |entries| && entries[i].key == e.key && entries[i].value == e.json1)
      && Property(json2, e.key) == Ok(e.json2)
      && !StrictEquals(Some(e.json1), e.json2)
    decreases |entries|
  {
    var front := entries[..|entries| - 1];
    var d := Differences(front, json2);
    if k < |d| {
      DifferencesSound(front, json2, k);
      var e := d[k];
      var i :| 0 <= i < |front| && front[i].key == e.key && front[i].value == e.json1;
      assert entries[i] == front[i];
    } else {
      assert entries[|entries| - 1].key == Differences(entries, json2)[k].key;
    }
  }

  /** Every visited key whose two sides are not strictly equal is reported. */
  lemma {:induction false} DifferencesComplete(entries: seq<Member>, json2: Json, i: nat)
    requires json2.JNull? ==> entries == []
    requires i < |entries|
    requires !StrictEquals(Some(entries[i].value), Property(json2, entries[i].key).value)
    ensures DiffEntry(entries[i].key, entries[i].value, Property(json2, entries[i].key).value)
      in Differences(entries, json2)
    decreases |entries|
  {
    var front := entries[..|entries| - 1];
    var d := Differences(entries, json2);
    if i < |front| {
      DifferencesComplete(front, json2, i);
      assert entries[i] == front[i];
    } else {
      assert d[|d| - 1] == DiffEntry(entries[i].key, entries[i].value, Property(json2, entries[i].key).value);
    }
  }

  /** Keys of the second value that the first does not have are never reported. */
  lemma OnlyFirstKeys(json1: Json, json2: Json, key: string)
    requires json2.JNull? ==> ForIn(json1) == []
    requires forall i :: 0 <= i < |ForIn(json1)| ==> ForIn(json1)[i].key != key
    ensures forall k :: 0 <= k < |Differences(ForIn(json1), json2)| ==> Differences(ForIn(json1), json2)[k].key != key
  {
    forall k | 0 <= k < |Differences(ForIn(json1), json2)|
      ensures Differences(ForIn(json1), json2)[k].key != key
    {
      DifferencesSound(ForIn(json1), json2, k);
    }
  }

  /**
   * `!==` compares objects and arrays by reference, so an array whose
   * elements are objects differs at every index from an equal copy parsed
   * separately, as the two fetched responses are. (The same array object
   * compared with itself would report nothing; the model's values carry no
   * identity, so it describes the separately parsed case.)
   */
  lemma {:induction false} ObjectsAlwaysDiffer(items: seq<Json>)
    requires forall i :: 0 <= i < |items| ==> items[i].JObj?
    ensures |Differences(ForIn(JArr(items)), JArr(items))| == |items|
  {
    var entries := ForIn(JArr(items));
    DiffersEverywhere(entries, JArr(items));
  }

  lemma {:induction false} DiffersEverywhere(entries: seq<Member>, json2: Json)
    requires !json2.JNull?
    requires forall i :: 0 <= i < |entries| ==> !StrictEquals(Some(entries[i].value), Property(json2, entries[i].key).value)
    ensures |Differences(entries, json2)| == |entries|
    decreases |entries|
  {
    if entries != [] {
      DiffersEverywhere(entries[..|entries| - 1], json2);
    }
  }

  /** An array of plain values compared with itself has no differences. */
  lemma {:induction false} SameScalarsAgree(items: seq<Json>)
    requires forall i :: 0 <= i < |items| ==> !items[i].JArr? && !items[i].JObj?
    ensures Differences(ForIn(JArr(items)), JArr(items)) == []
  {
    var entries := ForIn(JArr(items));
    forall i | 0 <= i < |entries|
      ensures StrictEquals(Some(entries[i].value), Property(JArr(items), entries[i].key).value)
    {
      ForInProperty(JArr(items), i);
    }
    AgreesEverywhere(entries, JArr(items));
  }

  lemma {:induction false} AgreesEverywhere(entries: seq<Member>, json2: Json)
    requires !json2.JNull?
    requires forall i :: 0 <= i < |entries| ==> StrictEquals(Some(entries[i].value), Property(json2, entries[i].key).value)
    ensures Differences(entries, json2) == []
    decreases |entries|
  {
    if entries != [] {
      AgreesEverywhere(entries[..|entries| - 1], json2);
    }
  }

  /**
   * `transformJson(diff, pushtype)`: one expression per reported key, in
   * order, read from the first value's side; an entry whose first side is
   * `null` throws on `item.id`.
   */
  method Transform(diff: seq<DiffEntry>, pushtype: Json) returns (r: Result<Transformed>)
    ensures r.Err? <==> exists i :: 0 <= i < |diff| && diff[i].json1.JNull?
    ensures r.Err? ==> r.error == ReadError("id")
    ensures r.Ok? ==> r.value.pushtype == pushtype && |r.value.expressions| == |diff|
    ensures r.Ok? ==> forall i :: 0 <= i < |diff| ==>
      r.value.expressions[i] == Expression(Property(diff[i].json1, "id").value, Property(diff[i].json1, "exp").value)
  {
    var expressions: seq<Expression> := [];
    var i := 0;
    while i < |diff|
      invariant i <= |diff| && |expressions| == i
      invariant forall j :: 0 <= j < i ==> !diff[j].json1.JNull?
      invariant forall j :: 0 <= j < i ==>
        expressions[j] == Expression(Property(diff[j].json1, "id").value, Property(diff[j].json1, "exp").value)
    {
      var item := diff[i].json1;
      var id := Property(item, "id");
      if id.Err? {
        return Err(id.error);
      }
      var exp := Property(item, "exp");
      expressions := expressions + [Expression(id.value, exp.value)];
      i := i + 1;
    }
    r := Ok(Transformed(pushtype, expressions));
  }

  /** The id space of each transfer option in the comparison screen. */
  const KeyIdSpaceMap: map<string, string> := map[
    "users" := "user",
    "plugin" := "plugin",
    "Enterprise Templates" := "enterprisetemplate",
    "Enterprise Tasks" := "enterprisetask",
    "Properties" := "property"
  ]

  /** `keyidspaceMap[selectedOption] || "user"` */
  function KeyIdSpace(option: string): (r: string)
    ensures r != ""
    ensures option in KeyIdSpaceMap ==> r == KeyIdSpaceMap[option]
    ensures option !in KeyIdSpaceMap ==> r == "user"
  {
    if option in KeyIdSpaceMap && KeyIdSpaceMap[option] != "" then KeyIdSpaceMap[option] else "user"
  }

  /** The `user` space is chosen for `users` and for every unlisted option. */
  lemma UserSpace(option: string)
    ensures KeyIdSpace(option) == "user" <==> option == "users" || option !in KeyIdSpaceMap
  {
    if option in KeyIdSpaceMap && option != "users" {
      assert KeyIdSpaceMap[option] != "user";
    }
  }
}

=== FILE: delivery.dfy ===
/**
 * The delivery vocabulary shared by messageQueue.js and
 * services/messageQueue.js: what happens when a message is pushed to a
 * broker with a bounded, fixed-delay retry.
 *
 * Broker answers are an oracle `accepts`: `accepts(k)` says whether the
 * k-th broker call made through the queue (counting from 0) succeeds. Timers are
 * `Wait` events rather than real time.
 */
module Delivery {
  datatype Backend = RabbitMQ | AzureServiceBus

  /** The observable steps of a delivery. */
  datatype Event =
    | Send(backend: Backend, attempt: nat, body: string)   // one broker call, `attempt` counting from 1
    | Wait(ms: nat)                                        // `setTimeout(resolve, RETRY_DELAY)`
    | Delivered(backend: Backend, body: string)            // the broker accepted the message
    | GaveUp(backend: Backend, body: string)               // attempts exhausted: logged and dropped
    | Skipped(backend: Backend)                            // backend disabled or not initialised: warning

  /** `RETRY_DELAY` (both queues). */
  const RetryDelay: nat := 5000

  /** `MAX_RETRIES` (both queues). */
  const MaxRetries: nat := 5

  /** The number of broker calls in `events`. */
  function SendCount(events: seq<Event>): nat {
    if |events| == 0 then 0 else (if events[0].Send? then 1 else 0) + SendCount(events[1..])
  }

  lemma {:induction false} SendCountAppend(a: seq<Event>, b: seq<Event>)
    ensures SendCount(a + b) == SendCount(a) + SendCount(b)
    decreases |a|
  {
    if a == [] {
      assert a + b == b;
    } else {
      assert (a + b)[1..] == a[1..] + b;
      SendCountAppend(a[1..], b);
    }
  }

  /** The sends of two consecutive parts add up. */
  lemma SendCountSum(a: seq<Event>, b: seq<Event>, m: nat, n: nat)
    requires SendCount(a) == m && SendCount(b) == n
    ensures SendCount(a + b) == m + n
  {
    SendCountAppend(a, b);
  }

  lemma ConcatAssoc(a: seq<Event>, b: seq<Event>, c: seq<Event>)
    ensures (a + b) + c == a + (b + c)
  {
  }

  /**
   * The events of one `send…WithRetry(body, attempt)` call when `k` sends were
   * made before it and at most `maxSends` attempts are allowed: send; on
   * success stop; on failure wait and retry while attempts remain, otherwise
   * give up.
   */
  function Retry(accepts: nat -> bool, backend: Backend, body: string, k: nat, attempt: nat, maxSends: nat): seq<Event>
    requires 1 <= attempt <= maxSends
    decreases maxSends - attempt
  {
    if accepts(k) then [Send(backend, attempt, body), Delivered(backend, body)]
    else if attempt < maxSends then
      [Send(backend, attempt, body), Wait(RetryDelay)] + Retry(accepts, backend, body, k + 1, attempt + 1, maxSends)
    else [Send(backend, attempt, body), GaveUp(backend, body)]
  }

  /** Two events, one of them a send, ahead of `rest`. */
  lemma SendCountPair(a: Event, b: Event, rest: seq<Event>)
    requires a.Send? && !b.Send?
    ensures SendCount([a, b] + rest) == 1 + SendCount(rest)
    ensures SendCount([a, b]) == 1
  {
    assert ([a, b] + rest)[1..] == [b] + rest;
    assert ([b] + rest)[1..] == rest;
    assert [a, b] == [a, b] + [];
    assert SendCount([]) == 0;
  }

  /** A failed send that is not the last attempt: one send and one wait, then the next attempt. */
  lemma RetryFailStep(accepts: nat -> bool, backend: Backend, body: string, k: nat, attempt: nat, maxSends: nat)
    requires 1 <= attempt < maxSends
    requires !accepts(k)
    ensures Retry(accepts, backend, body, k, attempt, maxSends)
      == [Send(backend, attempt, body), Wait(RetryDelay)] + Retry(accepts, backend, body, k + 1, attempt + 1, maxSends)
    ensures Attempts(accepts, k, attempt, maxSends) == 1 + Attempts(accepts, k + 1, attempt + 1, maxSends)
  {
  }

  /** An accepted send, or the last attempt: the run ends with this send. */
  lemma RetryLastStep(accepts: nat -> bool, backend: Backend, body: string, k: nat, attempt: nat, maxSends: nat)
    requires 1 <= attempt <= maxSends
    requires accepts(k) || attempt == maxSends
    ensures Retry(accepts, backend, body, k, attempt, maxSends)
      == [Send(backend, attempt, body), if accepts(k) then Delivered(backend, body) else GaveUp(backend, body)]
    ensures Attempts(accepts, k, attempt, maxSends) == 1
  {
  }

  /** The number of sends a retry run starting at `attempt` makes. */
  function Attempts(accepts: nat -> bool, k: nat, attempt: nat, maxSends: nat): (n: nat)
    requires 1 <= attempt <= maxSends
    ensures 1 <= n <= maxSends - attempt + 1
    decreases maxSends - attempt
  {
    if accepts(k) || attempt == maxSends then 1
    else 1 + Attempts(accepts, k + 1, attempt + 1, maxSends)
  }

  /** A retry run starting at `attempt` makes `Attempts` sends, between 1 and `maxSends - attempt + 1`, two events per send. */
  lemma {:induction false} RetryLength(accepts: nat -> bool, backend: Backend, body: string, k: nat, attempt: nat, maxSends: nat)
    requires 1 <= attempt <= maxSends
    ensures var e := Retry(accepts, backend, body, k, attempt, maxSends);
      SendCount(e) == Attempts(accepts, k, attempt, maxSends) && |e| == 2 * SendCount(e)
    decreases maxSends - attempt
  {
    var send := Send(backend, attempt, body);
    if accepts(k) {
      SendCountPair(send, Delivered(backend, body), []);
    } else if attempt < maxSends {
      RetryLength(accepts, backend, body, k + 1, attempt + 1, maxSends);
      SendCountPair(send, Wait(RetryDelay), Retry(accepts, backend, body, k + 1, attempt + 1, maxSends));
    } else {
      SendCountPair(send, GaveUp(backend, body), []);
    }
  }

  /**
   * The shape of a retry run that makes `n` sends: the sends, numbered
   * `attempt, attempt + 1, …`, sit at the even positions and fixed waits
   * between them.
   */
  lemma {:induction false} RetryShape(accepts: nat -> bool, backend: Backend, body: string, k: nat, attempt: nat, maxSends: nat)
    requires 1 <= attempt <= maxSends
    ensures var e := Retry(accepts, backend, body, k, attempt, maxSends);
      var n := Attempts(accepts, k, attempt, maxSends);
      && |e| == 2 * n
      && (forall i :: 0 <= i < n ==> e[2 * i] == Send(backend, attempt + i, body))
      && (forall i :: 0 <= i < n - 1 ==> e[2 * i + 1] == Wait(RetryDelay))
    decreases maxSends - attempt
  {
    if !accepts(k) && attempt < maxSends {
      var e := Retry(accepts, backend, body, k, attempt, maxSends);
      var n := Attempts(accepts, k, attempt, maxSends);
      var rest := Retry(accepts, backend, body, k + 1, attempt + 1, maxSends);
      assert e == [Send(backend, attempt, body), Wait(RetryDelay)] + rest;
      assert n == 1 + Attempts(accepts, k + 1, attempt + 1, maxSends);
      RetryShape(accepts, backend, body, k + 1, attempt + 1, maxSends);
      forall i | 0 < i < n
        ensures e[2 * i] == Send(backend, attempt + i, body)
      {
        assert e[2 * i] == rest[2 * (i - 1)];
      }
      forall i | 0 < i < n - 1
        ensures e[2 * i + 1] == Wait(RetryDelay)
      {
        assert e[2 * i + 1] == rest[2 * (i - 1) + 1];
      }
    }
  }

  /** Every send of a retry run but the last one failed. */
  lemma {:induction false} RetryFailsBeforeLast(accepts: nat -> bool, k: nat, attempt: nat, maxSends: nat)
    requires 1 <= attempt <= maxSends
    ensures forall j :: k <= j < k + Attempts(accepts, k, attempt, maxSends) - 1 ==> !accepts(j)
    decreases maxSends - attempt
  {
    if !accepts(k) && attempt < maxSends {
      RetryFailsBeforeLast(accepts, k + 1, attempt + 1, maxSends);
    }
  }

  /**
   * A retry run ends `Delivered` exactly when its last send was accepted;
   * otherwise all attempts were used and it ends `GaveUp`.
   */
  lemma {:induction false} RetryOutcome(accepts: nat -> bool, backend: Backend, body: string, k: nat, attempt: nat, maxSends: nat)
    requires 1 <= attempt <= maxSends
    ensures var e := Retry(accepts, backend, body, k, attempt, maxSends);
      var n := Attempts(accepts, k, attempt, maxSends);
      && |e| == 2 * n
      && (accepts(k + n - 1) ==> e[|e| - 1] == Delivered(backend, body))
      && (!accepts(k + n - 1) ==> e[|e| - 1] == GaveUp(backend, body) && n == maxSends - attempt + 1)
    decreases maxSends - attempt
  {
    if !accepts(k) && attempt < maxSends {
      var e := Retry(accepts, backend, body, k, attempt, maxSends);
      var rest := Retry(accepts, backend, body, k + 1, attempt + 1, maxSends);
      assert e == [Send(backend, attempt, body), Wait(RetryDelay)] + rest;
      assert Attempts(accepts, k, attempt, maxSends) == 1 + Attempts(accepts, k + 1, attempt + 1, maxSends);
      RetryOutcome(accepts, backend, body, k + 1, attempt + 1, maxSends);
      assert e[|e| - 1] == rest[|rest| - 1];
    }
  }

  /**
   * The broker calls made for the first `n` chunks of a pass, `k` calls
   * having been made before it: one retry run per chunk.
   */
  function PrefixCalls(accepts: nat -> bool, chunks: seq<string>, n: nat, k: nat, maxSends: nat): (c: nat)
    requires 1 <= maxSends && n <= |chunks|
    ensures n <= c
    decreases n
  {
    if n == 0 then 0
    else
      var before := PrefixCalls(accepts, chunks, n - 1, k, maxSends);
      before + Attempts(accepts, k + before, 1, maxSends)
  }

  /** No chunk takes more than `maxSends` calls. */
  lemma {:induction false} PrefixCallsAtMost(accepts: nat -> bool, chunks: seq<string>, n: nat, k: nat, maxSends: nat)
    requires 1 <= maxSends && n <= |chunks|
    ensures PrefixCalls(accepts, chunks, n, k, maxSends) <= maxSends * n
    decreases n
  {
    if n > 0 {
      PrefixCallsAtMost(accepts, chunks, n - 1, k, maxSends);
      MulSucc(maxSends, n - 1);
    }
  }

  /**
   * The events of the first `n` rounds of the `for (const chunk of chunks)`
   * loop: each chunk's retry run completes before the next chunk starts.
   */
  function Prefix(accepts: nat -> bool, backend: Backend, chunks: seq<string>, n: nat, k: nat, maxSends: nat): seq<Event>
    requires 1 <= maxSends && n <= |chunks|
    decreases n
  {
    if n == 0 then []
    else
      Prefix(accepts, backend, chunks, n - 1, k, maxSends)
        + Retry(accepts, backend, chunks[n - 1], k + PrefixCalls(accepts, chunks, n - 1, k, maxSends), 1, maxSends)
  }

  /** One more round of the loop: the next chunk's retry run, after the calls made so far. */
  lemma PrefixStep(accepts: nat -> bool, backend: Backend, chunks: seq<string>, i: nat, k: nat, maxSends: nat)
    requires 1 <= maxSends && i < |chunks|
    ensures var c := PrefixCalls(accepts, chunks, i, k, maxSends);
      && Prefix(accepts, backend, chunks, i + 1, k, maxSends)
         == Prefix(accepts, backend, chunks, i, k, maxSends) + Retry(accepts, backend, chunks[i], k + c, 1, maxSends)
      && PrefixCalls(accepts, chunks, i + 1, k, maxSends) == c + Attempts(accepts, k + c, 1, maxSends)
  {
  }

  /** The broker calls of a whole pass: every chunk at least once, at most `maxSends` times. */
  function PassCalls(accepts: nat -> bool, chunks: seq<string>, k: nat, maxSends: nat): (n: nat)
    requires 1 <= maxSends
    ensures |chunks| <= n
  {
    PrefixCalls(accepts, chunks, |chunks|, k, maxSends)
  }

  /** The events of a whole pass over the chunks; `k` calls were made before. */
  function Pass(accepts: nat -> bool, backend: Backend, chunks: seq<string>, k: nat, maxSends: nat): seq<Event>
    requires 1 <= maxSends
  {
    Prefix(accepts, backend, chunks, |chunks|, k, maxSends)
  }

  /**
   * One backend's part of `sendChunks`: its pass over the chunks when it is
   * enabled and initialised, otherwise only the warning.
   */
  function BackendPart(open: bool, accepts: nat -> bool, backend: Backend, chunks: seq<string>, k: nat, maxSends: nat): seq<Event>
    requires 1 <= maxSends
  {
    if open then Pass(accepts, backend, chunks, k, maxSends) else [Skipped(backend)]
  }

  /** The broker calls of `BackendPart`. */
  function BackendCalls(open: bool, accepts: nat -> bool, chunks: seq<string>, k: nat, maxSends: nat): nat
    requires 1 <= maxSends
  {
    if open then PassCalls(accepts, chunks, k, maxSends) else 0
  }

  /** The sends logged by the first `n` rounds are their broker calls. */
  lemma {:induction false} PrefixSendCount(accepts: nat -> bool, backend: Backend, chunks: seq<string>, n: nat, k: nat, maxSends: nat)
    requires 1 <= maxSends && n <= |chunks|
    ensures SendCount(Prefix(accepts, backend, chunks, n, k, maxSends)) == PrefixCalls(accepts, chunks, n, k, maxSends)
    decreases n
  {
    if n > 0 {
      PrefixSendCount(accepts, backend, chunks, n - 1, k, maxSends);
      RoundSendCount(accepts, backend, chunks, n - 1, k, maxSends);
    }
  }

  /** Round `i` of the chunk loop adds as many sends as broker calls. */
  lemma RoundSendCount(accepts: nat -> bool, backend: Backend, chunks: seq<string>, i: nat, k: nat, maxSends: nat)
    requires 1 <= maxSends && i < |chunks|
    requires SendCount(Prefix(accepts, backend, chunks, i, k, maxSends)) == PrefixCalls(accepts, chunks, i, k, maxSends)
    ensures SendCount(Prefix(accepts, backend, chunks, i + 1, k, maxSends)) == PrefixCalls(accepts, chunks, i + 1, k, maxSends)
  {
    var c := PrefixCalls(accepts, chunks, i, k, maxSends);
    var before := Prefix(accepts, backend, chunks, i, k, maxSends);
    var run := Retry(accepts, backend, chunks[i], k + c, 1, maxSends);
    PrefixStep(accepts, backend, chunks, i, k, maxSends);
    RetryLength(accepts, backend, chunks[i], k + c, 1, maxSends);
    SendCountSum(before, run, c, Attempts(accepts, k + c, 1, maxSends));
  }

  /** The sends logged by a pass are its broker calls: every chunk is sent at least once and at most `maxSends` times. */
  lemma PassSendCount(accepts: nat -> bool, backend: Backend, chunks: seq<string>, k: nat, maxSends: nat)
    requires 1 <= maxSends
    ensures SendCount(Pass(accepts, backend, chunks, k, maxSends)) == PassCalls(accepts, chunks, k, maxSends)
    ensures |chunks| <= SendCount(Pass(accepts, backend, chunks, k, maxSends)) <= maxSends * |chunks|
  {
    PrefixSendCount(accepts, backend, chunks, |chunks|, k, maxSends);
    PrefixCallsAtMost(accepts, chunks, |chunks|, k, maxSends);
  }

  lemma MulSucc(a: nat, b: nat)
    ensures a * (b + 1) == a * b + a
  {
  }

  /** The first `n` rounds send only the chunks, only to `backend`, and never report a skipped backend. */
  lemma {:induction false} PrefixEvents(accepts: nat -> bool, backend: Backend, chunks: seq<string>, n: nat, k: nat, maxSends: nat)
    requires 1 <= maxSends && n <= |chunks|
    ensures forall e :: e in Prefix(accepts, backend, chunks, n, k, maxSends) ==>
      (e.Send? ==> e.backend == backend && e.body in chunks) && !e.Skipped?
    decreases n
  {
    if n > 0 {
      var before := Prefix(accepts, backend, chunks, n - 1, k, maxSends);
      var last := chunks[n - 1];
      var c := PrefixCalls(accepts, chunks, n - 1, k, maxSends);
      var run := Retry(accepts, backend, last, k + c, 1, maxSends);
      PrefixEvents(accepts, backend, chunks, n - 1, k, maxSends);
      RetryEvents(accepts, backend, last, k + c, 1, maxSends);
      assert last in chunks;
    }
  }

  /** A shorter prefix of the runs is a prefix of a longer one. */
  lemma {:induction false} PrefixGrows(accepts: nat -> bool, backend: Backend, chunks: seq<string>, n: nat, m: nat, k: nat, maxSends: nat)
    requires 1 <= maxSends && n <= m <= |chunks|
    ensures Prefix(accepts, backend, chunks, n, k, maxSends) <= Prefix(accepts, backend, chunks, m, k, maxSends)
    decreases m - n
  {
    if n < m {
      PrefixGrows(accepts, backend, chunks, n + 1, m, k, maxSends);
      PrefixStep(accepts, backend, chunks, n, k, maxSends);
    }
  }

  /** The retry run of `chunks[i]` within a pass. */
  function ChunkRun(accepts: nat -> bool, backend: Backend, chunks: seq<string>, i: nat, k: nat, maxSends: nat): seq<Event>
    requires 1 <= maxSends && i < |chunks|
  {
    Retry(accepts, backend, chunks[i], k + PrefixCalls(accepts, chunks, i, k, maxSends), 1, maxSends)
  }

  /** The run for `chunks[i]` follows the runs of the chunks before it and lies within the pass. */
  lemma ChunkRunInPass(accepts: nat -> bool, backend: Backend, chunks: seq<string>, i: nat, k: nat, maxSends: nat)
    requires 1 <= maxSends && i < |chunks|
    ensures Prefix(accepts, backend, chunks, i + 1, k, maxSends)
      == Prefix(accepts, backend, chunks, i, k, maxSends) + ChunkRun(accepts, backend, chunks, i, k, maxSends)
    ensures Prefix(accepts, backend, chunks, i + 1, k, maxSends) <= Pass(accepts, backend, chunks, k, maxSends)
  {
    PrefixStep(accepts, backend, chunks, i, k, maxSends);
    PrefixGrows(accepts, backend, chunks, i + 1, |chunks|, k, maxSends);
  }

  /** The run for `chunks[i]` sends only `chunks[i]`, between one and `maxSends` times. */
  lemma ChunkRunSends(accepts: nat -> bool, backend: Backend, chunks: seq<string>, i: nat, k: nat, maxSends: nat)
    requires 1 <= maxSends && i < |chunks|
    ensures var run := ChunkRun(accepts, backend, chunks, i, k, maxSends);
      && 1 <= SendCount(run) <= maxSends
      && forall e :: e in run && e.Send? ==> e.body == chunks[i]
  {
    var c := PrefixCalls(accepts, chunks, i, k, maxSends);
    RetryLength(accepts, backend, chunks[i], k + c, 1, maxSends);
    RetryEvents(accepts, backend, chunks[i], k + c, 1, maxSends);
  }

  /**
   * A pass is, in order, one retry run per chunk, each with between one and
   * `maxSends` sends of that chunk only.
   */
  lemma PassRuns(accepts: nat -> bool, backend: Backend, chunks: seq<string>, k: nat, maxSends: nat)
    requires 1 <= maxSends
    ensures Prefix(accepts, backend, chunks, 0, k, maxSends) == []
    ensures Prefix(accepts, backend, chunks, |chunks|, k, maxSends) == Pass(accepts, backend, chunks, k, maxSends)
    ensures forall i {:trigger ChunkRun(accepts, backend, chunks, i, k, maxSends)} :: 0 <= i < |chunks| ==>
      && Prefix(accepts, backend, chunks, i + 1, k, maxSends)
         == Prefix(accepts, backend, chunks, i, k, maxSends) + ChunkRun(accepts, backend, chunks, i, k, maxSends)
      && 1 <= SendCount(ChunkRun(accepts, backend, chunks, i, k, maxSends)) <= maxSends
      && forall e :: e in ChunkRun(accepts, backend, chunks, i, k, maxSends) && e.Send? ==> e.body == chunks[i]
  {
    forall i | 0 <= i < |chunks|
      ensures Prefix(accepts, backend, chunks, i + 1, k, maxSends)
         == Prefix(accepts, backend, chunks, i, k, maxSends) + ChunkRun(accepts, backend, chunks, i, k, maxSends)
      ensures 1 <= SendCount(ChunkRun(accepts, backend, chunks, i, k, maxSends)) <= maxSends
      ensures forall e :: e in ChunkRun(accepts, backend, chunks, i, k, maxSends) && e.Send? ==> e.body == chunks[i]
    {
      ChunkRunInPass(accepts, backend, chunks, i, k, maxSends);
      ChunkRunSends(accepts, backend, chunks, i, k, maxSends);
    }
  }

  /** A pass sends only the chunks, only to `backend`, and never reports a skipped backend. */
  lemma PassEvents(accepts: nat -> bool, backend: Backend, chunks: seq<string>, k: nat, maxSends: nat)
    requires 1 <= maxSends
    ensures forall e :: e in Pass(accepts, backend, chunks, k, maxSends) ==>
      (e.Send? ==> e.backend == backend && e.body in chunks) && !e.Skipped?
  {
    PrefixEvents(accepts, backend, chunks, |chunks|, k, maxSends);
  }

  /** A retry run only sends `body` to `backend`, and never reports a skipped backend. */
  lemma {:induction false} RetryEvents(accepts: nat -> bool, backend: Backend, body: string, k: nat, attempt: nat, maxSends: nat)
    requires 1 <= attempt <= maxSends
    ensures forall e :: e in Retry(accepts, backend, body, k, attempt, maxSends) ==>
      (e.Send? ==> e.backend == backend && e.body == body) && !e.Skipped?
    decreases maxSends - attempt
  {
    if !accepts(k) && attempt < maxSends {
      RetryEvents(accepts, backend, body, k + 1, attempt + 1, maxSends);
    }
  }

  /**
   * The retry examples: with at most five attempts, four failures then a
   * success is delivered on the fifth send; five failures give up after
   * five sends.
   */
  lemma FifthAttemptDelivers(accepts: nat -> bool, backend: Backend, body: string, k: nat)
    requires forall j :: k <= j < k + 4 ==> !accepts(j)
    requires accepts(k + 4)
    ensures var e := Retry(accepts, backend, body, k, 1, 5);
      SendCount(e) == 5 && e[|e| - 1] == Delivered(backend, body)
  {
    RetryLength(accepts, backend, body, k, 1, 5);
    RetryOutcome(accepts, backend, body, k, 1, 5);
    RetryFailsBeforeLast(accepts, k, 1, 5);
  }

  /** When every send fails, a run starting at attempt 1 makes exactly `maxSends` sends and gives up. */
  lemma AllFailGivesUp(accepts: nat -> bool, backend: Backend, body: string, k: nat, maxSends: nat)
    requires 1 <= maxSends
    requires forall j :: !accepts(j)
    ensures var e := Retry(accepts, backend, body, k, 1, maxSends);
      SendCount(e) == maxSends && e[|e| - 1] == GaveUp(backend, body)
  {
    RetryLength(accepts, backend, body, k, 1, maxSends);
    RetryOutcome(accepts, backend, body, k, 1, maxSends);
  }
}

=== FILE: dependencies.dfy ===
/**
 * Dependency discovery of services/jsonProcessor.js: `collectProperties`,
 * `findMissingDependencies`, `fetchMissingDependenciesContent` and the
 * final `{ ...missingDependencies, ...missingDependenciesContent }` merge.
 * The root jsonProcessor.js has the same logic inlined in `processJsonData`.
 */
module Dependencies {
  import opened Wrappers
  import opened JsonValues
  import opened PropertyExtraction
  import Text
  import CompareJson

  /**
   * A JavaScript `Set` of strings: its elements in insertion order, without
   * duplicates.
   */
  type ValueSet = seq<string>

  /** The object built by `collectProperties`: property name to a `Set` of values. */
  type PropertySets = map<string, ValueSet>

  /** The object built by `findMissingDependencies`: property name to an array of ids. */
  type MissingDependencies = map<string, seq<string>>

  /** The object built by `fetchMissingDependenciesContent`: property to id to fetched content. */
  type FetchedContent = map<string, map<string, Json>>

  /**
   * An entry of the merged `missingDependencies` of the result: either the
   * array of missing ids, or (when some fetch for that property succeeded) the
   * object of fetched contents that overwrote it.
   */
  datatype Dependency = Ids(ids: seq<string>) | Contents(byId: map<string, Json>)

  predicate NoDuplicates(s: seq<string>) {
    forall i, j :: 0 <= i < j < |s| ==> s[i] != s[j]
  }

  /**
   * The names inherited from `Object.prototype`. `properties[key]` is truthy
   * for them on a fresh `{}`, so `collectProperties` skips `new Set()` and
   * then calls `.add` on an inherited function, which throws a TypeError.
   * (`__proto__` never gets here: `extractProperties` cannot store it.)
   */
  const PrototypeNames: set<string> := {
    "constructor", "hasOwnProperty", "isPrototypeOf", "propertyIsEnumerable",
    "toLocaleString", "toString", "valueOf", "__defineGetter__",
    "__defineSetter__", "__lookupGetter__", "__lookupSetter__", "__proto__"
  }

  /** The error thrown by `properties[key].add(value)` on an inherited name. */
  const AddNotAFunction: string := "TypeError: properties[key].add is not a function"

  /**
   * `String(v)` as `regex.exec` converts a non-string argument, for the values
   * an array can hold: an array is its elements' texts joined with `,`, where
   * `null` gives the empty text; an object is `[object Object]`; an integer is
   * its decimal text.
   */
  function StringOf(v: Json): (r: string)
    ensures v.JStr? ==> r == v.s
    decreases v, 1, 0
  {
    match v
    case JNull => ""
    case JBool(b) => if b then "true" else "false"
    case JNum(n) => if n < 0 then "-" + CompareJson.NatToString(-n) else CompareJson.NatToString(n)
    case JStr(s) => s
    case JArr(items) => JoinedFrom(v, 0)
    case JObj(_) => "[object Object]"
  }

  /** `items.slice(i).join(",")` over the elements' `StringOf` texts. */
  function JoinedFrom(v: Json, i: nat): string
    requires v.JArr? && i <= |v.items|
    decreases v, 0, |v.items| - i
  {
    if i == |v.items| then ""
    else if i + 1 == |v.items| then StringOf(v.items[i])
    else StringOf(v.items[i]) + "," + JoinedFrom(v, i + 1)
  }

  /** An array of strings reads as those strings joined with commas. */
  lemma {:induction false} StringsJoined(v: Json, i: nat)
    requires v.JArr? && i <= |v.items|
    requires forall k :: 0 <= k < |v.items| ==> v.items[k].JStr?
    ensures JoinedFrom(v, i) == Text.Join(seq(|v.items| - i, k requires 0 <= k < |v.items| - i => v.items[i + k].s), ",")
    decreases |v.items| - i
  {
    var ss := seq(|v.items| - i, k requires 0 <= k < |v.items| - i => v.items[i + k].s);
    if i + 1 < |v.items| {
      StringsJoined(v, i + 1);
      assert ss[1..] == seq(|v.items| - (i + 1), k requires 0 <= k < |v.items| - (i + 1) => v.items[i + 1 + k].s);
    }
  }

  /**
   * `if (item.exp) extractProperties(item.exp)` for one array element: reading
   * `.exp` of `null` throws; a falsy `exp` contributes nothing; a truthy one is
   * scanned as the text `regex.exec` converts it to (an array's elements
   * joined with commas; numbers, booleans and objects give a text without
   * `:=`).
   */
  function ItemProperties(item: Json): (r: Result<map<string, string>>)
    ensures r.Err? <==> item.JNull?
    ensures item.JObj? ==> r == Ok(
      var exp := Lookup(item.members, "exp");
      if Truthy(exp) then Extracted(StringOf(exp.value)) else map[])
    ensures !item.JObj? && !item.JNull? ==> r == Ok(map[])
  {
    match Field(item, "exp")
    case Err(e) => Err(e)
    case Ok(exp) =>
      if !Truthy(exp) then Ok(map[])
      else Ok(Extracted(StringOf(exp.value)))
  }

  /** `ItemProperties` once `.exp` has been read without throwing. */
  lemma ItemPropertiesOfExp(item: Json)
    requires Field(item, "exp").Ok?
    ensures var exp := Field(item, "exp").value;
      ItemProperties(item) == Ok(if Truthy(exp) then Extracted(StringOf(exp.value)) else map[])
  {
  }

  /**
   * An `exp` that is an array of one string is scanned as that string:
   * `{"id": 1, "exp": ["a := b"]}` declares `a` with the value `b`.
   */
  lemma ArrayExpExample()
    ensures ItemProperties(JObj([Member("id", JNum(1)), Member("exp", JArr([JStr("a := b")]))])) == Ok(map["a" := "b"])
  {
    var exp := JArr([JStr("a := b")]);
    assert Lookup([Member("id", JNum(1)), Member("exp", exp)], "exp") == Some(exp);
    assert StringOf(exp) == "a := b";
    assert forall c :: c in "a" ==> Text.IsWordChar(c);
    SingleAssignment("a", "b");
    ArrayExpText();
  }

  /** The example's text, written as key, separator and value. */
  lemma ArrayExpText()
    ensures "a" + " := " + "b" == "a := b"
  {
  }

  /** `properties[key].add(value)` on a `Set` kept in insertion order. */
  function AddToSet(vs: ValueSet, v: string): (r: ValueSet)
    ensures NoDuplicates(vs) ==> NoDuplicates(r)
    ensures forall x :: x in r <==> x in vs || x == v
    ensures r != []
  {
    if v in vs then vs else vs + [v]
  }

  /** The sets after adding the entries of `item` whose keys are in `keys`. */
  function AddKeys(props: PropertySets, item: map<string, string>, keys: set<string>): PropertySets
    requires keys <= item.Keys
  {
    map k | k in props.Keys + keys ::
      if k in keys then AddToSet(if k in props then props[k] else [], item[k]) else props[k]
  }

  /** The sets after adding every entry of one entity's extracted properties. */
  function AddItem(props: PropertySets, item: map<string, string>): PropertySets {
    AddKeys(props, item, item.Keys)
  }

  /** Adding one more key's entry to the sets. */
  lemma AddKeysStep(props: PropertySets, item: map<string, string>, keys: set<string>, key: string)
    requires keys <= item.Keys && key in item && key !in keys
    ensures var done := AddKeys(props, item, keys);
      AddKeys(props, item, keys + {key})
      == done[key := AddToSet(if key in done then done[key] else [], item[key])]
  {
  }

  /** What `collectProperties(items)` returns, or the error it throws. */
  function Collected(items: seq<Json>): Result<PropertySets>
    decreases |items|
  {
    if items == [] then Ok(map[])
    else
      match Collected(items[..|items| - 1])
      case Err(e) => Err(e)
      case Ok(props) =>
        match ItemProperties(items[|items| - 1])
        case Err(e) => Err(e)
        case Ok(ip) =>
          if ip.Keys !! PrototypeNames then Ok(AddItem(props, ip))
          else Err(AddNotAFunction)
  }

  /** An element's properties, when it has them, give property `k` the value `v`. */
  predicate DeclaresIn(props: Result<map<string, string>>, k: string, v: string) {
    props.Ok? && k in props.value && props.value[k] == v
  }

  /** `ItemProperties` of each element, in order. */
  function AllProperties(items: seq<Json>): (ps: seq<Result<map<string, string>>>)
    ensures |ps| == |items|
    decreases |items|
  {
    if items == [] then [] else AllProperties(items[..|items| - 1]) + [ItemProperties(items[|items| - 1])]
  }

  /** Element `i` of `AllProperties` is the properties of element `i`. */
  lemma {:induction false} AllPropertiesAt(items: seq<Json>, i: nat)
    requires i < |items|
    ensures AllProperties(items)[i] == ItemProperties(items[i])
    decreases |items|
  {
    var init := items[..|items| - 1];
    if i < |init| {
      AllPropertiesAt(init, i);
      assert init[i] == items[i];
    }
  }

  /** An element's properties exist (it is not `null`) and use no inherited name. */
  predicate Usable(props: Result<map<string, string>>) {
    props.Ok? && props.value.Keys !! PrototypeNames
  }

  /** Every entry of `ps` is usable. */
  predicate AllUsable(ps: seq<Result<map<string, string>>>) {
    forall i :: 0 <= i < |ps| ==> Usable(ps[i])
  }

  /** The fault-free case: no element is `null` and no key is an inherited name. */
  predicate Collectable(items: seq<Json>) {
    AllUsable(AllProperties(items))
  }

  lemma AllUsableSnoc(ps: seq<Result<map<string, string>>>, r: Result<map<string, string>>)
    ensures AllUsable(ps + [r]) <==> AllUsable(ps) && Usable(r)
  {
    var all := ps + [r];
    assert all[|ps|] == r;
    assert forall i :: 0 <= i < |ps| ==> all[i] == ps[i];
  }

  /** Some entry of `ps` gives property `k` the value `v`. */
  predicate DeclaredBy(ps: seq<Result<map<string, string>>>, k: string, v: string) {
    exists i :: 0 <= i < |ps| && DeclaresIn(ps[i], k, v)
  }

  /** Some element declares property `k` with value `v`. */
  predicate Declares(items: seq<Json>, k: string, v: string) {
    DeclaredBy(AllProperties(items), k, v)
  }

  /** `collectProperties` throws exactly when an element is `null` or declares an inherited name. */
  lemma {:induction false} CollectedFails(items: seq<Json>)
    ensures Collected(items).Ok? <==> Collectable(items)
    decreases |items|
  {
    if items != [] {
      var init := items[..|items| - 1];
      CollectedFails(init);
      AllUsableSnoc(AllProperties(init), ItemProperties(items[|items| - 1]));
    }
  }

  /** Every collected property maps to a non-empty set without duplicates. */
  lemma {:induction false} CollectedSetsNonEmpty(items: seq<Json>)
    requires Collected(items).Ok?
    ensures var props := Collected(items).value;
      forall k :: k in props ==> props[k] != [] && NoDuplicates(props[k])
    decreases |items|
  {
    if items != [] {
      CollectedSetsNonEmpty(items[..|items| - 1]);
    }
  }

  /** Adding one entity's entries: a value is in a set afterwards iff it was before or the entity declares it. */
  lemma AddItemValues(props: PropertySets, ip: map<string, string>, k: string, v: string)
    ensures var after := AddItem(props, ip);
      (k in after && v in after[k]) <==> (k in props && v in props[k]) || (k in ip && ip[k] == v)
  {
  }

  /** One more entry declares what it declares, besides what the others do. */
  lemma DeclaredBySnoc(ps: seq<Result<map<string, string>>>, r: Result<map<string, string>>, k: string, v: string)
    ensures DeclaredBy(ps + [r], k, v) <==> DeclaredBy(ps, k, v) || DeclaresIn(r, k, v)
  {
    var all := ps + [r];
    if DeclaredBy(all, k, v) {
      var i :| 0 <= i < |all| && DeclaresIn(all[i], k, v);
      if i < |ps| {
        assert all[i] == ps[i];
      }
    }
    if DeclaredBy(ps, k, v) {
      var i :| 0 <= i < |ps| && DeclaresIn(ps[i], k, v);
      assert all[i] == ps[i];
    }
    if DeclaresIn(r, k, v) {
      assert all[|ps|] == r;
    }
  }

  /** Declarations of a non-empty array: those of all but the last element, and those of the last. */
  lemma DeclaresSnoc(items: seq<Json>, k: string, v: string)
    requires items != []
    ensures Declares(items, k, v) <==>
      Declares(items[..|items| - 1], k, v) || DeclaresIn(ItemProperties(items[|items| - 1]), k, v)
  {
    DeclaredBySnoc(AllProperties(items[..|items| - 1]), ItemProperties(items[|items| - 1]), k, v);
  }

  /** A collected set holds exactly the values that the elements declare for its property. */
  lemma {:induction false} CollectedValues(items: seq<Json>, k: string, v: string)
    requires Collected(items).Ok?
    ensures var props := Collected(items).value;
      (k in props && v in props[k]) <==> Declares(items, k, v)
    decreases |items|
  {
    if items != [] {
      var init := items[..|items| - 1];
      CollectedValues(init, k, v);
      DeclaresSnoc(items, k, v);
      AddItemValues(Collected(init).value, ItemProperties(items[|items| - 1]).value, k, v);
    }
  }

  /** Elements whose `exp` is falsy change nothing. */
  lemma SkipFalsyExp(items: seq<Json>, item: Json)
    requires item.JObj? && !Truthy(Lookup(item.members, "exp"))
    ensures Collected(items + [item]) == Collected(items)
  {
    assert (items + [item])[..|items|] == items;
    var r := Collected(items);
    if r.Ok? {
      assert AddItem(r.value, map[]) == r.value;
    }
  }

  /** `[...set2].filter((value) => !set1.has(value))` */
  function Without(vs: seq<string>, excluded: seq<string>): (r: seq<string>)
    ensures forall v :: v in r <==> v in vs && v !in excluded
    ensures NoDuplicates(vs) ==> NoDuplicates(r)
    ensures |r| <= |vs|
  {
    if vs == [] then []
    else if vs[0] in excluded then Without(vs[1..], excluded)
    else
      var rest := Without(vs[1..], excluded);
      assert forall v :: v in vs[1..] ==> v in vs;
      [vs[0]] + rest
  }

  /** `filter` keeps the order: filtering a concatenation filters each part. */
  lemma {:induction false} WithoutAppend(a: seq<string>, b: seq<string>, excluded: seq<string>)
    ensures Without(a + b, excluded) == Without(a, excluded) + Without(b, excluded)
    decreases |a|
  {
    if a == [] {
      assert a + b == b;
    } else {
      var ab := a + b;
      assert ab[0] == a[0] && ab[1..] == a[1..] + b;
      WithoutAppend(a[1..], b, excluded);
      if a[0] in excluded {
        assert Without(ab, excluded) == Without(ab[1..], excluded);
      } else {
        assert Without(ab, excluded) == [a[0]] + Without(ab[1..], excluded);
        assert Without(a, excluded) == [a[0]] + Without(a[1..], excluded);
      }
    }
  }

  /** One element is kept exactly when it is not excluded. */
  lemma WithoutOne(v: string, excluded: seq<string>)
    ensures Without([v], excluded) == if v in excluded then [] else [v]
  {
    assert [v][1..] == [];
  }

  lemma WithoutEmpty(props1: PropertySets, props2: PropertySets)
    ensures forall k :: k in props2 && k in props1 ==>
      (Without(props2[k], props1[k]) != [] <==> exists v :: v in props2[k] && v !in props1[k])
  {
    forall k | k in props2 && k in props1 && Without(props2[k], props1[k]) != []
      ensures exists v :: v in props2[k] && v !in props1[k]
    {
      var w := Without(props2[k], props1[k]);
      assert w[0] in w;
    }
  }

  /**
   * `findMissingDependencies`: for each property of the second snapshot, the
   * values absent from the first snapshot's set (or all of them when the first
   * snapshot lacks the property); a property appears only if that list is
   * non-empty, and properties only in the first snapshot never appear.
   */
  function FindMissing(props1: PropertySets, props2: PropertySets): (missing: MissingDependencies)
    ensures forall k :: k in missing <==> k in props2 && (k !in props1 || exists v :: v in props2[k] && v !in props1[k])
    ensures forall k :: k in missing && k !in props1 ==> missing[k] == props2[k]
    ensures forall k, v :: k in missing && k in props1 ==> (v in missing[k] <==> v in props2[k] && v !in props1[k])
  {
    WithoutEmpty(props1, props2);
    MissingSoFar(props1, props2, props2.Keys)
  }

  /** The entries `findMissingDependencies` has written once the keys in `done` are visited. */
  function MissingSoFar(props1: PropertySets, props2: PropertySets, done: set<string>): MissingDependencies
    requires done <= props2.Keys
  {
    map k | k in done && (k !in props1 || Without(props2[k], props1[k]) != []) ::
      if k in props1 then Without(props2[k], props1[k]) else props2[k]
  }

  /**
   * `findMissingDependencies` (and the same `forEach` inlined in the root
   * jsonProcessor.js): visits the properties of the second snapshot and
   * writes an entry when something is missing.
   */
  method FindMissingDependencies(properties1: PropertySets, properties2: PropertySets) returns (missing: MissingDependencies)
    ensures missing == FindMissing(properties1, properties2)
  {
    missing := map[];
    var todo := properties2.Keys;
    while todo != {}
      invariant todo <= properties2.Keys
      invariant missing == MissingSoFar(properties1, properties2, properties2.Keys - todo)
      decreases todo
    {
      var key :| key in todo;
      assert properties2.Keys - (todo - {key}) == (properties2.Keys - todo) + {key};
      if key in properties1 {
        var diff := Without(properties2[key], properties1[key]);
        if |diff| > 0 {
          missing := missing[key := diff];
        }
      } else {
        missing := missing[key := properties2[key]];
      }
      todo := todo - {key};
    }
    assert properties2.Keys - todo == properties2.Keys;
  }

  /**
   * Over whole snapshots: a value is missing for a property exactly when an
   * entity of the second snapshot declares it and no entity of the first
   * does; every reported list is non-empty and duplicate-free.
   */
  lemma MissingMeaning(json1: seq<Json>, json2: seq<Json>)
    requires Collectable(json1) && Collectable(json2)
    ensures Collected(json1).Ok? && Collected(json2).Ok?
    ensures var missing := FindMissing(Collected(json1).value, Collected(json2).value);
      forall k, v :: (k in missing && v in missing[k]) <==> Declares(json2, k, v) && !Declares(json1, k, v)
    ensures var missing := FindMissing(Collected(json1).value, Collected(json2).value);
      forall k :: k in missing ==> missing[k] != [] && NoDuplicates(missing[k])
  {
    CollectedFails(json1);
    CollectedFails(json2);
    CollectedSetsNonEmpty(json1);
    CollectedSetsNonEmpty(json2);
    var p1, p2 := Collected(json1).value, Collected(json2).value;
    var missing := FindMissing(p1, p2);
    forall k | k in missing ensures missing[k] != [] && NoDuplicates(missing[k]) {
      if k in p1 {
        var v :| v in p2[k] && v !in p1[k];
        assert v in missing[k];
      }
    }
    forall k, v ensures (k in missing && v in missing[k]) <==> Declares(json2, k, v) && !Declares(json1, k, v) {
      CollectedValues(json1, k, v);
      CollectedValues(json2, k, v);
      if Declares(json2, k, v) && !Declares(json1, k, v) {
        assert k in p2 && v in p2[k];
      }
    }
  }

  /** Comparing a snapshot with itself reports nothing missing. */
  lemma NothingMissingFromItself(props: PropertySets)
    requires forall k :: k in props ==> props[k] != []
    ensures FindMissing(props, props) == map[]
  {
  }

  /**
   * The ids of one property whose fetch succeeded, with their content:
   * `fetchedContent[property][item] = response.data`.
   */
  function FetchedFor(property: string, ids: seq<string>, source: (string, string) -> Option<Json>): map<string, Json> {
    map id | id in ids && source(property, id).Some? :: source(property, id).value
  }

  /** The content fetched for the properties in `done` only. */
  function FetchedSoFar(missing: MissingDependencies, done: set<string>, source: (string, string) -> Option<Json>): FetchedContent
    requires done <= missing.Keys
  {
    map p | p in done && FetchedFor(p, missing[p], source) != map[] :: FetchedFor(p, missing[p], source)
  }

  /**
   * What `fetchMissingDependenciesContent` returns: a property is present only
   * when at least one of its ids was fetched; failed ids are skipped.
   */
  function Fetched(missing: MissingDependencies, source: (string, string) -> Option<Json>): FetchedContent {
    FetchedSoFar(missing, missing.Keys, source)
  }

  /** One more id of a property requested. */
  lemma FetchedForStep(property: string, ids: seq<string>, i: nat, source: (string, string) -> Option<Json>)
    requires i < |ids|
    ensures FetchedFor(property, ids[..i + 1], source) ==
      if source(property, ids[i]).Some? then FetchedFor(property, ids[..i], source)[ids[i] := source(property, ids[i]).value]
      else FetchedFor(property, ids[..i], source)
  {
    assert ids[..i + 1] == ids[..i] + [ids[i]];
  }

  /**
   * The source server as seen from the processor: each `GET
   * /<property>/<id>` answers with the content the server holds for that
   * pair, or fails (`None`, a rejected request). Every request is logged.
   */
  class SourceServer {
    const catalog: (string, string) -> Option<Json>
    var requests: seq<(string, string)>

    constructor(catalog: (string, string) -> Option<Json>)
      ensures this.catalog == catalog && requests == []
    {
      this.catalog := catalog;
      requests := [];
    }

    /** `axios.get(`${SOURCE_SERVER_BASE_URL}/${property}/${encodeURIComponent(item)}`)` */
    method Get(property: string, id: string) returns (r: Option<Json>)
      modifies this
      ensures r == catalog(property, id)
      ensures requests == old(requests) + [(property, id)]
    {
      r := catalog(property, id);
      requests := requests + [(property, id)];
    }
  }

  /** The requests made for one property: its ids, in order. */
  function Requests(property: string, ids: seq<string>): (qs: seq<(string, string)>)
    ensures |qs| == |ids|
    ensures forall q :: q in qs <==> q.0 == property && q.1 in ids
  {
    if ids == [] then [] else [(property, ids[0])] + Requests(property, ids[1..])
  }

  /**
   * The inner `for (const item of items)` loop of
   * `fetchMissingDependenciesContent` for one property: the ids whose
   * request succeeded, with the content received; failed ones are skipped.
   */
  method FetchProperty(property: string, items: seq<string>, server: SourceServer) returns (byId: map<string, Json>)
    modifies server
    ensures byId == FetchedFor(property, items, server.catalog)
    ensures server.requests == old(server.requests) + Requests(property, items)
  {
    byId := map[];
    var i := 0;
    while i < |items|
      invariant i <= |items|
      invariant byId == FetchedFor(property, items[..i], server.catalog)
      invariant server.requests == old(server.requests) + Requests(property, items[..i])
    {
      FetchedForStep(property, items, i, server.catalog);
      RequestsStep(property, items, i);
      var response := server.Get(property, items[i]);
      if response.Some? {
        byId := byId[items[i] := response.value];
      }
      i := i + 1;
    }
    assert items[..i] == items;
  }

  lemma {:induction false} RequestsStep(property: string, ids: seq<string>, i: nat)
    requires i < |ids|
    ensures Requests(property, ids[..i + 1]) == Requests(property, ids[..i]) + [(property, ids[i])]
    decreases i
  {
    if i > 0 {
      assert ids[..i + 1][1..] == ids[1..][..i];
      assert ids[..i][1..] == ids[1..][..i - 1];
      RequestsStep(property, ids[1..], i - 1);
    }
  }

  /** Each request `(property, id)` is made once per occurrence of `id` in the list. */
  lemma {:induction false} RequestsCount(property: string, ids: seq<string>)
    ensures forall q :: multiset(Requests(property, ids))[q] == if q.0 == property then multiset(ids)[q.1] else 0
    decreases |ids|
  {
    if ids != [] {
      RequestsCount(property, ids[1..]);
      assert ids == [ids[0]] + ids[1..];
      assert multiset(ids) == multiset{ids[0]} + multiset(ids[1..]);
    }
  }

  /** How many requests for `q` fetching `missing` makes: one per listing of its id. */
  function PairCount(missing: MissingDependencies, q: (string, string)): nat {
    if q.0 in missing then multiset(missing[q.0])[q.1] else 0
  }

  /** The request counts once the ids of `p` follow those of the properties in `done`. */
  lemma RequestedCountStep(missing: MissingDependencies, done: set<string>, p: string, log: seq<(string, string)>)
    requires done <= missing.Keys && p in missing && p !in done
    requires forall q :: multiset(log)[q] == if q.0 in done then PairCount(missing, q) else 0
    ensures forall q :: multiset(log + Requests(p, missing[p]))[q] == if q.0 in done + {p} then PairCount(missing, q) else 0
  {
    RequestsCount(p, missing[p]);
  }

  /** One more property fetched. */
  lemma FetchedSoFarStep(missing: MissingDependencies, done: set<string>, p: string, source: (string, string) -> Option<Json>)
    requires done <= missing.Keys && p in missing && p !in done
    ensures FetchedSoFar(missing, done + {p}, source) ==
      if FetchedFor(p, missing[p], source) == map[] then FetchedSoFar(missing, done, source)
      else FetchedSoFar(missing, done, source)[p := FetchedFor(p, missing[p], source)]
  {
  }

  /** The requests logged after those of the properties in `done`, once those of `p` follow. */
  lemma RequestedStep(missing: MissingDependencies, done: set<string>, p: string, log: seq<(string, string)>)
    requires done <= missing.Keys && p in missing
    requires forall q :: q in log <==> q.0 in done && q.1 in missing[q.0]
    ensures forall q :: q in log + Requests(p, missing[p]) <==> q.0 in done + {p} && q.1 in missing[q.0]
  {
  }

  /** Appending to a request log keeps its first `n0` entries and extends the rest. */
  lemma LogExtended(log: seq<(string, string)>, extra: seq<(string, string)>, n0: nat)
    requires n0 <= |log|
    ensures (log + extra)[..n0] == log[..n0]
    ensures (log + extra)[n0..] == log[n0..] + extra
  {
  }

  /** `log` holds the requests for the properties in `done`: each listed id once per listing. */
  ghost predicate LoggedFor(missing: MissingDependencies, done: set<string>, log: seq<(string, string)>)
    requires done <= missing.Keys
  {
    && (forall q :: q in log <==> q.0 in done && q.1 in missing[q.0])
    && (forall q :: multiset(log)[q] == if q.0 in done then PairCount(missing, q) else 0)
  }

  /** The log after the requests of one more property. */
  lemma LoggedStep(missing: MissingDependencies, done: set<string>, p: string, sent: seq<(string, string)>, n0: nat)
    requires done <= missing.Keys && p in missing && p !in done && n0 <= |sent|
    requires LoggedFor(missing, done, sent[n0..])
    ensures (sent + Requests(p, missing[p]))[..n0] == sent[..n0]
    ensures LoggedFor(missing, done + {p}, (sent + Requests(p, missing[p]))[n0..])
  {
    LogExtended(sent, Requests(p, missing[p]), n0);
    RequestedStep(missing, done, p, sent[n0..]);
    RequestedCountStep(missing, done, p, sent[n0..]);
  }

  /**
   * The request log `after` keeps `before` as it was and adds exactly the
   * `(property, id)` pairs of `missing`, each as many times as the id is
   * listed under its property.
   */
  ghost predicate RequestedMissing(before: seq<(string, string)>, after: seq<(string, string)>, missing: MissingDependencies) {
    && |before| <= |after| && after[..|before|] == before
    && (forall q :: q in after[|before|..] <==> q.0 in missing && q.1 in missing[q.0])
    && (forall q :: multiset(after[|before|..])[q] == PairCount(missing, q))
  }

  /**
   * `fetchMissingDependenciesContent`: requests every missing id of every
   * property; a property gets an entry once one of its fetches succeeds
   * (`fetchedContent[property] = fetchedContent[property] || {}`).
   */
  method FetchMissingDependenciesContent(missing: MissingDependencies, server: SourceServer) returns (content: FetchedContent)
    modifies server
    ensures content == Fetched(missing, server.catalog)
    ensures RequestedMissing(old(server.requests), server.requests, missing)
  {
    ghost var n0 := |server.requests|;
    ghost var done: set<string> := {};
    content := map[];
    var todo := missing.Keys;
    while todo != {}
      invariant todo <= missing.Keys && done == missing.Keys - todo
      invariant content == FetchedSoFar(missing, done, server.catalog)
      invariant n0 <= |server.requests| && server.requests[..n0] == old(server.requests)
      invariant LoggedFor(missing, done, server.requests[n0..])
      decreases todo
    {
      var property :| property in todo;
      ghost var sent := server.requests;
      var byId := FetchProperty(property, missing[property], server);
      FetchedSoFarStep(missing, done, property, server.catalog);
      if byId != map[] {
        content := content[property := byId];
      }
      LoggedStep(missing, done, property, sent, n0);
      done := done + {property};
      todo := todo - {property};
    }
    assert done == missing.Keys;
  }

  /** `{ ...missingDependencies, ...missingDependenciesContent }` */
  function Merge(missing: MissingDependencies, content: FetchedContent): map<string, Dependency> {
    map k | k in missing.Keys + content.Keys ::
      if k in content then Contents(content[k]) else Ids(missing[k])
  }

  /**
   * After the merge the reported properties are exactly the missing ones; a
   * property with at least one successful fetch has its id list replaced by
   * the content of just the successful ids, and one with no successful fetch
   * keeps its id list.
   */
  lemma MergedMeaning(missing: MissingDependencies, source: (string, string) -> Option<Json>)
    ensures var merged := Merge(missing, Fetched(missing, source));
      merged.Keys == missing.Keys
    ensures var merged := Merge(missing, Fetched(missing, source));
      forall k :: k in merged && (exists id :: id in missing[k] && source(k, id).Some?) ==>
        merged[k].Contents? &&
        (forall id :: id in merged[k].byId <==> id in missing[k] && source(k, id).Some?) &&
        (forall id :: id in merged[k].byId ==> merged[k].byId[id] == source(k, id).value)
    ensures var merged := Merge(missing, Fetched(missing, source));
      forall k :: k in merged && (forall id :: id in missing[k] ==> source(k, id).None?) ==>
        merged[k] == Ids(missing[k])
  {
    var content := Fetched(missing, source);
    forall k | k in missing && (exists id :: id in missing[k] && source(k, id).Some?)
      ensures k in content
    {
      var id :| id in missing[k] && source(k, id).Some?;
      assert id in FetchedFor(k, missing[k], source);
    }
  }

  /** One more element processed by `collectProperties`. */
  lemma CollectedStep(items: seq<Json>, n: nat)
    requires n < |items|
    ensures Collected(items[..n + 1]) ==
      match Collected(items[..n])
      case Err(e) => Err(e)
      case Ok(props) =>
        match ItemProperties(items[n])
        case Err(e) => Err(e)
        case Ok(ip) =>
          if ip.Keys !! PrototypeNames then Ok(AddItem(props, ip))
          else Err(AddNotAFunction)
  {
    assert items[..n + 1][..n] == items[..n];
  }

  /**
   * `Object.entries(itemProperties).forEach(...)`: adds one entity's entries
   * to the sets, throwing on an inherited name.
   */
  method AddEntries(properties: PropertySets, itemProperties: map<string, string>) returns (r: Result<PropertySets>)
    ensures itemProperties.Keys !! PrototypeNames ==> r == Ok(AddItem(properties, itemProperties))
    ensures !(itemProperties.Keys !! PrototypeNames) ==> r == Err(AddNotAFunction)
  {
    var props := properties;
    var todo := itemProperties.Keys;
    while todo != {}
      invariant todo <= itemProperties.Keys
      invariant (itemProperties.Keys - todo) !! PrototypeNames
      invariant props == AddKeys(properties, itemProperties, itemProperties.Keys - todo)
      decreases todo
    {
      var key :| key in todo;
      if key in PrototypeNames {
        return Err(AddNotAFunction);
      }
      AddKeysStep(properties, itemProperties, itemProperties.Keys - todo, key);
      assert itemProperties.Keys - (todo - {key}) == (itemProperties.Keys - todo) + {key};
      var values := if key in props then props[key] else [];
      props := props[key := AddToSet(values, itemProperties[key])];
      todo := todo - {key};
    }
    assert itemProperties.Keys - todo == itemProperties.Keys;
    return Ok(props);
  }

  /**
   * `collectProperties`: a `forEach` over the entities that creates a `Set`
   * per new property and adds each extracted value to it.
   */
  method CollectProperties(jsonData: seq<Json>) returns (r: Result<PropertySets>)
    ensures r == Collected(jsonData)
  {
    var properties: PropertySets := map[];
    var n := 0;
    while n < |jsonData|
      invariant n <= |jsonData|
      invariant Collected(jsonData[..n]) == Ok(properties)
    {
      CollectedStep(jsonData, n);
      var step := CollectItem(properties, jsonData[n]);
      if step.Err? {
        r := step;
        PrefixErr(jsonData, n + 1);
        return;
      }
      properties := step.value;
      n := n + 1;
    }
    assert jsonData[..n] == jsonData;
    r := Ok(properties);
  }

  /** The body of the `forEach` for one entity. */
  method CollectItem(properties: PropertySets, item: Json) returns (r: Result<PropertySets>)
    ensures r ==
      match ItemProperties(item)
      case Err(e) => Err(e)
      case Ok(ip) =>
        if ip.Keys !! PrototypeNames then Ok(AddItem(properties, ip))
        else Err(AddNotAFunction)
  {
    var exp := Field(item, "exp");
    if exp.Err? {
      return Err(exp.error);
    }
    ItemPropertiesOfExp(item);
    if Truthy(exp.value) {
      var itemProperties := ExtractProperties(StringOf(exp.value.value));
      r := AddEntries(properties, itemProperties);
    } else {
      assert AddItem(properties, map[]) == properties;
      r := Ok(properties);
    }
  }

  /** Once a prefix of the entities makes `collectProperties` throw, the whole array does. */
  lemma {:induction false} PrefixErr(items: seq<Json>, n: nat)
    requires n <= |items|
    requires Collected(items[..n]).Err?
    ensures Collected(items) == Collected(items[..n])
    decreases |items| - n
  {
    if n < |items| {
      assert items[..n + 1][..n] == items[..n];
      PrefixErr(items, n + 1);
    } else {
      assert items[..n] == items;
    }
  }
}

=== FILE: diff_analysis.dfy ===
/**
 * The delta walk of services/jsonProcessor.js (`analyzeDiff`,
 * `initializeChanges`, `calculateTotalChanges`) and of the closure of the same
 * name in the root jsonProcessor.js.
 *
 * A delta in the jsondiffpatch encoding is a JSON object whose members are
 * either change records (arrays: `[new]` an addition, `[old, 0, 0]` a
 * deletion, anything else a modification) or nested deltas (objects); the
 * member `_t` marks an array-shaped delta and is not a change.
 */
module DiffAnalysis {
  import opened Wrappers
  import opened JsonValues
  import opened Text

  datatype ChangeType = Addition | Deletion | Modification

  /**
   * One entry of `changeLogs`. `before`/`after` are `None` where the
   * source reads an array element past the end (`undefined`).
   */
  datatype ChangeLogEntry = ChangeLogEntry(path: string, before: Option<Json>, after: Option<Json>, kind: ChangeType)

  /** The array-delta marker member, skipped by the walk. */
  const ArrayMarker: string := "_t"

  /** `parentPath ? `${parentPath}.${key}` : key` */
  function JoinPath(parent: string, key: string): string {
    if parent == "" then key else parent + "." + key
  }

  /** `change[i]`: `undefined` past the end. */
  function At(change: seq<Json>, i: nat): Option<Json> {
    if i < |change| then Some(change[i]) else None
  }

  /** The log entry for the change record `change` found at `path`. */
  function Classify(change: seq<Json>, path: string): (e: ChangeLogEntry)
    ensures e.path == path
    ensures e.kind == Addition <==> |change| == 1
    ensures e.kind == Deletion <==> |change| == 3 && change[2] == JNum(0)
    ensures e.kind == Addition ==> e.before == Some(JNull) && e.after == Some(change[0])
    ensures e.kind == Deletion ==> e.before == Some(change[0]) && e.after == Some(JNull)
    ensures e.kind == Modification ==> e.before == At(change, 0) && e.after == At(change, 1)
  {
    if |change| == 1 then ChangeLogEntry(path, Some(JNull), Some(change[0]), Addition)
    else if |change| == 3 && change[2] == JNum(0) then ChangeLogEntry(path, Some(change[0]), Some(JNull), Deletion)
    else ChangeLogEntry(path, At(change, 0), At(change, 1), Modification)
  }

  /**
   * The entries a walk of `node` appends, in member order; `for..in` over
   * anything but an object visits nothing here.
   */
  function Logs(node: Json, parent: string): seq<ChangeLogEntry>
    decreases node, 1
  {
    if node.JObj? then MemberLogs(node, parent, |node.members|) else []
  }

  /** The entries appended for the first `n` members of the object `node`. */
  function MemberLogs(node: Json, parent: string, n: nat): seq<ChangeLogEntry>
    requires node.JObj? && n <= |node.members|
    decreases node, 0, n
  {
    if n == 0 then [] else MemberLogs(node, parent, n - 1) + MemberLog(node, parent, n - 1)
  }

  /** The entries appended for member `i` of the object `node`. */
  function MemberLog(node: Json, parent: string, i: nat): seq<ChangeLogEntry>
    requires node.JObj? && i < |node.members|
    decreases node, 0, i
  {
    var m := node.members[i];
    if m.key == ArrayMarker then []
    else match m.value
      case JArr(change) => [Classify(change, JoinPath(parent, m.key))]
      case JObj(_) => Logs(m.value, JoinPath(parent, m.key))
      case _ => []
  }

  function Max(a: int, b: int): int {
    if a < b then b else a
  }

  /** The deepest nesting level a walk of `node` started at level `d` reaches. */
  function Depth(node: Json, d: int): (r: int)
    ensures r >= d
    decreases node, 1
  {
    if node.JObj? then MemberDepth(node, d, |node.members|) else d
  }

  /** The deepest level reached through the first `n` members of `node`. */
  function MemberDepth(node: Json, d: int, n: nat): (r: int)
    requires node.JObj? && n <= |node.members|
    ensures r >= d
    decreases node, 0, n
  {
    if n == 0 then d
    else
      var m := node.members[n - 1];
      var here := if m.key != ArrayMarker && m.value.JObj? then Depth(m.value, d + 1) else d;
      Max(MemberDepth(node, d, n - 1), here)
  }

  /** The number of entries of one kind. */
  function Count(logs: seq<ChangeLogEntry>, kind: ChangeType): nat {
    if logs == [] then 0 else (if logs[0].kind == kind then 1 else 0) + Count(logs[1..], kind)
  }

  lemma {:induction false} CountAppend(a: seq<ChangeLogEntry>, b: seq<ChangeLogEntry>, kind: ChangeType)
    ensures Count(a + b, kind) == Count(a, kind) + Count(b, kind)
    decreases |a|
  {
    if a != [] {
      assert (a + b)[1..] == a[1..] + b;
      CountAppend(a[1..], b, kind);
    } else {
      assert a + b == b;
    }
  }

  /** Every entry has exactly one kind, so the three counts add up to the number of entries. */
  lemma {:induction false} CountsAddUp(logs: seq<ChangeLogEntry>)
    ensures Count(logs, Addition) + Count(logs, Deletion) + Count(logs, Modification) == |logs|
    decreases |logs|
  {
    if logs != [] {
      CountsAddUp(logs[1..]);
    }
  }

  /** The object returned by `initializeChanges` and updated in place by the walk. */
  class Changes {
    var totalChanges: int
    var newEntries: int
    var deletedEntries: int
    var modifiedEntries: int
    var addedKeys: int
    var removedKeys: int
    var valueChanges: int
    var depth: int

    /** `initializeChanges()`: every counter zero. */
    constructor()
      ensures totalChanges == 0 && newEntries == 0 && deletedEntries == 0 && modifiedEntries == 0
      ensures addedKeys == 0 && removedKeys == 0 && valueChanges == 0 && depth == 0
    {
      totalChanges := 0;
      newEntries := 0;
      deletedEntries := 0;
      modifiedEntries := 0;
      addedKeys := 0;
      removedKeys := 0;
      valueChanges := 0;
      depth := 0;
    }
  }

  /** The counters of a finished walk, as returned in the result. */
  datatype ChangeStats = ChangeStats(
    totalChanges: int, newEntries: int, deletedEntries: int, modifiedEntries: int,
    addedKeys: int, removedKeys: int, valueChanges: int, depth: int)

  function Snapshot(changes: Changes): ChangeStats
    reads changes
  {
    ChangeStats(changes.totalChanges, changes.newEntries, changes.deletedEntries, changes.modifiedEntries,
      changes.addedKeys, changes.removedKeys, changes.valueChanges, changes.depth)
  }

  /** `calculateTotalChanges(changes)` */
  function CalculateTotalChanges(changes: Changes): int
    reads changes
  {
    changes.newEntries + changes.deletedEntries + changes.modifiedEntries
  }

  /** The `changeLogs` array the walk pushes to. */
  class ChangeLog {
    var entries: seq<ChangeLogEntry>

    constructor()
      ensures entries == []
    {
      entries := [];
    }

    /** `changeLogs.push(entry)` */
    method Push(entry: ChangeLogEntry)
      modifies this
      ensures entries == old(entries) + [entry]
    {
      entries := entries + [entry];
    }
  }

  /** The counters of `changes` as they stand. */
  function Tally(changes: Changes): (int, int, int, int)
    reads changes
  {
    (changes.newEntries, changes.deletedEntries, changes.modifiedEntries, changes.valueChanges)
  }

  /** `start` plus the number of entries of each kind in `logs`. */
  function Added(start: (int, int, int, int), logs: seq<ChangeLogEntry>): (int, int, int, int) {
    (start.0 + Count(logs, Addition), start.1 + Count(logs, Deletion),
     start.2 + Count(logs, Modification), start.3 + Count(logs, Modification))
  }

  /** One entry bumps exactly the counter of its kind (and `valueChanges` with `modifiedEntries`). */
  lemma AddedSingle(start: (int, int, int, int), e: ChangeLogEntry)
    ensures Added(start, [e]) == match e.kind
      case Addition => (start.0 + 1, start.1, start.2, start.3)
      case Deletion => (start.0, start.1 + 1, start.2, start.3)
      case Modification => (start.0, start.1, start.2 + 1, start.3 + 1)
  {
    assert [e][1..] == [];
    assert Count([e], Addition) == (if e.kind == Addition then 1 else 0) + Count([], Addition);
    assert Count([e], Deletion) == (if e.kind == Deletion then 1 else 0) + Count([], Deletion);
    assert Count([e], Modification) == (if e.kind == Modification then 1 else 0) + Count([], Modification);
  }

  lemma AddedAppend(start: (int, int, int, int), a: seq<ChangeLogEntry>, b: seq<ChangeLogEntry>)
    ensures Added(start, a + b) == Added(Added(start, a), b)
  {
    CountAppend(a, b, Addition);
    CountAppend(a, b, Deletion);
    CountAppend(a, b, Modification);
  }

  /**
   * The array branch of `analyzeDiff`: bumps the counter of the record's
   * kind (and `valueChanges` with `modifiedEntries`) and pushes its entry.
   */
  method RecordChange(change: seq<Json>, currentPath: string, changes: Changes, changeLogs: ChangeLog)
    modifies changes, changeLogs
    ensures changeLogs.entries == old(changeLogs.entries) + [Classify(change, currentPath)]
    ensures Tally(changes) == Added(old(Tally(changes)), [Classify(change, currentPath)])
    ensures changes.depth == old(changes.depth) && changes.totalChanges == old(changes.totalChanges)
    ensures changes.addedKeys == old(changes.addedKeys) && changes.removedKeys == old(changes.removedKeys)
  {
    AddedSingle(Tally(changes), Classify(change, currentPath));
    if |change| == 1 {
      changes.newEntries := changes.newEntries + 1;
      changeLogs.Push(ChangeLogEntry(currentPath, Some(JNull), Some(change[0]), Addition));
    } else if |change| == 3 && change[2] == JNum(0) {
      changes.deletedEntries := changes.deletedEntries + 1;
      changeLogs.Push(ChangeLogEntry(currentPath, Some(change[0]), Some(JNull), Deletion));
    } else {
      changes.modifiedEntries := changes.modifiedEntries + 1;
      changes.valueChanges := changes.valueChanges + 1;
      changeLogs.Push(ChangeLogEntry(currentPath, At(change, 0), At(change, 1), Modification));
    }
  }

  /**
   * `analyzeDiff(diff, changes, changeLogs, parentPath, currentDepth)`: the
   * log gains exactly `Logs(diff, parentPath)`, each counter grows by the
   * number of entries of its kind, `depth` becomes the deepest level reached,
   * and `totalChanges`, `addedKeys` and `removedKeys` are left alone.
   */
  method AnalyzeDiff(diff: Json, changes: Changes, changeLogs: ChangeLog, parentPath: string, currentDepth: int)
    modifies changes, changeLogs
    ensures changeLogs.entries == old(changeLogs.entries) + Logs(diff, parentPath)
    ensures Tally(changes) == Added(old(Tally(changes)), Logs(diff, parentPath))
    ensures changes.depth == Max(old(changes.depth), Depth(diff, currentDepth))
    ensures changes.totalChanges == old(changes.totalChanges)
    ensures changes.addedKeys == old(changes.addedKeys) && changes.removedKeys == old(changes.removedKeys)
    decreases diff, 1
  {
    changes.depth := Max(changes.depth, currentDepth);
    if !diff.JObj? {
      assert Logs(diff, parentPath) == [];
      assert Added(old(Tally(changes)), []) == old(Tally(changes));
      return;
    }
    var i := 0;
    while i < |diff.members|
      invariant i <= |diff.members|
      invariant changeLogs.entries == old(changeLogs.entries) + MemberLogs(diff, parentPath, i)
      invariant Tally(changes) == Added(old(Tally(changes)), MemberLogs(diff, parentPath, i))
      invariant changes.depth == Max(old(changes.depth), MemberDepth(diff, currentDepth, i))
      invariant changes.totalChanges == old(changes.totalChanges)
      invariant changes.addedKeys == old(changes.addedKeys) && changes.removedKeys == old(changes.removedKeys)
    {
      AddedAppend(old(Tally(changes)), MemberLogs(diff, parentPath, i), MemberLog(diff, parentPath, i));
      AnalyzeMember(diff, i, changes, changeLogs, parentPath, currentDepth);
      i := i + 1;
    }
  }

  /**
   * One round of the `for (const key in diff)` loop of `analyzeDiff`: the
   * `_t` marker and plain values are skipped, an array is a change record,
   * and an object is walked one level deeper.
   */
  method AnalyzeMember(diff: Json, i: nat, changes: Changes, changeLogs: ChangeLog, parentPath: string, currentDepth: int)
    requires diff.JObj? && i < |diff.members|
    requires changes.depth >= currentDepth
    modifies changes, changeLogs
    ensures changeLogs.entries == old(changeLogs.entries) + MemberLog(diff, parentPath, i)
    ensures Tally(changes) == Added(old(Tally(changes)), MemberLog(diff, parentPath, i))
    ensures var m := diff.members[i];
      changes.depth == Max(old(changes.depth),
        if m.key != ArrayMarker && m.value.JObj? then Depth(m.value, currentDepth + 1) else currentDepth)
    ensures changes.totalChanges == old(changes.totalChanges)
    ensures changes.addedKeys == old(changes.addedKeys) && changes.removedKeys == old(changes.removedKeys)
    decreases diff, 0
  {
    var key := diff.members[i].key;
    var change := diff.members[i].value;
    if key != ArrayMarker {
      var currentPath := JoinPath(parentPath, key);
      if change.JArr? {
        RecordChange(change.items, currentPath, changes, changeLogs);
        return;
      } else if change.JObj? {
        AnalyzeDiff(change, changes, changeLogs, currentPath, currentDepth + 1);
        return;
      }
    }
    assert Added(old(Tally(changes)), []) == old(Tally(changes));
  }

  /** A walk that starts at level `d` reaches the same nesting `d` levels higher. */
  lemma {:induction false} DepthShift(node: Json, d: int)
    ensures Depth(node, d) == d + Depth(node, 0)
    decreases node, 1
  {
    if node.JObj? {
      MemberDepthShift(node, d, |node.members|);
    }
  }

  lemma {:induction false} MemberDepthShift(node: Json, d: int, n: nat)
    requires node.JObj? && n <= |node.members|
    ensures MemberDepth(node, d, n) == d + MemberDepth(node, 0, n)
    decreases node, 0, n
  {
    if n > 0 {
      MemberDepthShift(node, d, n - 1);
      var m := node.members[n - 1];
      if m.key != ArrayMarker && m.value.JObj? {
        DepthShift(m.value, d + 1);
        DepthShift(m.value, 1);
      }
    }
  }

  /** Below a non-empty parent path every logged path extends it with `.`. */
  lemma {:induction false} LogPaths(node: Json, parent: string)
    requires parent != ""
    ensures forall e :: e in Logs(node, parent) ==> StartsWith(e.path, parent + ".")
    decreases node, 1
  {
    if node.JObj? {
      MemberLogPaths(node, parent, |node.members|);
    }
  }

  lemma {:induction false} MemberLogPaths(node: Json, parent: string, n: nat)
    requires parent != "" && node.JObj? && n <= |node.members|
    ensures forall e :: e in MemberLogs(node, parent, n) ==> StartsWith(e.path, parent + ".")
    decreases node, 0, n
  {
    if n > 0 {
      MemberLogPaths(node, parent, n - 1);
      var m := node.members[n - 1];
      var path := JoinPath(parent, m.key);
      assert path[..|parent + "."|] == parent + ".";
      if m.key != ArrayMarker && m.value.JObj? {
        LogPaths(m.value, path);
        forall e | e in Logs(m.value, path)
          ensures StartsWith(e.path, parent + ".")
        {
          assert e.path[..|path + "."|] == path + ".";
          assert e.path[..|parent + "."|] == (path + ".")[..|parent + "."|];
        }
      }
    }
  }

  /** An absent or non-object delta yields no entries and leaves the depth at the start level. */
  lemma NoDeltaNoChanges(node: Json, parent: string, d: int)
    requires !node.JObj?
    ensures Logs(node, parent) == [] && Depth(node, d) == d
  {
  }

  /** The nested example `{a: {b: {c: ["v"]}}}`: one addition at `a.b.c`, depth 2. */
  lemma NestedExample()
    ensures var delta := JObj([Member("a", JObj([Member("b", JObj([Member("c", JArr([JStr("v")]))]))]))]);
      && Logs(delta, "") == [ChangeLogEntry("a.b.c", Some(JNull), Some(JStr("v")), Addition)]
      && Depth(delta, 0) == 2
  {
    var c := JObj([Member("c", JArr([JStr("v")]))]);
    var b := JObj([Member("b", c)]);
    var delta := JObj([Member("a", b)]);
    assert JoinPath("a", "b") == "a.b";
    assert JoinPath("a.b", "c") == "a.b.c";
    assert MemberLogs(c, "a.b", 1) == [] + [ChangeLogEntry("a.b.c", Some(JNull), Some(JStr("v")), Addition)];
    assert MemberLogs(b, "a", 1) == [] + Logs(c, "a.b");
    assert MemberLogs(delta, "", 1) == [] + Logs(b, "a");
    assert MemberDepth(c, 2, 1) == 2;
    assert MemberDepth(b, 1, 1) == 2;
    assert MemberDepth(delta, 0, 1) == 2;
  }

  /** The classification examples: `["x"]`, `["old", 0, 0]` and `["old", "new"]`. */
  lemma ClassifyExamples()
    ensures Classify([JStr("x")], "k") == ChangeLogEntry("k", Some(JNull), Some(JStr("x")), Addition)
    ensures Classify([JStr("old"), JNum(0), JNum(0)], "k") == ChangeLogEntry("k", Some(JStr("old")), Some(JNull), Deletion)
    ensures Classify([JStr("old"), JStr("new")], "k") == ChangeLogEntry("k", Some(JStr("old")), Some(JStr("new")), Modification)
  {
  }
}

=== FILE: entity_service.dfy ===
/**
 * `mergeEntityData` of services/entityService.js: a shallow copy of the
 * existing entity into which every key of the new entity whose value is not
 * strictly equal to the existing one is written.
 */
module EntityService {
  import opened Wrappers
  import opened JsonValues

  /** An entity object, by its own enumerable keys. */
  type Entity = map<string, Json>

  /** `existingEntity[key]`: `undefined` for a key it does not have. */
  function Get(e: Entity, key: string): Option<Json> {
    if key in e then Some(e[key]) else None
  }

  /** Strict equality only holds between equal values. */
  lemma StrictEqualsSame(a: Option<Json>, b: Option<Json>)
    requires StrictEquals(a, b)
    ensures a == b
  {
  }

  /**
   * The copy is taken first and the loop writes only into it. Each key of
   * `newEntity` ends with `newEntity`'s value, keys only in
   * `existingEntity` keep theirs, and the keys are the union of both.
   */
  method MergeEntityData(existingEntity: Entity, newEntity: Entity) returns (updatedEntity: Entity)
    ensures updatedEntity.Keys == existingEntity.Keys + newEntity.Keys
    ensures forall key :: key in newEntity ==> updatedEntity[key] == newEntity[key]
    ensures forall key :: key in existingEntity && key !in newEntity ==>
      updatedEntity[key] == existingEntity[key]
  {
    updatedEntity := existingEntity;
    var pending := newEntity.Keys;
    while pending != {}
      invariant pending <= newEntity.Keys
      invariant updatedEntity.Keys == existingEntity.Keys + (newEntity.Keys - pending)
      invariant forall key :: key in newEntity && key !in pending ==> updatedEntity[key] == newEntity[key]
      invariant forall key :: key in existingEntity && key !in newEntity.Keys - pending ==>
        updatedEntity[key] == existingEntity[key]
      decreases pending
    {
      var key :| key in pending;
      if !StrictEquals(Some(newEntity[key]), Get(existingEntity, key)) {
        updatedEntity := updatedEntity[key := newEntity[key]];
      } else {
        StrictEqualsSame(Some(newEntity[key]), Get(existingEntity, key));
      }
      pending := pending - {key};
    }
  }

  /** The merge as one value: `{ ...existingEntity, ...newEntity }`. */
  function Merged(existingEntity: Entity, newEntity: Entity): (r: Entity)
    ensures r.Keys == existingEntity.Keys + newEntity.Keys
  {
    existingEntity + newEntity
  }

  /** The merge loop computes exactly the object spread of both entities. */
  method MergeIsSpread(existingEntity: Entity, newEntity: Entity) returns (updatedEntity: Entity)
    ensures updatedEntity == Merged(existingEntity, newEntity)
  {
    updatedEntity := MergeEntityData(existingEntity, newEntity);
    assert updatedEntity.Keys == Merged(existingEntity, newEntity).Keys;
  }

  /** Merging the same new entity into the result again changes nothing. */
  method MergeTwice(existingEntity: Entity, newEntity: Entity) returns (once: Entity, twice: Entity)
    ensures twice == once
  {
    once := MergeEntityData(existingEntity, newEntity);
    twice := MergeEntityData(once, newEntity);
    assert twice.Keys == once.Keys;
  }

  /** The merge with an empty new entity is a copy of the existing one. */
  method MergeNothing(existingEntity: Entity) returns (updatedEntity: Entity)
    ensures updatedEntity == existingEntity
  {
    updatedEntity := MergeEntityData(existingEntity, map[]);
    assert updatedEntity.Keys == existingEntity.Keys;
  }
}

=== FILE: file_structure.dfy ===
/**
 * `createAnalogTree` of public/js/file-structure.js: the text drawing of a
 * directory listing, one line per entry with box-drawing connectors.
 */
module FileStructure {
  import opened Text

  /** An entry of the listing `/file-structure` returns. */
  datatype Entry = Entry(name: string, isDirectory: bool, children: seq<Entry>)

  /** The connector before the last sibling, `└── `. */
  const LastBranch: string := "\U{2514}\U{2500}\U{2500} "
  /** The connector before every other sibling, `├── `. */
  const MidBranch: string := "\U{251C}\U{2500}\U{2500} "
  /** What a last sibling's children add to the prefix: four spaces. */
  const LastIndent: string := "    "
  /** What any other sibling's children add to the prefix, `│   `. */
  const MidIndent: string := "\U{2502}   "

  function Connector(isLast: bool): string {
    if isLast then LastBranch else MidBranch
  }

  function Indent(isLast: bool): string {
    if isLast then LastIndent else MidIndent
  }

  /** `createAnalogTree(data, prefix)` */
  function AnalogTree(data: seq<Entry>, prefix: string): string
    decreases data, 1
  {
    Items(data, prefix, 0)
  }

  /** What the `forEach` appends for the items from index `i` on. */
  function Items(data: seq<Entry>, prefix: string, i: nat): string
    decreases data, 0, |data| - i
  {
    if i >= |data| then ""
    else
      var isLast := i == |data| - 1;
      var item := data[i];
      prefix + Connector(isLast) + item.name + "\n"
        + (if item.isDirectory then AnalogTree(item.children, prefix + Indent(isLast)) else "")
        + Items(data, prefix, i + 1)
  }

  /** The lines of the drawing, each without its newline, in pre-order. */
  function Lines(data: seq<Entry>, prefix: string): seq<string>
    decreases data, 1
  {
    ItemLines(data, prefix, 0)
  }

  function ItemLines(data: seq<Entry>, prefix: string, i: nat): seq<string>
    decreases data, 0, |data| - i
  {
    if i >= |data| then []
    else
      var isLast := i == |data| - 1;
      var item := data[i];
      [prefix + Connector(isLast) + item.name]
        + (if item.isDirectory then Lines(item.children, prefix + Indent(isLast)) else [])
        + ItemLines(data, prefix, i + 1)
  }

  /** Each line followed by a newline. */
  function Unlines(lines: seq<string>): string {
    if lines == [] then "" else lines[0] + "\n" + Unlines(lines[1..])
  }

  lemma {:induction false} UnlinesAppend(a: seq<string>, b: seq<string>)
    ensures Unlines(a + b) == Unlines(a) + Unlines(b)
    decreases |a|
  {
    if a != [] {
      assert (a + b)[1..] == a[1..] + b;
      UnlinesAppend(a[1..], b);
    } else {
      assert a + b == b;
    }
  }

  /** The number of lines drawn: every entry, and the contents of directories only. */
  function Count(data: seq<Entry>): nat
    decreases data, 1
  {
    CountFrom(data, 0)
  }

  function CountFrom(data: seq<Entry>, i: nat): nat
    decreases data, 0, |data| - i
  {
    if i >= |data| then 0
    else 1 + (if data[i].isDirectory then Count(data[i].children) else 0) + CountFrom(data, i + 1)
  }

  /** The drawing is its lines, each ended by a newline. */
  lemma {:induction false} TreeIsLines(data: seq<Entry>, prefix: string)
    ensures AnalogTree(data, prefix) == Unlines(Lines(data, prefix))
    decreases data, 1
  {
    ItemsAreLines(data, prefix, 0);
  }

  lemma {:induction false} ItemsAreLines(data: seq<Entry>, prefix: string, i: nat)
    ensures Items(data, prefix, i) == Unlines(ItemLines(data, prefix, i))
    decreases data, 0, |data| - i
  {
    if i < |data| {
      var isLast := i == |data| - 1;
      var item := data[i];
      var head := prefix + Connector(isLast) + item.name;
      var sub := if item.isDirectory then Lines(item.children, prefix + Indent(isLast)) else [];
      var rest := ItemLines(data, prefix, i + 1);
      if item.isDirectory {
        TreeIsLines(item.children, prefix + Indent(isLast));
      }
      ItemsAreLines(data, prefix, i + 1);
      UnlinesAppend([head] + sub, rest);
      UnlinesAppend([head], sub);
      assert Unlines([head]) == head + "\n";
    }
  }

  /** One line per entry drawn: every entry, and the contents of directories. */
  lemma {:induction false} LineCount(data: seq<Entry>, prefix: string)
    ensures |Lines(data, prefix)| == Count(data)
    decreases data, 1
  {
    ItemLineCount(data, prefix, 0);
  }

  lemma {:induction false} ItemLineCount(data: seq<Entry>, prefix: string, i: nat)
    ensures |ItemLines(data, prefix, i)| == CountFrom(data, i)
    decreases data, 0, |data| - i
  {
    if i < |data| {
      if data[i].isDirectory {
        LineCount(data[i].children, prefix + (if i == |data| - 1 then LastIndent else MidIndent));
      }
      ItemLineCount(data, prefix, i + 1);
    }
  }

  /** Every line starts with the prefix the drawing was given. */
  lemma {:induction false} LinesStartWithPrefix(data: seq<Entry>, prefix: string)
    ensures forall k :: 0 <= k < |Lines(data, prefix)| ==> StartsWith(Lines(data, prefix)[k], prefix)
    decreases data, 1
  {
    ItemLinesStartWithPrefix(data, prefix, 0);
  }

  lemma {:induction false} ItemLinesStartWithPrefix(data: seq<Entry>, prefix: string, i: nat)
    ensures forall k :: 0 <= k < |ItemLines(data, prefix, i)| ==> StartsWith(ItemLines(data, prefix, i)[k], prefix)
    decreases data, 0, |data| - i
  {
    if i < |data| {
      var isLast := i == |data| - 1;
      var item := data[i];
      var head := prefix + Connector(isLast) + item.name;
      var inner := prefix + Indent(isLast);
      var sub := if item.isDirectory then Lines(item.children, inner) else [];
      assert head[..|prefix|] == prefix;
      if item.isDirectory {
        LinesStartWithPrefix(item.children, inner);
        assert inner[..|prefix|] == prefix;
        forall k | 0 <= k < |sub|
          ensures StartsWith(sub[k], prefix)
        {
          Narrower(sub[k], inner, prefix);
        }
      }
      ItemLinesStartWithPrefix(data, prefix, i + 1);
      AllStartWith([head], sub, prefix);
      AllStartWith([head] + sub, ItemLines(data, prefix, i + 1), prefix);
    }
  }

  /** A string that starts with `inner` starts with every prefix of `inner`. */
  lemma Narrower(s: string, inner: string, prefix: string)
    requires StartsWith(s, inner) && StartsWith(inner, prefix)
    ensures StartsWith(s, prefix)
  {
    assert s[..|prefix|] == s[..|inner|][..|prefix|];
  }

  /** Two line lists whose lines all start with `prefix`, concatenated. */
  lemma AllStartWith(a: seq<string>, b: seq<string>, prefix: string)
    requires forall k :: 0 <= k < |a| ==> StartsWith(a[k], prefix)
    requires forall k :: 0 <= k < |b| ==> StartsWith(b[k], prefix)
    ensures forall k :: 0 <= k < |a + b| ==> StartsWith((a + b)[k], prefix)
  {
    forall k | 0 <= k < |a + b|
      ensures StartsWith((a + b)[k], prefix)
    {
      if k < |a| {
        assert (a + b)[k] == a[k];
      } else {
        assert (a + b)[k] == b[k - |a|];
      }
    }
  }

  /** An empty listing draws nothing. */
  lemma EmptyTree(prefix: string)
    ensures AnalogTree([], prefix) == ""
  {
  }

  /** A single file at the top level is one line with the last-sibling connector. */
  lemma SingleFile(name: string)
    ensures AnalogTree([Entry(name, false, [])], "") == LastBranch + name + "\n"
  {
    var data := [Entry(name, false, [])];
    assert Items(data, "", 1) == "";
    assert Items(data, "", 0) == "" + LastBranch + name + "\n" + "" + "";
  }
}

=== FILE: id_processor.dfy ===
/**
 * `processIds` of services/idProcessor.js: rewrites script lines of the
 * form `t.N.change(id := 'N', name := '…') // Type` so that the numeric id
 * becomes a name built from the element's name, its type and a prefix, and
 * reports one row per input line with a summary.
 */
module IdProcessor {
  import opened Wrappers
  import opened Text

  /** `typeMappings`: element type to name suffix. */
  const TypeMappings: map<string, string> := map[
    "Page" := "Page",
    "ExtendedTable" := "Table",
    "TextElement" := "Text",
    "ActionButton" := "Button",
    "URLView" := "View",
    "InputView" := "View",
    "ExtendedExpression" := "Expression",
    "Scorecard" := "Scorecard",
    "StandardChart" := "StandardChart",
    "APIClientAuthentication" := "APIClientAuthentication",
    "EndpointParameter" := "EndpointParameter",
    "NotificationTransportGroup" := "NotificationTransportGroup",
    "InputSet" := "InputSet",
    "ExtendedTransport" := "ExtendedTransport",
    "RemoteResource" := "RemoteResource",
    "LogFolder" := "LogFolder",
    "Category" := "Category"
  ]

  datatype Row = Row(id: nat, exp: string)
  datatype Summary = Summary(totalLines: nat, changesMade: nat, unchangedLines: int)
  datatype Processed = Processed(rows: seq<Row>, summary: Summary)

  /** The three capture groups of the change pattern: `t.<id>`, `id := '<quotedId>'`, `name := '<name>'`. */
  datatype ChangeMatch = ChangeMatch(id: string, quotedId: string, name: string)

  const ChangeOpen: string := ".change(id := '"
  const NameOpen: string := "', name := '"

  /** `line.split("//")[1].trim()` on a line without `//`. */
  const NoTypeComment: string := "TypeError: Cannot read properties of undefined (reading 'trim')"

  /** The end of the run of digits starting at `i`. */
  function DigitEnd(s: string, i: nat): (j: nat)
    requires i <= |s|
    ensures i <= j <= |s|
    ensures forall k :: i <= k < j ==> IsDigit(s[k])
    ensures j == |s| || !IsDigit(s[j])
    decreases |s| - i
  {
    if i < |s| && IsDigit(s[i]) then DigitEnd(s, i + 1) else i
  }

  /**
   * The pattern `t\.(\d+)\.change\(id := '(\d+)', name := '([^']+)'` tried at
   * position `i`. Each group is followed by a character it cannot contain,
   * so the greedy runs never need to give anything back.
   */
  function ChangeAt(s: string, i: nat): Option<ChangeMatch>
    requires i <= |s|
  {
    if !OccursAt(s, "t.", i) then None else ChangeAfterPrefix(s, i + 2)
  }

  /** The rest of a match whose `t.` ends at `a`: the id digits, then `.change(id := '`. */
  function ChangeAfterPrefix(s: string, a: nat): Option<ChangeMatch>
    requires a <= |s|
  {
    var b := DigitEnd(s, a);
    if b == a || !OccursAt(s, ChangeOpen, b) then None
    else ChangeAfterOpen(s, a, b, b + |ChangeOpen|)
  }

  /** The rest of a match whose id is `s[a..b]` and whose `.change(id := '` ends at `c`. */
  function ChangeAfterOpen(s: string, a: nat, b: nat, c: nat): Option<ChangeMatch>
    requires a <= b <= c <= |s|
  {
    var d := DigitEnd(s, c);
    if d == c || !OccursAt(s, NameOpen, d) then None
    else ChangeAfterName(s[a..b], s[c..d], s, d + |NameOpen|)
  }

  /** The rest of a match whose `', name := '` ends at `e`: the name up to its closing quote. */
  function ChangeAfterName(id: string, quotedId: string, s: string, e: nat): Option<ChangeMatch>
    requires e <= |s|
  {
    var f := CharEnd(s, e, '\'');
    if f == e || f == |s| then None else Some(ChangeMatch(id, quotedId, s[e..f]))
  }

  /** `line.match(pattern)`: the leftmost match at or after `i`. */
  function FindChange(s: string, i: nat): Option<ChangeMatch>
    requires i <= |s|
    decreases |s| - i
  {
    if i == |s| then None
    else if ChangeAt(s, i).Some? then ChangeAt(s, i)
    else FindChange(s, i + 1)
  }

  predicate AllDigits(s: string) {
    forall k :: 0 <= k < |s| ==> IsDigit(s[k])
  }

  /** The text a match covers, from its captures. */
  function MatchedText(m: ChangeMatch): string {
    "t." + m.id + ChangeOpen + m.quotedId + NameOpen + m.name + "'"
  }

  /**
   * A match is sound: both ids are non-empty digit strings, the name is
   * non-empty and quote-free, and the whole pattern text occurs in the line.
   */
  lemma {:induction false} FindChangeSound(s: string, i: nat)
    requires i <= |s|
    requires FindChange(s, i).Some?
    ensures var m := FindChange(s, i).value;
      && m.id != "" && AllDigits(m.id) && m.quotedId != "" && AllDigits(m.quotedId)
      && m.name != "" && '\'' !in m.name
      && Contains(s, MatchedText(m))
    decreases |s| - i
  {
    if ChangeAt(s, i).Some? {
      ChangeAtSound(s, i);
    } else {
      FindChangeSound(s, i + 1);
    }
  }

  lemma ChangeAtSound(s: string, i: nat)
    requires i <= |s|
    requires ChangeAt(s, i).Some?
    ensures var m := ChangeAt(s, i).value;
      && m.id != "" && AllDigits(m.id) && m.quotedId != "" && AllDigits(m.quotedId)
      && m.name != "" && '\'' !in m.name
      && OccursAt(s, MatchedText(m), i)
  {
    ChangeAtCaptures(s, i);
    ChangeAtOccurs(s, i);
  }

  lemma ChangeAtCaptures(s: string, i: nat)
    requires i <= |s|
    requires ChangeAt(s, i).Some?
    ensures var m := ChangeAt(s, i).value;
      && m.id != "" && AllDigits(m.id) && m.quotedId != "" && AllDigits(m.quotedId)
      && m.name != "" && '\'' !in m.name
  {
  }

  lemma ChangeAtOccurs(s: string, i: nat)
    requires i <= |s|
    requires ChangeAt(s, i).Some?
    ensures OccursAt(s, MatchedText(ChangeAt(s, i).value), i)
  {
    var b, c, d, e, f := ChangeAtParts(s, i);
    var m := ChangeAt(s, i).value;
    Slice(s, i + 2, b);
    Slice(s, c, d);
    Slice(s, e, f);
    QuoteOccurs(s, f);
    PatternOccurs(s, i, m, b, c, d, e, f);
  }

  /** Where the pieces of a match at `i` start and end. */
  lemma ChangeAtParts(s: string, i: nat) returns (b: nat, c: nat, d: nat, e: nat, f: nat)
    requires i <= |s|
    requires ChangeAt(s, i).Some?
    ensures i + 2 <= b && c == b + |ChangeOpen| && c <= d && e == d + |NameOpen| && e <= f < |s|
    ensures OccursAt(s, "t.", i) && OccursAt(s, ChangeOpen, b) && OccursAt(s, NameOpen, d) && s[f] == '\''
    ensures ChangeAt(s, i).value == ChangeMatch(s[i + 2..b], s[c..d], s[e..f])
  {
    b, c := ChangeAtIdEnd(s, i);
    d, e, f := ChangeAtNameEnd(s, i, b, c);
  }

  /** The `t.<id>` piece of a match at `i` and the `.change(id := '` after it. */
  lemma ChangeAtIdEnd(s: string, i: nat) returns (b: nat, c: nat)
    requires i <= |s|
    requires ChangeAt(s, i).Some?
    ensures OccursAt(s, "t.", i) && b == DigitEnd(s, i + 2) && i + 2 < b
    ensures OccursAt(s, ChangeOpen, b) && c == b + |ChangeOpen| && c <= |s|
  {
    b := DigitEnd(s, i + 2);
    c := b + |ChangeOpen|;
  }

  /** The quoted id of a match at `i` whose `.change(id := '` ends at `c`, and the `', name := '` after it. */
  lemma ChangeAtNameEnd(s: string, i: nat, b: nat, c: nat) returns (d: nat, e: nat, f: nat)
    requires i <= |s|
    requires ChangeAt(s, i).Some?
    requires OccursAt(s, "t.", i) && b == DigitEnd(s, i + 2) && i + 2 < b
    requires OccursAt(s, ChangeOpen, b) && c == b + |ChangeOpen| && c <= |s|
    ensures c <= d && e == d + |NameOpen| && e <= f < |s|
    ensures OccursAt(s, NameOpen, d) && s[f] == '\''
    ensures ChangeAt(s, i).value == ChangeMatch(s[i + 2..b], s[c..d], s[e..f])
  {
    d := DigitEnd(s, c);
    assert c < d && OccursAt(s, NameOpen, d);
    e := d + |NameOpen|;
    f := ChangeAtQuote(s, i, b, c, d, e);
  }

  /** The name of a match at `i` whose `', name := '` ends at `e`, up to its closing quote. */
  lemma ChangeAtQuote(s: string, i: nat, b: nat, c: nat, d: nat, e: nat) returns (f: nat)
    requires i <= |s|
    requires ChangeAt(s, i).Some?
    requires OccursAt(s, "t.", i) && b == DigitEnd(s, i + 2) && i + 2 < b
    requires OccursAt(s, ChangeOpen, b) && c == b + |ChangeOpen| && c <= |s|
    requires d == DigitEnd(s, c) && c < d && OccursAt(s, NameOpen, d) && e == d + |NameOpen|
    ensures e <= f < |s| && s[f] == '\''
    ensures ChangeAt(s, i).value == ChangeMatch(s[i + 2..b], s[c..d], s[e..f])
  {
    f := CharEnd(s, e, '\'');
    ChangeAtUnfold(s, i, b, c, d, e, f);
  }

  /** `ChangeAt` once the pieces before the name have been found. */
  lemma ChangeAtUnfold(s: string, i: nat, b: nat, c: nat, d: nat, e: nat, f: nat)
    requires i <= |s|
    requires OccursAt(s, "t.", i) && b == DigitEnd(s, i + 2) && i + 2 < b
    requires OccursAt(s, ChangeOpen, b) && c == b + |ChangeOpen| && c <= |s|
    requires d == DigitEnd(s, c) && c < d && OccursAt(s, NameOpen, d) && e == d + |NameOpen|
    requires e <= |s| && f == CharEnd(s, e, '\'')
    ensures ChangeAt(s, i) == if f == e || f == |s| then None else Some(ChangeMatch(s[i + 2..b], s[c..d], s[e..f]))
  {
    ChangeAtPrefixStep(s, i);
    ChangeAfterPrefixStep(s, i + 2, b, c);
    ChangeAfterOpenStep(s, i + 2, b, c, d, e);
  }

  // The three steps below each unfold one stage of `ChangeAt`. Their `OccursAt`
  // facts are compared with `true` so that the verifier keeps each as a single
  // fact instead of expanding it into a comparison with the literal text.

  /** A match at `i` that starts with `t.` continues at `i + 2`. */
  lemma ChangeAtPrefixStep(s: string, i: nat)
    requires i <= |s| && OccursAt(s, "t.", i) == true
    ensures ChangeAt(s, i) == ChangeAfterPrefix(s, i + 2)
  {
  }

  /** After a non-empty id ending at `b` and `.change(id := '`, the match continues at `c`. */
  lemma ChangeAfterPrefixStep(s: string, a: nat, b: nat, c: nat)
    requires a <= |s|
    requires b == DigitEnd(s, a) && a < b
    requires OccursAt(s, ChangeOpen, b) == true && c == b + |ChangeOpen|
    ensures ChangeAfterPrefix(s, a) == ChangeAfterOpen(s, a, b, c)
  {
  }

  /** After a non-empty quoted id ending at `d` and `', name := '`, the match continues at `e`. */
  lemma ChangeAfterOpenStep(s: string, a: nat, b: nat, c: nat, d: nat, e: nat)
    requires a <= b <= c <= |s|
    requires d == DigitEnd(s, c) && c < d && OccursAt(s, NameOpen, d) == true && e == d + |NameOpen|
    ensures ChangeAfterOpen(s, a, b, c) == ChangeAfterName(s[a..b], s[c..d], s, e)
  {
  }

  /** The pieces of the pattern, found one after another, make up its whole text. */
  lemma PatternOccurs(s: string, i: nat, m: ChangeMatch, b: nat, c: nat, d: nat, e: nat, f: nat)
    requires b == i + 2 + |m.id| && c == b + |ChangeOpen| && d == c + |m.quotedId|
    requires e == d + |NameOpen| && f == e + |m.name|
    requires OccursAt(s, "t.", i) && OccursAt(s, m.id, i + 2) && OccursAt(s, ChangeOpen, b)
    requires OccursAt(s, m.quotedId, c) && OccursAt(s, NameOpen, d) && OccursAt(s, m.name, e)
    requires OccursAt(s, "'", f)
    ensures OccursAt(s, MatchedText(m), i)
  {
    var p1 := "t." + m.id;
    OccursConcat(s, "t.", m.id, i);
    var p2 := p1 + ChangeOpen;
    OccursConcat(s, p1, ChangeOpen, i);
    var p3 := p2 + m.quotedId;
    OccursConcat(s, p2, m.quotedId, i);
    var p4 := p3 + NameOpen;
    OccursConcat(s, p3, NameOpen, i);
    var p5 := p4 + m.name;
    OccursConcat(s, p4, m.name, i);
    OccursConcat(s, p5, "'", i);
  }

  lemma QuoteOccurs(s: string, f: nat)
    requires f < |s| && s[f] == '\''
    ensures OccursAt(s, "'", f)
  {
    assert s[f..f + 1] == [s[f]];
  }

  lemma Slice(s: string, a: nat, b: nat)
    requires a <= b <= |s|
    ensures OccursAt(s, s[a..b], a)
  {
  }

  /**
   * Completeness of the search: wherever the text of a well-formed match
   * occurs, the pattern matches at that position with exactly those groups,
   * and `line.match` finds a match; it finds this one when no match starts
   * earlier.
   */
  lemma FindChangeComplete(s: string, m: ChangeMatch, p: nat)
    requires m.id != "" && AllDigits(m.id) && m.quotedId != "" && AllDigits(m.quotedId)
    requires m.name != "" && '\'' !in m.name
    requires OccursAt(s, MatchedText(m), p)
    ensures ChangeAt(s, p) == Some(m)
    ensures FindChange(s, 0).Some?
    ensures (forall k :: 0 <= k < p ==> ChangeAt(s, k).None?) ==> FindChange(s, 0) == Some(m)
  {
    ChangeAtComplete(s, m, p);
    FindChangeReaches(s, 0, p);
  }

  /** The pattern matches the text of a well-formed match, with its own groups. */
  lemma ChangeAtComplete(s: string, m: ChangeMatch, p: nat)
    requires m.id != "" && AllDigits(m.id) && m.quotedId != "" && AllDigits(m.quotedId)
    requires m.name != "" && '\'' !in m.name
    requires OccursAt(s, MatchedText(m), p) == true
    ensures ChangeAt(s, p) == Some(m)
  {
    MatchedTextParts(s, m, p);
    ChangeAtFromParts(s, m, p);
  }

  /** The pattern matches at `p` when the pieces of a well-formed match's text sit one after another there. */
  lemma ChangeAtFromParts(s: string, m: ChangeMatch, p: nat)
    requires m.id != "" && AllDigits(m.id) && m.quotedId != "" && AllDigits(m.quotedId)
    requires m.name != "" && '\'' !in m.name
    requires var b := p + 2 + |m.id|;
      var c := b + |ChangeOpen|;
      var d := c + |m.quotedId|;
      var e := d + |NameOpen|;
      var f := e + |m.name|;
      && OccursAt(s, "t.", p) == true && OccursAt(s, m.id, p + 2) == true && s[p + 2..b] == m.id
      && OccursAt(s, ChangeOpen, b) == true
      && OccursAt(s, m.quotedId, c) == true && s[c..d] == m.quotedId
      && OccursAt(s, NameOpen, d) == true
      && OccursAt(s, m.name, e) == true && s[e..f] == m.name
      && OccursAt(s, "'", f) == true && f < |s|
    ensures ChangeAt(s, p) == Some(m)
  {
    var b := p + 2 + |m.id|;
    var c := b + |ChangeOpen|;
    ChangeAfterOpenComplete(s, m, p + 2, b, c);
    DigitRunEnd(s, p + 2, m.id, ChangeOpen);
    ChangeAtPrefixStep(s, p);
    ChangeAfterPrefixStep(s, p + 2, b, c);
  }

  /** The part of the pattern after `.change(id := '` matches the rest of a well-formed match's text. */
  lemma ChangeAfterOpenComplete(s: string, m: ChangeMatch, a: nat, b: nat, c: nat)
    requires m.quotedId != "" && AllDigits(m.quotedId) && m.name != "" && '\'' !in m.name
    requires a <= b <= c <= |s| && s[a..b] == m.id
    requires var d := c + |m.quotedId|;
      var e := d + |NameOpen|;
      && OccursAt(s, m.quotedId, c) == true && s[c..d] == m.quotedId
      && OccursAt(s, NameOpen, d) == true
      && OccursAt(s, m.name, e) == true && s[e..e + |m.name|] == m.name
      && OccursAt(s, "'", e + |m.name|) == true && e + |m.name| < |s|
    ensures ChangeAfterOpen(s, a, b, c) == Some(m)
  {
    var d := c + |m.quotedId|;
    var e := d + |NameOpen|;
    QuoteFreeRunEnd(s, e, m.name);
    ChangeAfterNameStep(s[a..b], s[c..d], s, e, e + |m.name|);
    DigitRunEnd(s, c, m.quotedId, NameOpen);
    ChangeAfterOpenStep(s, a, b, c, d, e);
  }

  /** A non-empty name closed by a quote at `f` ends the match. */
  lemma ChangeAfterNameStep(id: string, quotedId: string, s: string, e: nat, f: nat)
    requires e < f < |s| && CharEnd(s, e, '\'') == f
    ensures ChangeAfterName(id, quotedId, s, e) == Some(ChangeMatch(id, quotedId, s[e..f]))
  {
  }

  /** Where each piece of a match's text sits when the whole text occurs at `p`. */
  lemma MatchedTextParts(s: string, m: ChangeMatch, p: nat)
    requires OccursAt(s, MatchedText(m), p) == true
    ensures var b := p + 2 + |m.id|;
      var c := b + |ChangeOpen|;
      var d := c + |m.quotedId|;
      var e := d + |NameOpen|;
      var f := e + |m.name|;
      && OccursAt(s, "t.", p) == true && OccursAt(s, m.id, p + 2) == true && s[p + 2..b] == m.id
      && OccursAt(s, ChangeOpen, b) == true
      && OccursAt(s, m.quotedId, c) == true && s[c..d] == m.quotedId
      && OccursAt(s, NameOpen, d) == true
      && OccursAt(s, m.name, e) == true && s[e..f] == m.name
      && OccursAt(s, "'", f) == true && f < |s|
  {
    var p1 := "t." + m.id;
    var p2 := p1 + ChangeOpen;
    var p3 := p2 + m.quotedId;
    var p4 := p3 + NameOpen;
    var p5 := p4 + m.name;
    OccursSplit(s, p5, "'", p);
    OccursSplit(s, p4, m.name, p);
    OccursSplit(s, p3, NameOpen, p);
    MatchedHeadParts(s, m, p);
  }

  /** The `t.<id>.change(id := '<quotedId>` part of a match's text, split into its pieces. */
  lemma MatchedHeadParts(s: string, m: ChangeMatch, p: nat)
    requires OccursAt(s, "t." + m.id + ChangeOpen + m.quotedId, p) == true
    ensures var b := p + 2 + |m.id|;
      var c := b + |ChangeOpen|;
      && OccursAt(s, "t.", p) == true && OccursAt(s, m.id, p + 2) == true && s[p + 2..b] == m.id
      && OccursAt(s, ChangeOpen, b) == true
      && OccursAt(s, m.quotedId, c) == true && s[c..c + |m.quotedId|] == m.quotedId
  {
    var p1 := "t." + m.id;
    var p2 := p1 + ChangeOpen;
    OccursSplit(s, p2, m.quotedId, p);
    OccursSplit(s, p1, ChangeOpen, p);
    OccursSplit(s, "t.", m.id, p);
  }

  /** A run of digits followed by text that starts with a non-digit is where `\d+` stops. */
  lemma DigitRunEnd(s: string, a: nat, w: string, next: string)
    requires w != "" && AllDigits(w) && OccursAt(s, w, a) == true
    requires next != [] && !IsDigit(next[0]) && OccursAt(s, next, a + |w|) == true
    ensures DigitEnd(s, a) == a + |w|
  {
    var b := a + |w|;
    assert s[b] == s[b..b + |next|][0] == next[0];
    forall k | a <= k < b
      ensures IsDigit(s[k])
    {
      assert s[k] == s[a..b][k - a] == w[k - a];
    }
  }

  /** A quote-free run followed by a quote is where `[^']+` stops. */
  lemma QuoteFreeRunEnd(s: string, e: nat, w: string)
    requires '\'' !in w && OccursAt(s, w, e) == true && OccursAt(s, "'", e + |w|) == true
    ensures CharEnd(s, e, '\'') == e + |w|
  {
    var f := e + |w|;
    assert s[f] == s[f..f + 1][0] == '\'';
    forall k | e <= k < f
      ensures s[k] != '\''
    {
      assert s[k] == s[e..f][k - e] == w[k - e];
    }
  }

  /** An occurrence of a concatenation is an occurrence of each part, one after the other. */
  lemma OccursSplit(s: string, x: string, y: string, i: nat)
    requires OccursAt(s, x + y, i) == true
    ensures OccursAt(s, x, i) == true && OccursAt(s, y, i + |x|) == true && s[i + |x|..i + |x| + |y|] == y
  {
    assert s[i..i + |x|] == s[i..i + |x| + |y|][..|x|];
    assert s[i + |x|..i + |x| + |y|] == s[i..i + |x| + |y|][|x|..];
  }

  /** The search from `i` reaches a match at `p`, and returns it when nothing matches in between. */
  lemma {:induction false} FindChangeReaches(s: string, i: nat, p: nat)
    requires i <= p < |s|
    requires ChangeAt(s, p).Some?
    ensures FindChange(s, i).Some?
    ensures (forall k :: i <= k < p ==> ChangeAt(s, k).None?) ==> FindChange(s, i) == ChangeAt(s, p)
    decreases p - i
  {
    FindChangeStep(s, i);
    if ChangeAt(s, i).None? {
      FindChangeReaches(s, i + 1, p);
    }
  }

  /** One step of the search: a match here, or the search from the next position. */
  lemma FindChangeStep(s: string, i: nat)
    requires i < |s|
    ensures FindChange(s, i) == if ChangeAt(s, i).Some? then ChangeAt(s, i) else FindChange(s, i + 1)
  {
  }

  /** Two adjacent occurrences make an occurrence of the concatenation. */
  lemma OccursConcat(s: string, x: string, y: string, i: nat)
    requires OccursAt(s, x, i) && OccursAt(s, y, i + |x|)
    ensures OccursAt(s, x + y, i)
  {
    assert s[i..i + |x| + |y|] == s[i..i + |x|] + s[i + |x|..i + |x| + |y|];
  }

  /** `name.replace(/\s+/g, "")` */
  function RemoveSpaces(s: string): (r: string)
    ensures forall c :: c in r ==> c in s && !IsSpace(c)
    ensures (forall c :: c in s ==> !IsSpace(c)) ==> r == s
    ensures |r| <= |s|
  {
    if s == [] then []
    else if IsSpace(s[0]) then RemoveSpaces(s[1..])
    else
      var rest := RemoveSpaces(s[1..]);
      assert forall c :: c in s[1..] ==> c in s;
      [s[0]] + rest
  }

  /** Removing white space distributes over concatenation. */
  lemma {:induction false} RemoveSpacesAppend(a: string, b: string)
    ensures RemoveSpaces(a + b) == RemoveSpaces(a) + RemoveSpaces(b)
    decreases |a|
  {
    if a == [] {
      assert a + b == b;
    } else {
      assert (a + b)[0] == a[0] && (a + b)[1..] == a[1..] + b;
      RemoveSpacesAppend(a[1..], b);
    }
  }

  /** One character: a white-space character is dropped, any other is kept. */
  lemma RemoveSpacesChar(c: char)
    ensures RemoveSpaces([c]) == if IsSpace(c) then [] else [c]
  {
    assert [c][1..] == [];
  }

  /** The text between the first `//` and the next one, or the end of the line. */
  function SecondPart(line: string): Option<string> {
    match IndexOf(line, "//")
    case None => None
    case Some(k) =>
      var rest := line[k + 2..];
      match IndexOf(rest, "//")
      case None => Some(rest)
      case Some(j) => Some(rest[..j])
  }

  /** `type` of a matching line: `line.split("//")[1].trim()`, absent without a `//`. */
  function TypeComment(line: string): (r: Option<string>)
    ensures r.Some? <==> Contains(line, "//")
  {
    match SecondPart(line)
    case None => None
    case Some(part) => Some(Trim(part))
  }

  /** `SecondPart` is the element at index 1 of the split on `//`. */
  lemma SecondPartIsSplitOne(line: string)
    ensures SecondPart(line).Some? <==> |Split(line, "//")| >= 2
    ensures SecondPart(line).Some? ==> SecondPart(line).value == Split(line, "//")[1]
  {
    match IndexOf(line, "//")
    case None =>
    case Some(k) =>
      var rest := line[k + 2..];
      assert Split(line, "//") == [line[..k]] + Split(rest, "//");
      match IndexOf(rest, "//")
      case None =>
        assert Split(rest, "//") == [rest];
      case Some(j) =>
        assert Split(rest, "//")[0] == rest[..j];
  }

  /** `${name.replace(/\s+/g, "")}${typeMappings[type] || ""}${typeMappingsPrefix}` */
  function NewName(name: string, kind: string, prefix: string): string {
    RemoveSpaces(name) + (if kind in TypeMappings then TypeMappings[kind] else "") + prefix
  }

  /**
   * The `exp` of a line's row: unchanged without a match; otherwise the
   * first `t.<id>` and then the first `id := '<id>'` are replaced using the
   * new name; a match without a `//` comment throws.
   */
  function RewriteLine(line: string, prefix: string): Result<string> {
    match FindChange(line, 0)
    case None => Ok(line)
    case Some(m) =>
      match TypeComment(line)
      case None => Err(NoTypeComment)
      case Some(kind) =>
        var newName := NewName(m.name, kind, prefix);
        Ok(ReplaceFirst(
             ReplaceFirst(line, "t." + m.id, "t." + newName),
             "id := '" + m.id + "'", "id := '" + newName + "'"))
  }

  /** The number of lines that match the change pattern. */
  function MatchCount(lines: seq<string>): (n: nat)
    ensures n <= |lines|
  {
    if lines == [] then 0
    else MatchCount(lines[..|lines| - 1]) + (if FindChange(lines[|lines| - 1], 0).Some? then 1 else 0)
  }

  /** Every line can be rewritten: no matching line lacks its `//` comment. */
  predicate AllRewritable(lines: seq<string>, prefix: string) {
    forall i :: 0 <= i < |lines| ==> RewriteLine(lines[i], prefix).Ok?
  }

  /**
   * The rows and summary `processIds` builds for `lines`: one row per line,
   * numbered from 1, holding the rewritten line, and the counts of all lines
   * and of matching ones.
   */
  predicate Describes(p: Processed, lines: seq<string>, prefix: string)
    requires AllRewritable(lines, prefix)
  {
    && |p.rows| == |lines|
    && (forall i :: 0 <= i < |lines| ==> p.rows[i] == Row(i + 1, RewriteLine(lines[i], prefix).value))
    && p.summary == Summary(|lines|, MatchCount(lines), |lines| - MatchCount(lines))
  }

  lemma MatchCountStep(lines: seq<string>, i: nat)
    requires i < |lines|
    ensures MatchCount(lines[..i + 1]) == MatchCount(lines[..i]) + (if FindChange(lines[i], 0).Some? then 1 else 0)
  {
    assert lines[..i + 1][..i] == lines[..i];
  }

  /**
   * `processIds(input, typeMappingsPrefix)` on the lines of `input.split("\n")`:
   * it throws at the first matching line without a `//` comment, and
   * otherwise returns what `Describes` says.
   */
  method ProcessIds(input: string, typeMappingsPrefix: string) returns (r: Result<Processed>)
    ensures r.Ok? <==> AllRewritable(Split(input, "\n"), typeMappingsPrefix)
    ensures r.Ok? ==> Describes(r.value, Split(input, "\n"), typeMappingsPrefix)
    ensures r.Err? ==> r.error == NoTypeComment
  {
    var lines := Split(input, "\n");
    r := ProcessLines(lines, typeMappingsPrefix);
  }

  /** The loop of `processIds` over the lines of its input. */
  method ProcessLines(lines: seq<string>, typeMappingsPrefix: string) returns (r: Result<Processed>)
    ensures r.Ok? <==> AllRewritable(lines, typeMappingsPrefix)
    ensures r.Ok? ==> Describes(r.value, lines, typeMappingsPrefix)
    ensures r.Err? ==> r.error == NoTypeComment
  {
    var rows: seq<Row> := [];
    var rowIndex := 1;
    var changesMade := 0;
    var i := 0;
    while i < |lines|
      invariant i <= |lines| && rowIndex == i + 1
      invariant |rows| == i
      invariant forall j :: 0 <= j < i ==> RewriteLine(lines[j], typeMappingsPrefix).Ok?
      invariant forall j :: 0 <= j < i ==> rows[j] == Row(j + 1, RewriteLine(lines[j], typeMappingsPrefix).value)
      invariant changesMade == MatchCount(lines[..i])
    {
      var line := lines[i];
      MatchCountStep(lines, i);
      var exp := RewriteLine(line, typeMappingsPrefix);
      if exp.Err? {
        assert !RewriteLine(lines[i], typeMappingsPrefix).Ok?;
        return Err(exp.error);
      }
      RowsExtended(rows, lines, typeMappingsPrefix, i);
      rows := rows + [Row(rowIndex, exp.value)];
      if FindChange(line, 0).Some? {
        changesMade := changesMade + 1;
      }
      rowIndex := rowIndex + 1;
      i := i + 1;
    }
    assert lines[..i] == lines;
    var processed := Processed(rows, Summary(|lines|, changesMade, |lines| - changesMade));
    assert Describes(processed, lines, typeMappingsPrefix);
    r := Ok(processed);
  }

  /** One more row for the rewritten line `i`, after the rows of the lines before it. */
  lemma RowsExtended(rows: seq<Row>, lines: seq<string>, prefix: string, i: nat)
    requires i < |lines| && |rows| == i
    requires forall j :: 0 <= j < i ==> RewriteLine(lines[j], prefix).Ok?
    requires forall j :: 0 <= j < i ==> rows[j] == Row(j + 1, RewriteLine(lines[j], prefix).value)
    requires RewriteLine(lines[i], prefix).Ok?
    ensures forall j :: 0 <= j < i + 1 ==> RewriteLine(lines[j], prefix).Ok?
    ensures var more := rows + [Row(i + 1, RewriteLine(lines[i], prefix).value)];
      forall j :: 0 <= j < i + 1 ==> more[j] == Row(j + 1, RewriteLine(lines[j], prefix).value)
  {
  }

  /** Lines that do not match the pattern are copied unchanged. */
  lemma UnmatchedLineKept(line: string, prefix: string)
    requires FindChange(line, 0).None?
    ensures RewriteLine(line, prefix) == Ok(line)
  {
  }

  /** A matching line fails exactly when it has no `//` comment. */
  lemma MatchedLineNeedsComment(line: string, prefix: string)
    requires FindChange(line, 0).Some?
    ensures RewriteLine(line, prefix).Err? <==> !Contains(line, "//")
  {
  }

  /** The new name has no whitespace from the element's name and ends with the prefix. */
  lemma NewNameShape(name: string, kind: string, prefix: string)
    ensures EndsWith(NewName(name, kind, prefix), prefix)
    ensures kind !in TypeMappings ==> NewName(name, kind, prefix) == RemoveSpaces(name) + prefix
    ensures var n := NewName(name, kind, prefix);
      forall k :: 0 <= k < |RemoveSpaces(name)| ==> !IsSpace(n[k])
  {
    var n := NewName(name, kind, prefix);
    assert n[|n| - |prefix|..] == prefix;
    forall k | 0 <= k < |RemoveSpaces(name)|
      ensures !IsSpace(n[k])
    {
      assert n[k] == RemoveSpaces(name)[k];
      assert RemoveSpaces(name)[k] in RemoveSpaces(name);
    }
  }

  /** A part of an occurrence is an occurrence. */
  lemma OccursPart(s: string, x: string, y: string, z: string, i: nat)
    requires OccursAt(s, x + y + z, i)
    ensures OccursAt(s, y, i + |x|)
  {
    var w := x + y + z;
    assert s[i..i + |w|] == w;
    forall k | 0 <= k < |y|
      ensures s[i + |x| + k] == y[k]
    {
      assert s[i..i + |w|][|x| + k] == w[|x| + k];
    }
  }

  /** An occurrence after the replaced one survives a first-occurrence replacement, shifted. */
  lemma ReplaceKeepsLater(s: string, pat: string, rep: string, x: string, q: nat)
    requires IndexOf(s, pat).Some? && IndexOf(s, pat).value + |pat| <= q
    requires OccursAt(s, x, q)
    ensures OccursAt(ReplaceFirst(s, pat, rep), x, q - |pat| + |rep|)
  {
    var k := IndexOf(s, pat).value;
    var r := ReplaceFirst(s, pat, rep);
    var q' := q - |pat| + |rep|;
    assert r[q'..q' + |x|] == s[q..q + |x|];
  }

  /** A first-occurrence replacement that happens leaves its replacement text in the line. */
  lemma ReplaceLeavesRep(s: string, pat: string, rep: string)
    requires Contains(s, pat)
    ensures Contains(ReplaceFirst(s, pat, rep), rep)
  {
    var k := IndexOf(s, pat).value;
    var r := ReplaceFirst(s, pat, rep);
    assert OccursAt(r, rep, k) by {
      assert r[k..k + |rep|] == rep;
    }
  }

  /**
   * The rewrite key is the number after `t.`: when the quoted id equals it,
   * the line's `id := '<id>'` is rewritten too and the result holds
   * `id := '<newName>'`. The first replacement of `t.<id>` happens at or
   * before the match, so it cannot destroy the quoted id that follows.
   */
  lemma QuotedIdRewritten(line: string, prefix: string)
    requires FindChange(line, 0).Some? && TypeComment(line).Some?
    requires FindChange(line, 0).value.quotedId == FindChange(line, 0).value.id
    ensures var m := FindChange(line, 0).value;
      var newName := NewName(m.name, TypeComment(line).value, prefix);
      Contains(RewriteLine(line, prefix).value, "id := '" + newName + "'")
  {
    var m := FindChange(line, 0).value;
    var newName := NewName(m.name, TypeComment(line).value, prefix);
    FindChangeSound(line, 0);
    BothReplaced(line, m, newName);
  }

  /** Both replacements of a line holding the text of `m`, whose two ids agree, leave the new quoted id. */
  lemma BothReplaced(line: string, m: ChangeMatch, newName: string)
    requires Contains(line, MatchedText(m)) && m.quotedId == m.id
    ensures Contains(ReplaceFirst(ReplaceFirst(line, "t." + m.id, "t." + newName),
      "id := '" + m.id + "'", "id := '" + newName + "'"), "id := '" + newName + "'")
  {
    var p := IndexOf(line, MatchedText(m)).value;
    MatchedPieces(line, m, p);
    SecondReplaceApplies(line, "t." + m.id, "t." + newName,
      "id := '" + m.id + "'", "id := '" + newName + "'", p + |"t." + m.id| + 8);
  }

  /** The second replacement finds a pattern that lies after the first one's target. */
  lemma SecondReplaceApplies(line: string, pat1: string, rep1: string, pat2: string, rep2: string, q: nat)
    requires IndexOf(line, pat1).Some? && IndexOf(line, pat1).value + |pat1| <= q
    requires OccursAt(line, pat2, q)
    ensures Contains(ReplaceFirst(ReplaceFirst(line, pat1, rep1), pat2, rep2), rep2)
  {
    ReplaceKeepsLater(line, pat1, rep1, pat2, q);
    ReplaceLeavesRep(ReplaceFirst(line, pat1, rep1), pat2, rep2);
  }

  /** Where a match with equal ids occurs, `t.<id>` starts it and `id := '<id>'` follows `.change(`. */
  lemma MatchedPieces(line: string, m: ChangeMatch, p: nat)
    requires OccursAt(line, MatchedText(m), p) && m.quotedId == m.id
    ensures OccursAt(line, "t." + m.id, p)
    ensures IndexOf(line, "t." + m.id).Some? && IndexOf(line, "t." + m.id).value <= p
    ensures OccursAt(line, "id := '" + m.id + "'", p + |"t." + m.id| + 8)
  {
    var head := "t." + m.id;
    var quoted := "id := '" + m.id + "'";
    var tail := ", name := '" + m.name + "'";
    MatchedTextShape(m);
    OccursPart(line, "", head, ".change(" + quoted + tail, p);
    OccursPart(line, head + ".change(", quoted, tail, p);
  }

  lemma MatchedTextShape(m: ChangeMatch)
    requires m.quotedId == m.id
    ensures var head := "t." + m.id;
      var quoted := "id := '" + m.id + "'";
      var tail := ", name := '" + m.name + "'";
      && MatchedText(m) == "" + head + (".change(" + quoted + tail)
      && MatchedText(m) == (head + ".change(") + quoted + tail
  {
    assert ChangeOpen == ".change(" + "id := '";
    assert NameOpen == "'" + ", name := '";
  }
}

=== FILE: json.dfy ===
/**
 * JSON values as the server sees them after `JSON.parse` / `express.json()`.
 * Numbers are modelled as integers: nothing in the modelled code does
 * arithmetic on JSON numbers, it only compares them with `0`.
 */
module JsonValues {
  import opened Wrappers

  datatype Json =
    | JNull
    | JBool(b: bool)
    | JNum(n: int)
    | JStr(s: string)
    | JArr(items: seq<Json>)
    | JObj(members: seq<Member>)

  /** One `key: value` pair of an object, in the object's key-enumeration order. */
  datatype Member = Member(key: string, value: Json)

  /** `Array.isArray(v)` */
  predicate IsArray(v: Json) {
    v.JArr?
  }

  /** The keys of an object's members, in order. */
  function Keys(ms: seq<Member>): (ks: seq<string>)
    ensures |ks| == |ms|
    ensures forall i :: 0 <= i < |ms| ==> ks[i] == ms[i].key
  {
    if ms == [] then [] else [ms[0].key] + Keys(ms[1..])
  }

  /** A JavaScript object never holds the same key twice. */
  predicate UniqueKeys(ms: seq<Member>) {
    forall i, j :: 0 <= i < j < |ms| ==> ms[i].key != ms[j].key
  }

  /** `obj[key]` on a member list: the value, or None for `undefined`. */
  function Lookup(ms: seq<Member>, key: string): (r: Option<Json>)
    ensures r.Some? <==> exists i :: 0 <= i < |ms| && ms[i].key == key
    ensures r.Some? ==> exists i :: 0 <= i < |ms| && ms[i].key == key && ms[i].value == r.value
  {
    if ms == [] then None
    else if ms[0].key == key then Some(ms[0].value)
    else
      var r := Lookup(ms[1..], key);
      assert forall i :: 1 <= i < |ms| ==> ms[i] == ms[1..][i - 1];
      r
  }

  /**
   * Property access `v.key` in JavaScript: reading a property of `null`
   * throws a TypeError; on any other non-object it yields `undefined`.
   */
  function Field(v: Json, key: string): (r: Result<Option<Json>>)
    ensures r.Err? <==> v.JNull?
    ensures v.JObj? ==> r == Ok(Lookup(v.members, key))
    ensures !v.JObj? && !v.JNull? ==> r == Ok(None)
  {
    match v
    case JNull => Err("TypeError: Cannot read properties of null")
    case JObj(ms) => Ok(Lookup(ms, key))
    case _ => Ok(None)
  }

  /** JavaScript truthiness of a JSON value (`undefined` is None). */
  predicate Truthy(v: Option<Json>) {
    match v
    case None => false
    case Some(JNull) => false
    case Some(JBool(b)) => b
    case Some(JNum(n)) => n != 0
    case Some(JStr(s)) => s != ""
    case Some(_) => true
  }

  /**
   * Strict equality `a !== b` negated, for two values that came out of two
   * separate `JSON.parse` calls: primitives compare by value, while arrays and
   * objects are distinct references and never strictly equal. `undefined`
   * (None) equals only `undefined`.
   */
  predicate StrictEquals(a: Option<Json>, b: Option<Json>) {
    match (a, b)
    case (None, None) => true
    case (Some(JNull), Some(JNull)) => true
    case (Some(JBool(x)), Some(JBool(y))) => x == y
    case (Some(JNum(x)), Some(JNum(y))) => x == y
    case (Some(JStr(x)), Some(JStr(y))) => x == y
    case _ => false
  }
}

=== FILE: json_processor.dfy ===
/**
 * `processJsonData` of services/jsonProcessor.js: the diff pipeline behind
 * the `/diff` route. The structural differ and patcher (jsondiffpatch) are
 * parameters; the source server is a `SourceServer`.
 */
module ServiceJsonProcessor {
  import opened Wrappers
  import opened JsonValues
  import opened Dependencies
  import opened DiffAnalysis

  /** `jsondiffpatch.diff(a, b)`: a delta object, or `None` (`undefined`) when nothing differs. */
  type Differ = (Json, Json) -> Option<Json>

  /** `jsondiffpatch.patch(JSON.parse(JSON.stringify(a)), delta)` */
  type Patcher = (Json, Option<Json>) -> Json

  /** The object `processJsonData` returns. */
  datatype DiffResult = DiffResult(
    diff: Option<Json>,
    patchedObj: Json,
    changes: ChangeStats,
    changeLogs: seq<ChangeLogEntry>,
    missingDependencies: map<string, Dependency>)

  const NotArrays: string := "Both json1 and json2 should be arrays."

  /** `for..in` over `undefined` visits nothing, just as over `null`. */
  function DeltaNode(delta: Option<Json>): Json {
    if delta.Some? then delta.value else JNull
  }

  /**
   * What the result promises about a walk of `delta`: the log is the walk's,
   * `totalChanges` counts its entries, each counter counts its kind,
   * `valueChanges` equals `modifiedEntries`, the key counters stay 0 and
   * `depth` is the deepest level reached from level 0.
   */
  predicate Summarizes(stats: ChangeStats, logs: seq<ChangeLogEntry>, delta: Option<Json>) {
    && logs == Logs(DeltaNode(delta), "")
    && stats.totalChanges == |logs|
    && stats.newEntries == Count(logs, Addition)
    && stats.deletedEntries == Count(logs, Deletion)
    && stats.modifiedEntries == Count(logs, Modification)
    && stats.valueChanges == stats.modifiedEntries
    && stats.addedKeys == 0 && stats.removedKeys == 0
    && stats.depth == Depth(DeltaNode(delta), 0)
  }

  /**
   * `d` is what `processJsonData(json1, json2)` returns when it succeeds: the
   * delta and the patched copy come from the differ and the patcher, the
   * statistics and log summarize the delta, and the missing dependencies are
   * the asymmetric difference of the two snapshots' references with the
   * fetched content merged in.
   */
  predicate ResultFor(d: DiffResult, json1: Json, json2: Json, differ: Differ, patcher: Patcher,
                      catalog: (string, string) -> Option<Json>)
  {
    && json1.JArr? && json2.JArr?
    && Collected(json1.items).Ok? && Collected(json2.items).Ok?
    && var missing := FindMissing(Collected(json1.items).value, Collected(json2.items).value);
       && d.diff == differ(json1, json2)
       && d.patchedObj == patcher(json1, d.diff)
       && Summarizes(d.changes, d.changeLogs, d.diff)
       && d.missingDependencies == Merge(missing, Fetched(missing, catalog))
  }

  /**
   * The requests a successful `processJsonData(json1, json2)` adds to the
   * source server's log: one per missing `(property, id)` pair of the two
   * snapshots, after the requests made before.
   */
  ghost predicate RequestsFor(json1: Json, json2: Json, before: seq<(string, string)>, after: seq<(string, string)>) {
    && json1.JArr? && json2.JArr?
    && Collected(json1.items).Ok? && Collected(json2.items).Ok?
    && RequestedMissing(before, after, FindMissing(Collected(json1.items).value, Collected(json2.items).value))
  }

  /**
   * `processJsonData(json1, json2)`: rejects non-arrays before doing anything;
   * otherwise diffs and patches, collects both snapshots' references (which
   * throws on a `null` entity or an inherited property name), fetches the
   * missing ones, walks the delta and merges the fetched content into the
   * missing-dependency map.
   */
  method ProcessJsonData(json1: Json, json2: Json, differ: Differ, patcher: Patcher, server: SourceServer)
    returns (r: Result<DiffResult>)
    modifies server
    ensures !(json1.JArr? && json2.JArr?) ==> r == Err(NotArrays) && server.requests == old(server.requests)
    ensures json1.JArr? && json2.JArr? ==>
      (r.Ok? <==> Collectable(json1.items) && Collectable(json2.items))
    ensures r.Err? && json1.JArr? && json2.JArr? ==> server.requests == old(server.requests)
    ensures r.Ok? ==> ResultFor(r.value, json1, json2, differ, patcher, server.catalog)
    ensures r.Ok? ==> RequestsFor(json1, json2, old(server.requests), server.requests)
  {
    if !json1.JArr? || !json2.JArr? {
      return Err(NotArrays);
    }
    var diff := differ(json1, json2);
    var patchedObj := patcher(json1, diff);

    CollectedFails(json1.items);
    CollectedFails(json2.items);
    var properties1 := CollectProperties(json1.items);
    if properties1.Err? {
      return Err(properties1.error);
    }
    var properties2 := CollectProperties(json2.items);
    if properties2.Err? {
      return Err(properties2.error);
    }
    var missingDependencies := FindMissingDependencies(properties1.value, properties2.value);
    var missingDependenciesContent := FetchMissingDependenciesContent(missingDependencies, server);

    var stats, logs := WalkDelta(diff);
    var result := DiffResult(diff, patchedObj, stats, logs,
      Merge(missingDependencies, missingDependenciesContent));
    ResultForIntro(result, json1, json2, differ, patcher, server.catalog,
      properties1.value, properties2.value, missingDependencies, missingDependenciesContent);
    r := Ok(result);
  }

  /**
   * `analyzeDiff(diff)` on the fresh `changes` and `changeLogs` of
   * `processJsonData`, then `calculateTotalChanges(changes)`: the counters
   * and the log summarize the delta.
   */
  method WalkDelta(diff: Option<Json>) returns (stats: ChangeStats, logs: seq<ChangeLogEntry>)
    ensures Summarizes(stats, logs, diff)
  {
    var changes := new Changes();
    var changeLogs := new ChangeLog();
    assert Tally(changes) == (0, 0, 0, 0) && changes.depth == 0 && changeLogs.entries == [];
    AnalyzeDiff(DeltaNode(diff), changes, changeLogs, "", 0);
    assert [] + Logs(DeltaNode(diff), "") == Logs(DeltaNode(diff), "");
    changes.totalChanges := CalculateTotalChanges(changes);
    stats, logs := Snapshot(changes), changeLogs.entries;
    WalkSummarized(stats, logs, diff);
  }

  /**
   * The counters of a fresh `changes` after the walk of the delta from level
   * 0 and `calculateTotalChanges` summarize the walk.
   */
  lemma WalkSummarized(stats: ChangeStats, logs: seq<ChangeLogEntry>, delta: Option<Json>)
    requires logs == Logs(DeltaNode(delta), "")
    requires (stats.newEntries, stats.deletedEntries, stats.modifiedEntries, stats.valueChanges)
      == Added((0, 0, 0, 0), logs)
    requires stats.totalChanges == stats.newEntries + stats.deletedEntries + stats.modifiedEntries
    requires stats.addedKeys == 0 && stats.removedKeys == 0
    requires stats.depth == Max(0, Depth(DeltaNode(delta), 0))
    ensures Summarizes(stats, logs, delta)
  {
    CountsAddUp(logs);
    var added := Added((0, 0, 0, 0), logs);
    assert stats.newEntries == added.0 == Count(logs, Addition);
    assert stats.deletedEntries == added.1 == Count(logs, Deletion);
    assert stats.modifiedEntries == added.2 == Count(logs, Modification);
    assert stats.valueChanges == added.3 == Count(logs, Modification);
  }

  /** The parts computed by `processJsonData` make up its promised result. */
  lemma ResultForIntro(d: DiffResult, json1: Json, json2: Json, differ: Differ, patcher: Patcher,
                       catalog: (string, string) -> Option<Json>, properties1: PropertySets, properties2: PropertySets,
                       missing: MissingDependencies, content: FetchedContent)
    requires json1.JArr? && json2.JArr?
    requires Collected(json1.items) == Ok(properties1) && Collected(json2.items) == Ok(properties2)
    requires missing == FindMissing(properties1, properties2) && content == Fetched(missing, catalog)
    requires d.diff == differ(json1, json2) && d.patchedObj == patcher(json1, d.diff)
    requires Summarizes(d.changes, d.changeLogs, d.diff)
    requires d.missingDependencies == Merge(missing, content)
    ensures ResultFor(d, json1, json2, differ, patcher, catalog)
  {
  }
}

=== FILE: message_queue.dfy ===
/**
 * messageQueue.js: fan-out of diff results to RabbitMQ and Azure Service
 * Bus, each with up to `MAX_RETRIES` attempts (`attempt < MAX_RETRIES`) and a
 * fixed `RETRY_DELAY` between them. Connection set-up is reduced to whether
 * it produced a channel/sender; broker answers come from `accepts`.
 */
module RootMessageQueue {
  import opened Delivery

  /** `attempt < MAX_RETRIES` retries after attempts 1 to 4: five sends at most. */
  const MaxSends: nat := MaxRetries

  /** The module state of messageQueue.js and the log of what it did. */
  class MessageQueue {
    const rabbitmqEnabled: bool
    const azureServiceBusEnabled: bool
    /** `rabbitChannel` is set */
    var rabbitChannel: bool
    /** `serviceBusSender` is set */
    var serviceBusSender: bool
    /** `accepts(k)`: whether the k-th broker call succeeds */
    const accepts: nat -> bool
    /** The broker calls made so far: the index of the next answer of `accepts`. */
    var calls: nat
    var log: seq<Event>

    /**
     * Module initialisation: RabbitMQ gets its channel only when it is enabled
     * and `connect` and `createChannel` succeeded (the channel stays set even
     * when `assertQueue` then fails); Azure Service Bus gets its sender only
     * when it is enabled and the client and `createSender` succeeded.
     */
    constructor(rabbitmqEnabled: bool, azureServiceBusEnabled: bool, rabbitChannelCreated: bool,
                azureSenderCreated: bool, accepts: nat -> bool)
      ensures this.rabbitmqEnabled == rabbitmqEnabled && this.azureServiceBusEnabled == azureServiceBusEnabled
      ensures rabbitChannel == (rabbitmqEnabled && rabbitChannelCreated)
      ensures serviceBusSender == (azureServiceBusEnabled && azureSenderCreated)
      ensures this.accepts == accepts && calls == 0 && log == []
    {
      this.rabbitmqEnabled := rabbitmqEnabled;
      this.azureServiceBusEnabled := azureServiceBusEnabled;
      rabbitChannel := rabbitmqEnabled && rabbitChannelCreated;
      serviceBusSender := azureServiceBusEnabled && azureSenderCreated;
      this.accepts := accepts;
      calls := 0;
      log := [];
    }

    /**
     * `sendToRabbitQueueWithRetry` / `sendToAzureServiceBusWithRetry`
     * (`attempt` counting from 1): the log gains exactly one
     * retry run with at most five attempts.
     */
    method SendWithRetry(backend: Backend, message: string, attempt: nat)
      requires 1 <= attempt <= MaxSends
      modifies this
      ensures log == old(log) + Retry(accepts, backend, message, old(calls), attempt, MaxSends)
      ensures calls == old(calls) + Attempts(accepts, old(calls), attempt, MaxSends)
      ensures rabbitChannel == old(rabbitChannel) && serviceBusSender == old(serviceBusSender)
      decreases MaxSends - attempt
    {
      var accepted := accepts(calls);
      if accepted {
        RetryLastStep(accepts, backend, message, calls, attempt, MaxSends);
        log := log + [Send(backend, attempt, message), Delivered(backend, message)];
        calls := calls + 1;
      } else if attempt < MaxRetries {
        ghost var pair := [Send(backend, attempt, message), Wait(RetryDelay)];
        ghost var rest := Retry(accepts, backend, message, calls + 1, attempt + 1, MaxSends);
        RetryFailStep(accepts, backend, message, calls, attempt, MaxSends);
        log := log + [Send(backend, attempt, message), Wait(RetryDelay)];
        calls := calls + 1;
        SendWithRetry(backend, message, attempt + 1);
        ConcatAssoc(old(log), pair, rest);
      } else {
        RetryLastStep(accepts, backend, message, calls, attempt, MaxSends);
        log := log + [Send(backend, attempt, message), GaveUp(backend, message)];
        calls := calls + 1;
      }
    }

    /**
     * One round of the `for (const chunk of chunks)` loop: chunk `i` gets its
     * retry run after the runs of the chunks before it.
     */
    method SendRound(backend: Backend, chunks: seq<string>, i: nat, ghost start: seq<Event>, ghost k0: nat)
      requires i < |chunks|
      requires log == start + Prefix(accepts, backend, chunks, i, k0, MaxSends)
      requires calls == k0 + PrefixCalls(accepts, chunks, i, k0, MaxSends)
      modifies this
      ensures log == start + Prefix(accepts, backend, chunks, i + 1, k0, MaxSends)
      ensures calls == k0 + PrefixCalls(accepts, chunks, i + 1, k0, MaxSends)
      ensures rabbitChannel == old(rabbitChannel) && serviceBusSender == old(serviceBusSender)
    {
      ghost var done := Prefix(accepts, backend, chunks, i, k0, MaxSends);
      ghost var run := Retry(accepts, backend, chunks[i], calls, 1, MaxSends);
      PrefixStep(accepts, backend, chunks, i, k0, MaxSends);
      SendWithRetry(backend, chunks[i], 1);
      ConcatAssoc(start, done, run);
    }

    /** The `for (const chunk of chunks)` loop of one backend. */
    method SendPass(backend: Backend, chunks: seq<string>)
      modifies this
      ensures log == old(log) + Pass(accepts, backend, chunks, old(calls), MaxSends)
      ensures calls == old(calls) + PassCalls(accepts, chunks, old(calls), MaxSends)
      ensures rabbitChannel == old(rabbitChannel) && serviceBusSender == old(serviceBusSender)
    {
      ghost var start := log;
      ghost var k0 := calls;
      var i := 0;
      while i < |chunks|
        invariant i <= |chunks|
        invariant log == start + Prefix(accepts, backend, chunks, i, k0, MaxSends)
        invariant calls == k0 + PrefixCalls(accepts, chunks, i, k0, MaxSends)
        invariant rabbitChannel == old(rabbitChannel) && serviceBusSender == old(serviceBusSender)
      {
        SendRound(backend, chunks, i, start, k0);
        i := i + 1;
      }
    }

    /**
     * `sendChunks(chunks)`: the RabbitMQ part, then the Azure part, each
     * either a full pass over the chunks or a warning; it never fails.
     */
    method SendChunks(chunks: seq<string>)
      modifies this
      ensures var rabbitOpen := rabbitmqEnabled && rabbitChannel;
        var azureCalls := old(calls) + BackendCalls(rabbitOpen, accepts, chunks, old(calls), MaxSends);
        log == old(log) + BackendPart(rabbitOpen, accepts, RabbitMQ, chunks, old(calls), MaxSends)
          + BackendPart(azureServiceBusEnabled && serviceBusSender, accepts, AzureServiceBus, chunks, azureCalls, MaxSends)
      ensures calls == old(calls) + BackendCalls(rabbitmqEnabled && rabbitChannel, accepts, chunks, old(calls), MaxSends)
        + BackendCalls(azureServiceBusEnabled && serviceBusSender, accepts, chunks,
            old(calls) + BackendCalls(rabbitmqEnabled && rabbitChannel, accepts, chunks, old(calls), MaxSends), MaxSends)
      ensures rabbitChannel == old(rabbitChannel) && serviceBusSender == old(serviceBusSender)
    {
      if rabbitmqEnabled && rabbitChannel {
        SendPass(RabbitMQ, chunks);
      } else {
        log := log + [Skipped(RabbitMQ)];
      }
      if azureServiceBusEnabled && serviceBusSender {
        SendPass(AzureServiceBus, chunks);
      } else {
        log := log + [Skipped(AzureServiceBus)];
      }
    }
  }

  /** Each message gets at most five attempts per backend. */
  lemma AtMostFiveAttempts(accepts: nat -> bool, backend: Backend, message: string, k: nat)
    ensures 1 <= SendCount(Retry(accepts, backend, message, k, 1, MaxSends)) <= 5
  {
    RetryLength(accepts, backend, message, k, 1, MaxSends);
  }

  /** A backend that never accepts gets exactly five attempts, and the message is dropped. */
  lemma NeverAcceptedFiveAttempts(accepts: nat -> bool, backend: Backend, message: string, k: nat)
    requires forall j :: !accepts(j)
    ensures var e := Retry(accepts, backend, message, k, 1, MaxSends);
      SendCount(e) == 5 && e[|e| - 1] == GaveUp(backend, message)
  {
    AllFailGivesUp(accepts, backend, message, k, MaxSends);
  }

  /**
   * Both backends, when open, are sent only the chunk texts, and each pass is
   * one retry run per chunk in order (`Delivery.PassRuns`): each chunk's run
   * sends that chunk at least once and at most five times, so a pass makes
   * between `|chunks|` and `5 * |chunks|` sends.
   */
  lemma SameChunksToBoth(accepts: nat -> bool, chunks: seq<string>, k1: nat, k2: nat)
    ensures var rabbit := Pass(accepts, RabbitMQ, chunks, k1, MaxSends);
      var azure := Pass(accepts, AzureServiceBus, chunks, k2, MaxSends);
      && (forall e :: e in rabbit && e.Send? ==> e.backend == RabbitMQ && e.body in chunks)
      && (forall e :: e in azure && e.Send? ==> e.backend == AzureServiceBus && e.body in chunks)
      && |chunks| <= SendCount(rabbit) <= 5 * |chunks|
      && |chunks| <= SendCount(azure) <= 5 * |chunks|
    ensures forall i {:trigger ChunkRun(accepts, RabbitMQ, chunks, i, k1, MaxSends)} :: 0 <= i < |chunks| ==>
      && 1 <= SendCount(ChunkRun(accepts, RabbitMQ, chunks, i, k1, MaxSends)) <= 5
      && 1 <= SendCount(ChunkRun(accepts, AzureServiceBus, chunks, i, k2, MaxSends)) <= 5
  {
    PassEvents(accepts, RabbitMQ, chunks, k1, MaxSends);
    PassEvents(accepts, AzureServiceBus, chunks, k2, MaxSends);
    PassSendCount(accepts, RabbitMQ, chunks, k1, MaxSends);
    PassSendCount(accepts, AzureServiceBus, chunks, k2, MaxSends);
    PassRuns(accepts, RabbitMQ, chunks, k1, MaxSends);
    PassRuns(accepts, AzureServiceBus, chunks, k2, MaxSends);
  }
}

=== FILE: process_text.dfy ===
/**
 * `processText` of routes/apiRoutes.js: turns HTML-ish text into numbered
 * rows. Each line loses its tags and surrounding whitespace; runs of lines
 * that look like base64 are gathered into one row, other non-empty lines
 * become rows of their own.
 */
module TextRows {
  import opened Text
  import opened IdProcessor

  /** `line.replace(/<[^>]*>/g, "").trim()` */
  function CleanLine(line: string): string {
    Trim(StripTags(line))
  }

  /** A character of the class `[a-zA-Z0-9+/=]`. */
  predicate IsBase64Char(c: char) {
    ('a' <= c <= 'z') || ('A' <= c <= 'Z') || ('0' <= c <= '9') || c == '+' || c == '/' || c == '='
  }

  /** `/^[a-zA-Z0-9+/=]{40,}$/.test(s)` */
  predicate IsBase64Line(s: string) {
    |s| >= 40 && forall k :: 0 <= k < |s| ==> IsBase64Char(s[k])
  }

  /** `text.replace(/<BR\/>/g, "\n").split("\n")` */
  function TextLines(text: string): (lines: seq<string>)
    ensures |lines| >= 1
  {
    Split(ReplaceAll(text, "<BR/>", "\n"), "\n")
  }

  /** The row a pending run of base64 lines turns into: none for an empty run. */
  function Flush(pending: seq<string>): seq<string> {
    if pending == [] then [] else [Join(pending, "\n")]
  }

  /**
   * The `exp` of each row produced from the cleaned lines `cleaned` when the
   * base64 lines in `pending` are still waiting to be flushed: a base64 line
   * joins the run; any other line flushes the run and then, when it is not
   * empty, becomes a row itself; the end of the input flushes the run.
   */
  function Exps(cleaned: seq<string>, pending: seq<string>): seq<string>
    decreases |cleaned|
  {
    if cleaned == [] then Flush(pending)
    else if IsBase64Line(cleaned[0]) then Exps(cleaned[1..], pending + [cleaned[0]])
    else Flush(pending) + (if cleaned[0] != "" then [cleaned[0]] else []) + Exps(cleaned[1..], [])
  }

  /** The cleaned form of each line. */
  function CleanAll(lines: seq<string>): (r: seq<string>)
    ensures |r| == |lines|
  {
    if lines == [] then [] else [CleanLine(lines[0])] + CleanAll(lines[1..])
  }

  lemma {:induction false} CleanAllAt(lines: seq<string>, i: nat)
    requires i < |lines|
    ensures CleanAll(lines)[i] == CleanLine(lines[i])
    decreases i
  {
    if i > 0 {
      CleanAllAt(lines[1..], i - 1);
    }
  }

  /** `currentBase64Data`: each pending line followed by a newline. */
  function Terminated(pending: seq<string>): (r: string)
    ensures r == "" <==> pending == []
  {
    if pending == [] then ""
    else Terminated(pending[..|pending| - 1]) + pending[|pending| - 1] + "\n"
  }

  /** `rows` carry the texts `exps` in order, with ids counting from 1. */
  predicate Numbered(rows: seq<Row>, exps: seq<string>) {
    |rows| == |exps| && forall j :: 0 <= j < |rows| ==> rows[j] == Row(j + 1, exps[j])
  }

  /** `rows.push({ id: rowIndex++, exp })` */
  lemma NumberedPush(rows: seq<Row>, exps: seq<string>, exp: string)
    requires Numbered(rows, exps)
    ensures Numbered(rows + [Row(|rows| + 1, exp)], exps + [exp])
  {
  }

  /** `processText(text).rows` */
  method ProcessText(text: string) returns (rows: seq<Row>)
    ensures Numbered(rows, Exps(CleanAll(TextLines(text)), []))
  {
    var lines := TextLines(text);
    rows := ProcessLines(lines);
  }

  /** Every line of a pending run is a base64 line. */
  predicate AllBase64(pending: seq<string>) {
    forall p :: p in pending ==> IsBase64Line(p)
  }

  /**
   * The end of a run at a line that is not base64: the pending run, if any,
   * becomes a row (`currentBase64Data.trim()`), then the line itself when it
   * is not empty.
   */
  method EndRun(rows: seq<Row>, rowIndex: nat, currentBase64Data: string, cleanedLine: string,
                ghost emitted: seq<string>, ghost pending: seq<string>) returns (rows': seq<Row>, rowIndex': nat)
    requires Numbered(rows, emitted) && rowIndex == |rows| + 1
    requires AllBase64(pending) && currentBase64Data == Terminated(pending)
    ensures Numbered(rows', emitted + Flush(pending) + (if cleanedLine != "" then [cleanedLine] else []))
    ensures rowIndex' == |rows'| + 1
  {
    rows', rowIndex' := rows, rowIndex;
    ghost var exps := emitted;
    if currentBase64Data != "" {
      FlushedRun(pending);
      NumberedPush(rows', exps, Trim(currentBase64Data));
      rows' := rows' + [Row(rowIndex', Trim(currentBase64Data))];
      exps := exps + [Trim(currentBase64Data)];
      rowIndex' := rowIndex' + 1;
    }
    assert exps == emitted + Flush(pending);
    if cleanedLine != "" {
      NumberedPush(rows', exps, cleanedLine);
      rows' := rows' + [Row(rowIndex', cleanedLine)];
      exps := exps + [cleanedLine];
      rowIndex' := rowIndex' + 1;
    }
  }

  /** The `forEach` of `processText` over the lines and its final flush. */
  method ProcessLines(lines: seq<string>) returns (rows: seq<Row>)
    ensures Numbered(rows, Exps(CleanAll(lines), []))
  {
    ghost var cleaned := CleanAll(lines);
    rows := [];
    var currentBase64Data := "";
    var rowIndex := 1;
    ghost var pending: seq<string> := [];
    ghost var emitted: seq<string> := [];
    var i := 0;
    while i < |lines|
      invariant i <= |lines|
      invariant rowIndex == |rows| + 1
      invariant Numbered(rows, emitted)
      invariant AllBase64(pending)
      invariant currentBase64Data == Terminated(pending)
      invariant emitted + Exps(cleaned[i..], pending) == Exps(cleaned, [])
    {
      var cleanedLine := CleanLine(lines[i]);
      CleanAllAt(lines, i);
      if IsBase64Line(cleanedLine) {
        ExpsGathers(cleaned, i, pending);
        currentBase64Data := currentBase64Data + cleanedLine + "\n";
        pending := pending + [cleanedLine];
      } else {
        ghost var line := if cleanedLine != "" then [cleanedLine] else [];
        ExpsEmits(cleaned, i, pending);
        rows, rowIndex := EndRun(rows, rowIndex, currentBase64Data, cleanedLine, emitted, pending);
        ConcatAssoc3(emitted, Flush(pending), line, Exps(cleaned[i + 1..], []));
        emitted := emitted + Flush(pending) + line;
        currentBase64Data := "";
        pending := [];
      }
      i := i + 1;
    }
    assert cleaned[i..] == [];
    rows, rowIndex := EndRun(rows, rowIndex, currentBase64Data, "", emitted, pending);
  }

  lemma ConcatAssoc3<T>(a: seq<T>, b: seq<T>, c: seq<T>, d: seq<T>)
    ensures a + b + c + d == a + (b + c + d)
  {
  }

  /** A base64 line joins the pending run. */
  lemma ExpsGathers(cleaned: seq<string>, i: nat, pending: seq<string>)
    requires i < |cleaned| && IsBase64Line(cleaned[i])
    ensures Exps(cleaned[i..], pending) == Exps(cleaned[i + 1..], pending + [cleaned[i]])
  {
    assert cleaned[i..][1..] == cleaned[i + 1..];
  }

  /** Any other line flushes the pending run, then is a row of its own unless empty. */
  lemma ExpsEmits(cleaned: seq<string>, i: nat, pending: seq<string>)
    requires i < |cleaned| && !IsBase64Line(cleaned[i])
    ensures Exps(cleaned[i..], pending) ==
      Flush(pending) + (if cleaned[i] != "" then [cleaned[i]] else []) + Exps(cleaned[i + 1..], [])
  {
    assert cleaned[i..][1..] == cleaned[i + 1..];
  }

  /** Trimming `currentBase64Data` gives the run joined by newlines. */
  lemma FlushedRun(pending: seq<string>)
    requires AllBase64(pending)
    requires Terminated(pending) != ""
    ensures Flush(pending) == [Trim(Terminated(pending))]
  {
    TerminatedJoin(pending);
    JoinEnds(pending);
    TrimNewline(Join(pending, "\n"));
  }

  /** `currentBase64Data` is the joined run plus a final newline. */
  lemma {:induction false} TerminatedJoin(pending: seq<string>)
    requires pending != []
    ensures Terminated(pending) == Join(pending, "\n") + "\n"
    decreases |pending|
  {
    if |pending| > 1 {
      var init := pending[..|pending| - 1];
      var last := pending[|pending| - 1];
      TerminatedJoin(init);
      JoinSnoc(init, last, "\n");
      assert init + [last] == pending;
    }
  }

  /** Joining one more part at the end. */
  lemma {:induction false} JoinSnoc(parts: seq<string>, x: string, sep: string)
    requires parts != []
    ensures Join(parts + [x], sep) == Join(parts, sep) + sep + x
    decreases |parts|
  {
    if |parts| == 1 {
      assert (parts + [x])[1..] == [x];
    } else {
      assert (parts + [x])[1..] == parts[1..] + [x];
      JoinSnoc(parts[1..], x, sep);
    }
  }

  /** A run joined by newlines starts and ends with a base64 character. */
  lemma {:induction false} JoinEnds(pending: seq<string>)
    requires pending != []
    requires forall p :: p in pending ==> IsBase64Line(p)
    ensures var s := Join(pending, "\n");
      |s| > 0 && IsBase64Char(s[0]) && IsBase64Char(s[|s| - 1])
    decreases |pending|
  {
    assert pending[0] in pending;
    if |pending| > 1 {
      assert forall p :: p in pending[1..] ==> p in pending;
      JoinEnds(pending[1..]);
      var s := Join(pending, "\n");
      var t := Join(pending[1..], "\n");
      assert s == pending[0] + "\n" + t;
      assert s[0] == pending[0][0];
      assert s[|s| - 1] == t[|t| - 1];
    } else {
      var p := pending[0];
      assert IsBase64Char(p[0]) && IsBase64Char(p[|p| - 1]);
    }
  }

  /** `trim` drops exactly the final newline of a string that starts and ends with a base64 character. */
  lemma TrimNewline(s: string)
    requires |s| > 0 && IsBase64Char(s[0]) && IsBase64Char(s[|s| - 1])
    ensures Trim(s + "\n") == s
  {
    var t := s + "\n";
    assert !IsSpace(t[0]);
    assert TrimStart(t) == t;
    assert t[..|t| - 1] == s;
    assert TrimEnd(t) == TrimEnd(s);
    assert TrimEnd(s) == s;
  }

  /** `processText` never emits an empty `exp`. */
  lemma {:induction false} ExpsNonEmpty(cleaned: seq<string>, pending: seq<string>)
    requires forall p :: p in pending ==> IsBase64Line(p)
    ensures forall e :: e in Exps(cleaned, pending) ==> e != ""
    decreases |cleaned|
  {
    if pending != [] {
      JoinEnds(pending);
    }
    if cleaned != [] {
      if IsBase64Line(cleaned[0]) {
        assert forall p :: p in pending + [cleaned[0]] ==> p in pending || p == cleaned[0];
        ExpsNonEmpty(cleaned[1..], pending + [cleaned[0]]);
      } else {
        ExpsNonEmpty(cleaned[1..], []);
      }
    }
  }

  /** A run of base64 lines is gathered without emitting anything. */
  lemma {:induction false} RunGathered(cleaned: seq<string>, pending: seq<string>, n: nat)
    requires n <= |cleaned|
    requires forall j :: 0 <= j < n ==> IsBase64Line(cleaned[j])
    ensures Exps(cleaned, pending) == Exps(cleaned[n..], pending + cleaned[..n])
    decreases n
  {
    if n == 0 {
      assert cleaned[0..] == cleaned;
      assert pending + cleaned[..0] == pending;
    } else {
      RunGathered(cleaned[1..], pending + [cleaned[0]], n - 1);
      assert cleaned[1..][n - 1..] == cleaned[n..];
      assert cleaned[..n] == [cleaned[0]] + cleaned[1..][..n - 1];
      assert pending + [cleaned[0]] + cleaned[1..][..n - 1] == pending + cleaned[..n];
    }
  }

  /**
   * Consecutive base64 lines merge into one row, their texts joined by
   * newlines; the run ends at the first other line, empty or not, or at the
   * end of the input.
   */
  lemma Base64RunMerged(cleaned: seq<string>, n: nat)
    requires 0 < n <= |cleaned|
    requires forall j :: 0 <= j < n ==> IsBase64Line(cleaned[j])
    requires n == |cleaned| || !IsBase64Line(cleaned[n])
    ensures |Exps(cleaned, [])| >= 1
    ensures Exps(cleaned, [])[0] == Join(cleaned[..n], "\n")
  {
    RunGathered(cleaned, [], n);
    var run := cleaned[..n];
    assert [] + run == run;
    if n < |cleaned| {
      ExpsEmits(cleaned, n, run);
    } else {
      assert cleaned[n..] == [];
    }
  }
}

=== FILE: property_extraction.dfy ===
/**
 * `extractProperties` (services/jsonProcessor.js, and its copy in the root
 * jsonProcessor.js): the `name := value` scanner run over an entity's `exp`.
 *
 * The scanner is the global regular expression
 *   (\w+)\s*:=\s*([^,]+)(?=\s*,|\s*\)|$)
 * executed repeatedly. Its backtracking is resolved here once and for all:
 * at a start position the key is the whole run of word characters, then
 * optional spaces and `:=` must follow, and then
 *  - if, after the spaces following `:=`, a character other than a comma
 *    follows, the value is everything from there up to the next comma or the
 *    end of the string (greedy `[^,]+`; the look-ahead then always holds);
 *  - if only spaces follow before a comma or the end, `\s*` gives back its
 *    last space and the value is that one space;
 *  - if `:=` is directly followed by a comma or the end, there is no match at
 *    this start position.
 * Quotes and closing parentheses are part of the value.
 */
module PropertyExtraction {
  import opened Wrappers
  import opened Text

  /** One match: the captured key and value and where the match ends (`lastIndex`). */
  datatype Match = Match(key: string, value: string, end: nat)

  /** Assigning a string to `__proto__` of a plain object is silently ignored. */
  const ProtoKey: string := "__proto__"

  /** The end of the run of word characters starting at `i`. */
  function WordEnd(s: string, i: nat): (j: nat)
    requires i <= |s|
    ensures i <= j <= |s|
    ensures forall k :: i <= k < j ==> IsWordChar(s[k])
    ensures j == |s| || !IsWordChar(s[j])
    decreases |s| - i
  {
    if i < |s| && IsWordChar(s[i]) then WordEnd(s, i + 1) else i
  }

  /** The end of the run of `\s` characters starting at `i`. */
  function SpaceEnd(s: string, i: nat): (j: nat)
    requires i <= |s|
    ensures i <= j <= |s|
    ensures forall k :: i <= k < j ==> IsSpace(s[k])
    ensures j == |s| || !IsSpace(s[j])
    decreases |s| - i
  {
    if i < |s| && IsSpace(s[i]) then SpaceEnd(s, i + 1) else i
  }

  /** The pattern tried at start position `i` (see the module comment). */
  function MatchAt(s: string, i: nat): (m: Option<Match>)
    requires i <= |s|
    ensures m.Some? ==> i < m.value.end <= |s|
  {
    var j := WordEnd(s, i);
    if j == i then None
    else
      var k := SpaceEnd(s, j);
      if !(k + 2 <= |s| && s[k] == ':' && s[k + 1] == '=') then None
      else
        var p := k + 2;
        if p == |s| || s[p] == ',' then None
        else
          var q := SpaceEnd(s, p);
          if q < |s| && s[q] != ',' then
            var r := CharEnd(s, q, ',');
            Some(Match(s[i..j], s[q..r], r))
          else
            Some(Match(s[i..j], s[q - 1..q], q))
  }

  /** A match's key is the whole non-empty word at the start position. */
  lemma MatchKey(s: string, i: nat)
    requires i <= |s|
    requires MatchAt(s, i).Some?
    ensures var m := MatchAt(s, i).value;
      m.key != "" && m.key == s[i..WordEnd(s, i)] && forall c :: c in m.key ==> IsWordChar(c)
  {
  }

  /** The key is followed, after optional spaces, by `:=`. */
  lemma MatchAssignment(s: string, i: nat)
    requires i <= |s|
    requires MatchAt(s, i).Some?
    ensures OccursAt(s, ":=", SpaceEnd(s, WordEnd(s, i)))
  {
    var k := SpaceEnd(s, WordEnd(s, i));
    assert s[k..k + 2] == [s[k], s[k + 1]];
  }

  /**
   * A match's value is non-empty and comma-free, and it runs up to the
   * match's end, which is the next comma or the end of the string.
   */
  lemma MatchValue(s: string, i: nat)
    requires i <= |s|
    requires MatchAt(s, i).Some?
    ensures var m := MatchAt(s, i).value;
      && m.value != "" && ',' !in m.value
      && m.value == s[m.end - |m.value|..m.end]
      && (m.end == |s| || s[m.end] == ',')
  {
    var j := WordEnd(s, i);
    var k := SpaceEnd(s, j);
    var p := k + 2;
    var q := SpaceEnd(s, p);
    if !(q < |s| && s[q] != ',') {
      assert IsSpace(s[p]);
    }
  }

  /**
   * A match's value starts at the first non-space after `:=`, or, when only
   * spaces follow `:=` up to a comma or the end, at the last of those spaces.
   */
  lemma MatchValueStart(s: string, i: nat)
    requires i <= |s|
    requires MatchAt(s, i).Some?
    ensures var m := MatchAt(s, i).value;
      var p := SpaceEnd(s, WordEnd(s, i)) + 2;
      p <= |s| &&
      var q := SpaceEnd(s, p);
      m.end - |m.value| == (if q < |s| && s[q] != ',' then q else q - 1)
  {
  }

  /** A match needs a `:=` somewhere in the string. */
  lemma MatchNeedsAssignment(s: string, i: nat)
    requires i <= |s|
    ensures MatchAt(s, i).Some? ==> IndexOf(s, ":=").Some?
  {
    if MatchAt(s, i).Some? {
      MatchAssignment(s, i);
    }
  }

  /** The successive results of `regex.exec(s)` once `lastIndex` is `i`. */
  function Matches(s: string, i: nat): seq<Match>
    requires i <= |s|
    decreases |s| - i
  {
    if i == |s| then []
    else match MatchAt(s, i)
      case Some(m) => [m] + Matches(s, m.end)
      case None => Matches(s, i + 1)
  }

  /** `properties[key] = value` */
  function Assign(props: map<string, string>, m: Match): map<string, string> {
    if m.key == ProtoKey then props else props[m.key := m.value]
  }

  /** Assigning the matches in order, starting from `props`. */
  function AssignAll(props: map<string, string>, ms: seq<Match>): map<string, string>
    decreases |ms|
  {
    if ms == [] then props else AssignAll(Assign(props, ms[0]), ms[1..])
  }

  /** What `extractProperties(exp)` returns. */
  function Extracted(exp: string): map<string, string> {
    AssignAll(map[], Matches(exp, 0))
  }

  /**
   * Each key holds the value of the LAST match that named it (later
   * assignments overwrite earlier ones), and no other key is present.
   */
  lemma {:induction false} LastWriteWins(props: map<string, string>, ms: seq<Match>, key: string)
    requires key != ProtoKey
    ensures var r := AssignAll(props, ms);
      key in r <==> key in props || exists i :: 0 <= i < |ms| && ms[i].key == key
    ensures var r := AssignAll(props, ms);
      forall i :: 0 <= i < |ms| && ms[i].key == key && (forall j :: i < j < |ms| ==> ms[j].key != key) ==>
        key in r && r[key] == ms[i].value
    ensures var r := AssignAll(props, ms);
      (forall i :: 0 <= i < |ms| ==> ms[i].key != key) ==> (key in r <==> key in props) && (key in props ==> r[key] == props[key])
    decreases |ms|
  {
    if ms != [] {
      var p1 := Assign(props, ms[0]);
      LastWriteWins(p1, ms[1..], key);
      assert forall i :: 1 <= i < |ms| ==> ms[1..][i - 1] == ms[i];
    }
  }

  /** An expression without any `:=` yields the empty object, never an error. */
  lemma {:induction false} NoAssignmentNoProperties(s: string, i: nat)
    requires i <= |s|
    requires IndexOf(s, ":=").None?
    ensures Matches(s, i) == []
    decreases |s| - i
  {
    if i < |s| {
      MatchNeedsAssignment(s, i);
      NoAssignmentNoProperties(s, i + 1);
    }
  }

  lemma NoAssignmentEmpty(exp: string)
    requires IndexOf(exp, ":=").None?
    ensures Extracted(exp) == map[]
  {
    NoAssignmentNoProperties(exp, 0);
  }

  /**
   * `extractProperties`: a `while ((match = regex.exec(exp)) !== null)` loop
   * that writes each match into `properties`.
   */
  method ExtractProperties(exp: string) returns (properties: map<string, string>)
    ensures properties == Extracted(exp)
    ensures forall key :: key != ProtoKey ==>
      (key in properties <==> exists i :: 0 <= i < |Matches(exp, 0)| && Matches(exp, 0)[i].key == key)
    ensures forall k :: k in properties ==> properties[k] != "" && ',' !in properties[k]
  {
    properties := map[];
    var lastIndex := 0;
    while lastIndex < |exp|
      invariant lastIndex <= |exp|
      invariant AssignAll(properties, Matches(exp, lastIndex)) == Extracted(exp)
      invariant forall k :: k in properties ==> properties[k] != "" && ',' !in properties[k]
      decreases |exp| - lastIndex
    {
      var m := MatchAt(exp, lastIndex);
      if m.Some? {
        MatchAdvance(exp, lastIndex, properties);
        properties := Assign(properties, m.value);
        lastIndex := m.value.end;
      } else {
        assert Matches(exp, lastIndex) == Matches(exp, lastIndex + 1);
        lastIndex := lastIndex + 1;
      }
    }
    ExtractedKeys(exp);
  }

  /** One successful `regex.exec`: the match is written and the search resumes at its end. */
  lemma MatchAdvance(exp: string, lastIndex: nat, properties: map<string, string>)
    requires lastIndex <= |exp| && MatchAt(exp, lastIndex).Some?
    requires forall k :: k in properties ==> properties[k] != "" && ',' !in properties[k]
    ensures var m := MatchAt(exp, lastIndex).value;
      && AssignAll(properties, Matches(exp, lastIndex)) == AssignAll(Assign(properties, m), Matches(exp, m.end))
      && forall k :: k in Assign(properties, m) ==> Assign(properties, m)[k] != "" && ',' !in Assign(properties, m)[k]
  {
    var m := MatchAt(exp, lastIndex).value;
    MatchValue(exp, lastIndex);
    assert Matches(exp, lastIndex) == [m] + Matches(exp, m.end);
  }

  /** Apart from `__proto__`, the extracted keys are exactly the keys the matches name. */
  lemma ExtractedKeys(exp: string)
    ensures forall key :: key != ProtoKey ==>
      (key in Extracted(exp) <==> exists i :: 0 <= i < |Matches(exp, 0)| && Matches(exp, 0)[i].key == key)
  {
    forall key | key != ProtoKey
      ensures key in Extracted(exp) <==> exists i :: 0 <= i < |Matches(exp, 0)| && Matches(exp, 0)[i].key == key
    {
      LastWriteWins(map[], Matches(exp, 0), key);
    }
  }

  /**
   * Writing one `key := value` and extracting it gives the pair back, as long
   * as the key is a word, the value is comma-free and does not start with a
   * space (`__proto__` is the one key that is dropped).
   */
  lemma SingleAssignment(key: string, value: string)
    requires key != [] && forall c :: c in key ==> IsWordChar(c)
    requires value != [] && ',' !in value && !IsSpace(value[0])
    ensures Extracted(key + " := " + value) == if key == ProtoKey then map[] else map[key := value]
  {
    var s := key + " := " + value;
    var n := |key|;
    var m := Match(key, value, |s|);
    assert s[0..n] == key && s[n + 4..|s|] == value;
    assert s[n] == ' ' && s[n + 1] == ':' && s[n + 2] == '=' && s[n + 3] == ' ' && s[n + 4] == value[0];
    assert forall k :: 0 <= k < n ==> s[k] == key[k] && IsWordChar(s[k]);
    assert forall k :: n + 4 <= k < |s| ==> s[k] == value[k - n - 4] && s[k] != ',';
    SingleAssignmentMatch(s, n);
    assert Matches(s, 0) == [m] + Matches(s, |s|) == [m];
    assert AssignAll(map[], [m]) == AssignAll(Assign(map[], m), []);
  }

  /**
   * A string made of a word of length `n`, then ` := `, then a comma-free
   * value that does not start with a space, is matched in one piece.
   */
  lemma SingleAssignmentMatch(s: string, n: nat)
    requires 0 < n && n + 4 < |s|
    requires forall k :: 0 <= k < n ==> IsWordChar(s[k])
    requires s[n] == ' ' && s[n + 1] == ':' && s[n + 2] == '=' && s[n + 3] == ' ' && !IsSpace(s[n + 4])
    requires forall k :: n + 4 <= k < |s| ==> s[k] != ','
    ensures MatchAt(s, 0) == Some(Match(s[0..n], s[n + 4..|s|], |s|))
  {
    assert WordEnd(s, 0) == n;
    assert SpaceEnd(s, n) == n + 1;
    assert SpaceEnd(s, n + 3) == n + 4;
    assert CharEnd(s, n + 4, ',') == |s|;
  }

  /**
   * The value is not cut at a closing parenthesis: in `name := 'x')` the
   * quotes and the `)` all belong to the value.
   */
  lemma ParenthesisKeptExample()
    ensures Extracted("name := 'x')") == map["name" := "'x')"]
  {
    assert forall c :: c in "name" ==> IsWordChar(c);
    ParenthesisKeptText();
    SingleAssignment("name", "'x')");
  }

  /** The example text, written as key, separator and value. */
  lemma ParenthesisKeptText()
    ensures "name" + " := " + "'x')" == "name := 'x')"
  {
  }
}

=== FILE: root_json_processor.dfy ===
/**
 * `processJsonData` of the root jsonProcessor.js: the older variant with
 * `collectProperties`, the missing-dependency `forEach` and `analyzeDiff`
 * inlined as closures. It has no array guard: the delta is computed first,
 * and a non-array snapshot only fails when `collectProperties` calls
 * `jsonData.forEach`. The delta is walked after the fetches.
 */
module RootJsonProcessor {
  import opened Wrappers
  import opened JsonValues
  import opened Dependencies
  import opened DiffAnalysis
  import opened ServiceJsonProcessor

  /** `jsonData.forEach(...)` on something that is not an array. */
  const NoForEach: string := "TypeError: jsonData.forEach is not a function"

  /**
   * The closure `analyzeDiff(diff)` on the fresh `changes` and `changeLogs`,
   * then the total computed inline from the three entry counters.
   */
  method WalkInlineTotal(diff: Option<Json>) returns (stats: ChangeStats, logs: seq<ChangeLogEntry>)
    ensures Summarizes(stats, logs, diff)
  {
    var changes := new Changes();
    var changeLogs := new ChangeLog();
    assert Tally(changes) == (0, 0, 0, 0) && changes.depth == 0 && changeLogs.entries == [];
    AnalyzeDiff(DeltaNode(diff), changes, changeLogs, "", 0);
    assert [] + Logs(DeltaNode(diff), "") == Logs(DeltaNode(diff), "");
    changes.totalChanges := changes.newEntries + changes.deletedEntries + changes.modifiedEntries;
    stats, logs := Snapshot(changes), changeLogs.entries;
    WalkSummarized(stats, logs, diff);
  }

  /**
   * `processJsonData(json1, json2)` (root version): the first snapshot is
   * collected before the second, so a non-array `json1` fails with the
   * `forEach` error whatever `json2` is; no request is made on any failure.
   */
  method ProcessJsonData(json1: Json, json2: Json, differ: Differ, patcher: Patcher, server: SourceServer)
    returns (r: Result<DiffResult>)
    modifies server
    ensures !json1.JArr? ==> r == Err(NoForEach)
    ensures json1.JArr? && Collected(json1.items).Err? ==> r == Err(Collected(json1.items).error)
    ensures json1.JArr? && Collected(json1.items).Ok? && !json2.JArr? ==> r == Err(NoForEach)
    ensures r.Ok? <==> json1.JArr? && json2.JArr? && Collectable(json1.items) && Collectable(json2.items)
    ensures r.Err? ==> server.requests == old(server.requests)
    ensures r.Ok? ==> ResultFor(r.value, json1, json2, differ, patcher, server.catalog)
    ensures r.Ok? ==> RequestsFor(json1, json2, old(server.requests), server.requests)
  {
    var diff := differ(json1, json2);
    var patchedObj := patcher(json1, diff);

    if !json1.JArr? {
      return Err(NoForEach);
    }
    CollectedFails(json1.items);
    var properties1 := CollectProperties(json1.items);
    if properties1.Err? {
      return Err(properties1.error);
    }
    if !json2.JArr? {
      return Err(NoForEach);
    }
    CollectedFails(json2.items);
    var properties2 := CollectProperties(json2.items);
    if properties2.Err? {
      return Err(properties2.error);
    }
    var missingDependencies := FindMissingDependencies(properties1.value, properties2.value);
    var missingDependenciesContent := FetchMissingDependenciesContent(missingDependencies, server);

    var stats, logs := WalkInlineTotal(diff);
    var result := DiffResult(diff, patchedObj, stats, logs,
      Merge(missingDependencies, missingDependenciesContent));
    ResultForIntro(result, json1, json2, differ, patcher, server.catalog,
      properties1.value, properties2.value, missingDependencies, missingDependenciesContent);
    r := Ok(result);
  }
}

=== FILE: services_message_queue.dfy ===
/**
 * services/messageQueue.js: the RabbitMQ-only delivery used by the `/diff`
 * route. Its retry condition is `attempt <= MAX_RETRIES`, so a chunk gets
 * one send plus up to five retries.
 */
module ServiceMessageQueue {
  import opened Delivery

  /** `attempt <= MAX_RETRIES` retries after attempts 1 to 5: six sends at most. */
  const MaxSends: nat := MaxRetries + 1

  /** The module state of services/messageQueue.js and the log of what it did. */
  class RabbitQueue {
    const rabbitmqEnabled: bool
    /** `rabbitChannel` is set */
    var rabbitChannel: bool
    /** `accepts(k)`: whether the k-th `sendToQueue` call succeeds */
    const accepts: nat -> bool
    /** The `sendToQueue` calls made so far: the index of the next answer of `accepts`. */
    var calls: nat
    var log: seq<Event>

    /**
     * `initializeRabbitMQ()`: a channel exists only when RabbitMQ is enabled and
     * `connect` and `createChannel` succeeded; it stays set even when
     * `assertQueue` then fails.
     */
    constructor(rabbitmqEnabled: bool, channelCreated: bool, accepts: nat -> bool)
      ensures this.rabbitmqEnabled == rabbitmqEnabled
      ensures rabbitChannel == (rabbitmqEnabled && channelCreated)
      ensures this.accepts == accepts && calls == 0 && log == []
    {
      this.rabbitmqEnabled := rabbitmqEnabled;
      rabbitChannel := rabbitmqEnabled && channelCreated;
      this.accepts := accepts;
      calls := 0;
      log := [];
    }

    /**
     * `sendToRabbitQueueWithRetry` (`attempt` counting from 1):
     * the log gains exactly one retry run with at most six sends.
     */
    method SendWithRetry(chunk: string, attempt: nat)
      requires 1 <= attempt <= MaxSends
      modifies this
      ensures log == old(log) + Retry(accepts, RabbitMQ, chunk, old(calls), attempt, MaxSends)
      ensures calls == old(calls) + Attempts(accepts, old(calls), attempt, MaxSends)
      ensures rabbitChannel == old(rabbitChannel)
      decreases MaxSends - attempt
    {
      var accepted := accepts(calls);
      if accepted {
        RetryLastStep(accepts, RabbitMQ, chunk, calls, attempt, MaxSends);
        log := log + [Send(RabbitMQ, attempt, chunk), Delivered(RabbitMQ, chunk)];
        calls := calls + 1;
      } else if attempt <= MaxRetries {
        ghost var pair := [Send(RabbitMQ, attempt, chunk), Wait(RetryDelay)];
        ghost var rest := Retry(accepts, RabbitMQ, chunk, calls + 1, attempt + 1, MaxSends);
        RetryFailStep(accepts, RabbitMQ, chunk, calls, attempt, MaxSends);
        log := log + [Send(RabbitMQ, attempt, chunk), Wait(RetryDelay)];
        calls := calls + 1;
        SendWithRetry(chunk, attempt + 1);
        ConcatAssoc(old(log), pair, rest);
      } else {
        RetryLastStep(accepts, RabbitMQ, chunk, calls, attempt, MaxSends);
        log := log + [Send(RabbitMQ, attempt, chunk), GaveUp(RabbitMQ, chunk)];
        calls := calls + 1;
      }
    }

    /**
     * `sendChunks(chunks)`: when RabbitMQ is enabled and has a channel, the
     * chunks are sent in order, each with its retries finished before the
     * next; otherwise only a warning. It never fails.
     */
    method SendChunks(chunks: seq<string>)
      modifies this
      ensures log == old(log) + BackendPart(rabbitmqEnabled && rabbitChannel, accepts, RabbitMQ, chunks, old(calls), MaxSends)
      ensures calls == old(calls) + BackendCalls(rabbitmqEnabled && rabbitChannel, accepts, chunks, old(calls), MaxSends)
      ensures rabbitChannel == old(rabbitChannel)
    {
      if !(rabbitmqEnabled && rabbitChannel) {
        log := log + [Skipped(RabbitMQ)];
        return;
      }
      ghost var start := log;
      ghost var k0 := calls;
      var i := 0;
      while i < |chunks|
        invariant i <= |chunks|
        invariant log == start + Prefix(accepts, RabbitMQ, chunks, i, k0, MaxSends)
        invariant calls == k0 + PrefixCalls(accepts, chunks, i, k0, MaxSends)
        invariant rabbitChannel == old(rabbitChannel)
      {
        SendRound(chunks, i, start, k0);
        i := i + 1;
      }
    }

    /** One round of the chunk loop: chunk `i` gets its retry run after the runs of the chunks before it. */
    method SendRound(chunks: seq<string>, i: nat, ghost start: seq<Event>, ghost k0: nat)
      requires i < |chunks|
      requires log == start + Prefix(accepts, RabbitMQ, chunks, i, k0, MaxSends)
      requires calls == k0 + PrefixCalls(accepts, chunks, i, k0, MaxSends)
      modifies this
      ensures log == start + Prefix(accepts, RabbitMQ, chunks, i + 1, k0, MaxSends)
      ensures calls == k0 + PrefixCalls(accepts, chunks, i + 1, k0, MaxSends)
      ensures rabbitChannel == old(rabbitChannel)
    {
      ghost var done := Prefix(accepts, RabbitMQ, chunks, i, k0, MaxSends);
      ghost var run := Retry(accepts, RabbitMQ, chunks[i], calls, 1, MaxSends);
      PrefixStep(accepts, RabbitMQ, chunks, i, k0, MaxSends);
      SendWithRetry(chunks[i], 1);
      ConcatAssoc(start, done, run);
    }
  }

  /** Each chunk gets at most six sends: the first attempt and five retries. */
  lemma AtMostSixSends(accepts: nat -> bool, chunk: string, k: nat)
    ensures 1 <= SendCount(Retry(accepts, RabbitMQ, chunk, k, 1, MaxSends)) <= 6
  {
    RetryLength(accepts, RabbitMQ, chunk, k, 1, MaxSends);
  }

  /** A broker that never accepts gets exactly six sends, and the chunk is dropped. */
  lemma NeverAcceptedSixSends(accepts: nat -> bool, chunk: string, k: nat)
    requires forall j :: !accepts(j)
    ensures var e := Retry(accepts, RabbitMQ, chunk, k, 1, MaxSends);
      SendCount(e) == 6 && e[|e| - 1] == GaveUp(RabbitMQ, chunk)
  {
    AllFailGivesUp(accepts, RabbitMQ, chunk, k, MaxSends);
  }

  /** Five failures then a success: delivered on the sixth send, where the other queue would have given up. */
  lemma SixthSendDelivers(accepts: nat -> bool, chunk: string, k: nat)
    requires forall j :: k <= j < k + 5 ==> !accepts(j)
    requires accepts(k + 5)
    ensures var e := Retry(accepts, RabbitMQ, chunk, k, 1, MaxSends);
      SendCount(e) == 6 && e[|e| - 1] == Delivered(RabbitMQ, chunk)
  {
    RetryLength(accepts, RabbitMQ, chunk, k, 1, MaxSends);
    RetryOutcome(accepts, RabbitMQ, chunk, k, 1, MaxSends);
    RetryFailsBeforeLast(accepts, k, 1, MaxSends);
  }
}

=== FILE: text.dfy ===
/**
 * The JavaScript string operations the modelled code relies on: the `\s` and
 * `\w` character classes, `trim`, `indexOf`, `split`, `join`, `replace`,
 * `startsWith`, `endsWith` and `includes`.
 */
module Text {
  import opened Wrappers

  /**
   * JavaScript's `\s`, which is also the set of characters `trim()` removes:
   * the WhiteSpace and LineTerminator code points of ECMAScript.
   */
  predicate IsSpace(c: char) {
    || c == ' ' || c == '\t' || c == '\n' || c == '\r'
    || c == '\U{000B}' || c == '\U{000C}' || c == '\U{00A0}' || c == '\U{1680}'
    || ('\U{2000}' <= c <= '\U{200A}')
    || c == '\U{2028}' || c == '\U{2029}' || c == '\U{202F}' || c == '\U{205F}'
    || c == '\U{3000}' || c == '\U{FEFF}'
  }

  /** JavaScript's `\w`: ASCII letters, digits and underscore. */
  predicate IsWordChar(c: char) {
    ('a' <= c <= 'z') || ('A' <= c <= 'Z') || ('0' <= c <= '9') || c == '_'
  }

  /** JavaScript's `\d`. */
  predicate IsDigit(c: char) {
    '0' <= c <= '9'
  }

  function TrimStart(s: string): (r: string)
    ensures |r| <= |s|
    ensures r == "" || !IsSpace(r[0])
  {
    if s != "" && IsSpace(s[0]) then TrimStart(s[1..]) else s
  }

  function TrimEnd(s: string): (r: string)
    ensures |r| <= |s|
    ensures r == "" || !IsSpace(r[|r| - 1])
  {
    if s != "" && IsSpace(s[|s| - 1]) then TrimEnd(s[..|s| - 1]) else s
  }

  /** `trimStart` keeps a suffix. */
  lemma {:induction false} TrimStartSuffix(s: string)
    ensures TrimStart(s) == s[|s| - |TrimStart(s)|..]
    decreases |s|
  {
    if s != "" && IsSpace(s[0]) {
      TrimStartSuffix(s[1..]);
      assert s[1..][|s| - 1 - |TrimStart(s)|..] == s[|s| - |TrimStart(s)|..];
    }
  }

  /** `trimEnd` keeps a prefix. */
  lemma {:induction false} TrimEndPrefix(s: string)
    ensures TrimEnd(s) == s[..|TrimEnd(s)|]
    decreases |s|
  {
    if s != "" && IsSpace(s[|s| - 1]) {
      TrimEndPrefix(s[..|s| - 1]);
    }
  }

  /** `s.trim()` */
  function Trim(s: string): (r: string)
    ensures |r| <= |s|
    ensures r == "" || (!IsSpace(r[0]) && !IsSpace(r[|r| - 1]))
  {
    var t := TrimStart(s);
    TrimEndPrefix(t);
    TrimEnd(t)
  }

  /** `trimStart` removes only white space. */
  lemma {:induction false} TrimStartRemovesSpaces(s: string)
    ensures forall i :: 0 <= i < |s| - |TrimStart(s)| ==> IsSpace(s[i])
    decreases |s|
  {
    if s != "" && IsSpace(s[0]) {
      TrimStartRemovesSpaces(s[1..]);
      forall i | 1 <= i < |s| - |TrimStart(s)|
        ensures IsSpace(s[i])
      {
        assert s[i] == s[1..][i - 1];
      }
    }
  }

  /** `trimEnd` removes only white space. */
  lemma {:induction false} TrimEndRemovesSpaces(s: string)
    ensures forall i :: |TrimEnd(s)| <= i < |s| ==> IsSpace(s[i])
    decreases |s|
  {
    if s != "" && IsSpace(s[|s| - 1]) {
      TrimEndRemovesSpaces(s[..|s| - 1]);
    }
  }

  /** `s.trim()` is empty exactly when `s` is all white space. */
  lemma TrimEmpty(s: string)
    ensures Trim(s) == "" <==> forall i :: 0 <= i < |s| ==> IsSpace(s[i])
  {
    var t := TrimStart(s);
    TrimStartSuffix(s);
    TrimEndPrefix(t);
    TrimStartRemovesSpaces(s);
    TrimEndRemovesSpaces(t);
    if Trim(s) == "" {
      forall i | 0 <= i < |s|
        ensures IsSpace(s[i])
      {
        if i >= |s| - |t| {
          assert s[i] == t[i - (|s| - |t|)];
        }
      }
    } else {
      var r := Trim(s);
      assert r[0] == t[0] == s[|s| - |t|];
    }
  }

  predicate OccursAt(s: string, pat: string, i: nat) {
    i + |pat| <= |s| && s[i..i + |pat|] == pat
  }

  /** The first `c` at or after `i`, or the end of the string: how far `[^c]+` can reach. */
  function CharEnd(s: string, i: nat, c: char): (j: nat)
    requires i <= |s|
    ensures i <= j <= |s|
    ensures forall k :: i <= k < j ==> s[k] != c
    ensures j == |s| || s[j] == c
    decreases |s| - i
  {
    if i < |s| && s[i] != c then CharEnd(s, i + 1, c) else i
  }

  /** The first occurrence of `pat` in `s` at or after `from`. */
  function IndexOfFrom(s: string, pat: string, from: nat): (r: Option<nat>)
    ensures r.Some? ==> from <= r.value && OccursAt(s, pat, r.value)
    ensures r.Some? ==> forall k :: from <= k < r.value ==> !OccursAt(s, pat, k)
    ensures r.None? ==> forall k :: from <= k ==> !OccursAt(s, pat, k)
    decreases |s| - from
  {
    if from + |pat| > |s| then None
    else if s[from..from + |pat|] == pat then Some(from)
    else IndexOfFrom(s, pat, from + 1)
  }

  /** `s.indexOf(pat)`, None for -1. */
  function IndexOf(s: string, pat: string): (r: Option<nat>)
    ensures r.Some? ==> OccursAt(s, pat, r.value) && forall k :: 0 <= k < r.value ==> !OccursAt(s, pat, k)
    ensures r.None? ==> forall k :: 0 <= k ==> !OccursAt(s, pat, k)
  {
    IndexOfFrom(s, pat, 0)
  }

  /** `s.includes(pat)` */
  predicate Contains(s: string, pat: string) {
    IndexOf(s, pat).Some?
  }

  /** `s.startsWith(p)` */
  predicate StartsWith(s: string, p: string) {
    |p| <= |s| && s[..|p|] == p
  }

  /** `s.endsWith(p)` */
  predicate EndsWith(s: string, p: string) {
    |p| <= |s| && s[|s| - |p|..] == p
  }

  /** `s.split(sep)` for a non-empty separator string. */
  function Split(s: string, sep: string): (parts: seq<string>)
    requires sep != ""
    ensures |parts| >= 1
    decreases |s|
  {
    match IndexOf(s, sep)
    case None => [s]
    case Some(k) => [s[..k]] + Split(s[k + |sep|..], sep)
  }

  /** `parts.join(sep)` */
  function Join(parts: seq<string>, sep: string): string {
    if parts == [] then ""
    else if |parts| == 1 then parts[0]
    else parts[0] + sep + Join(parts[1..], sep)
  }

  /** `s.replace(/pat/g, rep)` for a pattern that is a literal string. */
  function ReplaceAll(s: string, pat: string, rep: string): string
    requires pat != ""
  {
    Join(Split(s, pat), rep)
  }

  /**
   * `s.replace(pat, rep)` with a string pattern: only the first occurrence is
   * replaced (the `$`-patterns of the replacement are not interpreted here).
   */
  function ReplaceFirst(s: string, pat: string, rep: string): (r: string)
    ensures IndexOf(s, pat).None? ==> r == s
    ensures IndexOf(s, pat).Some? ==>
      var k := IndexOf(s, pat).value; r == s[..k] + rep + s[k + |pat|..]
  {
    match IndexOf(s, pat)
    case None => s
    case Some(k) => s[..k] + rep + s[k + |pat|..]
  }

  /** Splitting and joining again with the same separator gives back the string. */
  lemma {:induction false} JoinSplit(s: string, sep: string)
    requires sep != ""
    ensures Join(Split(s, sep), sep) == s
    decreases |s|
  {
    var idx := IndexOf(s, sep);
    if idx.Some? {
      var k := idx.value;
      var rest := s[k + |sep|..];
      var ps := Split(rest, sep);
      JoinSplit(rest, sep);
      assert Split(s, sep) == [s[..k]] + ps;
      JoinCons(s[..k], ps, sep);
      assert Join(Split(s, sep), sep) == s[..k] + sep + rest;
      assert s[k..k + |sep|] == sep;
      assert s == s[..k] + s[k..k + |sep|] + rest;
    } else {
      assert Split(s, sep) == [s];
    }
  }

  lemma JoinCons(a: string, ps: seq<string>, sep: string)
    requires ps != []
    ensures Join([a] + ps, sep) == a + sep + Join(ps, sep)
  {
    assert ([a] + ps)[1..] == ps;
  }

  /**
   * Joining parts that do not contain the one-character separator and
   * splitting again gives back the parts.
   */
  lemma {:induction false} SplitJoin(parts: seq<string>, sep: char)
    requires parts != []
    requires forall p :: p in parts ==> sep !in p
    ensures Split(Join(parts, [sep]), [sep]) == parts
    decreases |parts|
  {
    var s := Join(parts, [sep]);
    if |parts| == 1 {
      NoOccurrence(parts[0], sep);
    } else {
      var rest := Join(parts[1..], [sep]);
      assert s == parts[0] + [sep] + rest;
      var k := |parts[0]|;
      assert parts[0] in parts;
      assert OccursAt(s, [sep], k);
      forall j | 0 <= j < k ensures !OccursAt(s, [sep], j) {
        assert s[j] == parts[0][j];
        assert s[j..j + 1] == [s[j]];
      }
      assert IndexOf(s, [sep]) == Some(k);
      assert s[..k] == parts[0];
      assert s[k + 1..] == rest;
      SplitJoin(parts[1..], sep);
      assert Split(s, [sep]) == [parts[0]] + Split(rest, [sep]);
    }
  }

  lemma NoOccurrence(p: string, sep: char)
    requires sep !in p
    ensures IndexOf(p, [sep]).None?
  {
    forall k | 0 <= k ensures !OccursAt(p, [sep], k) {
      if k + 1 <= |p| {
        assert p[k..k + 1] == [p[k]];
      }
    }
  }

  /**
   * `s.replace(/<[^>]*>/g, "")`: every `<` that has a `>` somewhere after it
   * starts a tag running to the first such `>`, and the tag is removed.
   */
  function StripTags(s: string): (r: string)
    ensures |r| <= |s|
    decreases |s|
  {
    if s == "" then ""
    else if s[0] == '<' && IndexOf(s, ">").Some? then
      var j := IndexOf(s, ">").value;
      assert s[j] == '>';
      StripTags(s[j + 1..])
    else [s[0]] + StripTags(s[1..])
  }

  /** Without a `<` there is no tag, and nothing is removed. */
  lemma {:induction false} StripTagsNoOpen(s: string)
    requires '<' !in s
    ensures StripTags(s) == s
    decreases |s|
  {
    if s != "" {
      assert s[0] in s;
      assert forall c :: c in s[1..] ==> c in s;
      StripTagsNoOpen(s[1..]);
    }
  }

  /** Without a `>` no `<` can close a tag, and nothing is removed. */
  lemma {:induction false} StripTagsNoClose(s: string)
    requires '>' !in s
    ensures StripTags(s) == s
    decreases |s|
  {
    if s != "" {
      NoOccurrence(s, '>');
      assert forall c :: c in s[1..] ==> c in s;
      StripTagsNoClose(s[1..]);
    }
  }

  /** Text without a `<` in front of anything is kept as it is. */
  lemma {:induction false} StripTagsPrefix(a: string, rest: string)
    requires '<' !in a
    ensures StripTags(a + rest) == a + StripTags(rest)
    decreases |a|
  {
    if a != "" {
      var s := a + rest;
      assert s[0] == a[0] && a[0] in a;
      assert s[1..] == a[1..] + rest;
      assert forall c :: c in a[1..] ==> c in a;
      StripTagsPrefix(a[1..], rest);
      assert a == [a[0]] + a[1..];
    } else {
      assert a + rest == rest;
    }
  }

  /** A tag at the front is removed up to its first `>`, and the rest is stripped. */
  lemma StripTagsLeadingTag(t: string, b: string)
    requires '>' !in t
    ensures StripTags("<" + t + ">" + b) == StripTags(b)
  {
    var s := "<" + t + ">" + b;
    var j := |t| + 1;
    assert s[j..j + 1] == [s[j]] == ">";
    assert OccursAt(s, ">", j);
    forall k | 0 <= k < j
      ensures !OccursAt(s, ">", k)
    {
      if k > 0 {
        assert s[k] == t[k - 1] && t[k - 1] in t;
      }
      assert s[k..k + 1][0] == s[k];
    }
    assert IndexOf(s, ">") == Some(j);
    assert s[j + 1..] == b;
  }

  /**
   * Text before the first `<` is kept, a tag with no `>` inside it is removed,
   * and the text after it is stripped in turn.
   */
  lemma StripTagsTag(a: string, t: string, b: string)
    requires '<' !in a && '>' !in t
    ensures StripTags(a + "<" + t + ">" + b) == a + StripTags(b)
  {
    var rest := "<" + t + ">" + b;
    assert a + "<" + t + ">" + b == a + rest;
    StripTagsPrefix(a, rest);
    StripTagsLeadingTag(t, b);
  }
}

=== FILE: traffic_metrics.dfy ===
/**
 * services/trafficMetricsService.js: a module-level request counter and the
 * list of request times (`Date.now()`, here a parameter), which is never
 * pruned.
 */
module TrafficMetricsService {
  /** A request counts as recent when at most this many milliseconds old. */
  const Window: int := 60000

  /** The object `getTrafficMetrics` returns. */
  datatype Metrics = Metrics(requestCount: nat, requestsLastMinute: nat)

  predicate Recent(now: int, timestamp: int) {
    now - timestamp <= Window
  }

  /** `timestamps.filter((t) => now - t <= 60000).length` */
  function CountRecent(timestamps: seq<int>, now: int): (n: nat)
    ensures n <= |timestamps|
  {
    if timestamps == [] then 0
    else (if Recent(now, timestamps[0]) then 1 else 0) + CountRecent(timestamps[1..], now)
  }

  /** Appending one timestamp adds one to the count exactly when it is recent. */
  lemma {:induction false} CountRecentAppend(timestamps: seq<int>, t: int, now: int)
    ensures CountRecent(timestamps + [t], now) == CountRecent(timestamps, now) + (if Recent(now, t) then 1 else 0)
    decreases |timestamps|
  {
    if timestamps != [] {
      assert (timestamps + [t])[1..] == timestamps[1..] + [t];
      CountRecentAppend(timestamps[1..], t, now);
    } else {
      assert [t][1..] == [];
    }
  }

  /** Every timestamp within the window: all of them are counted. */
  lemma {:induction false} CountRecentAll(timestamps: seq<int>, now: int)
    requires forall i :: 0 <= i < |timestamps| ==> Recent(now, timestamps[i])
    ensures CountRecent(timestamps, now) == |timestamps|
    decreases |timestamps|
  {
    if timestamps != [] {
      CountRecentAll(timestamps[1..], now);
    }
  }

  /** No timestamp within the window: none is counted. */
  lemma {:induction false} CountRecentNone(timestamps: seq<int>, now: int)
    requires forall i :: 0 <= i < |timestamps| ==> !Recent(now, timestamps[i])
    ensures CountRecent(timestamps, now) == 0
    decreases |timestamps|
  {
    if timestamps != [] {
      CountRecentNone(timestamps[1..], now);
    }
  }

  /** The window is closed: a request exactly 60000 ms old is counted, one 60001 ms old is not. */
  lemma WindowBoundary(now: int)
    ensures CountRecent([now - 60000], now) == 1
    ensures CountRecent([now - 60001], now) == 0
  {
  }

  class TrafficMetrics {
    var requestCount: nat
    var requestTimestamps: seq<int>

    /** One timestamp per counted request. */
    predicate Valid()
      reads this
    {
      requestCount == |requestTimestamps|
    }

    constructor()
      ensures Valid() && requestCount == 0 && requestTimestamps == []
    {
      requestCount := 0;
      requestTimestamps := [];
    }

    /** `incrementRequestCount()` at time `now`. */
    method IncrementRequestCount(now: int)
      requires Valid()
      modifies this
      ensures Valid()
      ensures requestCount == old(requestCount) + 1
      ensures requestTimestamps == old(requestTimestamps) + [now]
      ensures GetTrafficMetrics(now).requestsLastMinute == old(GetTrafficMetrics(now).requestsLastMinute) + 1
    {
      CountRecentAppend(requestTimestamps, now, now);
      requestCount := requestCount + 1;
      requestTimestamps := requestTimestamps + [now];
    }

    /** `getTrafficMetrics()` at time `now`; it reads the state and changes nothing. */
    function GetTrafficMetrics(now: int): (m: Metrics)
      requires Valid()
      reads this
      ensures m.requestCount == requestCount
      ensures m.requestsLastMinute <= m.requestCount
    {
      Metrics(requestCount, CountRecent(requestTimestamps, now))
    }
  }
}

=== FILE: wrappers.dfy ===
/** Option and Result, the failure-carrying wrappers used throughout the model. */
module Wrappers {

  datatype Option<+T> = None | Some(value: T)

  /** A JavaScript call that either returns a value or throws an error. */
  datatype Result<+T> = Ok(value: T) | Err(error: string)
}
